=== FILE: README.md ===
# GraficaOS core in Dafny

GraficaOS is the back office of a print shop. It has three parts:

- **Time clock (ponto).** Employees punch in and out, and a job closes the open days at 22:00.
- **Daily checklist.** Employees tick off recurring tasks, and admins read a compliance report.
- **Kanban of print orders (artes).** Each order gets a sequential `ART-NNN` code.

This project models the rules behind these three parts.

- **Server side:** the services, the error middleware and the request schemas.
- **Client side:**
  - the rules the React pages compute from server data
  - the optimistic checklist update
  - the toast and session stores

The source is TypeScript. Data-access rows are immutable sequences (`seq<Ponto>`, a `Db` record holding every table). Every operation is a pure function over them.

The clock is always a parameter:
- the current instant `now` (milliseconds)
- the civil day `today` (a day number)
- the host's local midnight, `dayStart`
- the 22:00 cutoff

No time zone is invented. Ids of new rows, password hashing and date parsing are parameters as well.

Modules, one per source file, in dependency order:

| module | models |
|---|---|
| `Wrappers`, `Entities` | `Option`/`Result`, the persisted entities and enums |
| `JsText`, `JsMath`, `Seqs`, `Sorting` | JavaScript string and number behaviour the source relies on (truncating `%`, `Math.round`, `padStart`, `split`, `trim`, case mapping), list filters and a stable sort |
| `Horario` | how server and browser read an `"HH:MM"` deadline |
| `ErrorHandler` | `apps/api/src/middlewares/errorHandler.ts` |
| `PontoService` | `apps/api/src/services/ponto.service.ts` |
| `AutoClose` | `apps/api/src/jobs/fecharPontos.ts` |
| `ChecklistService` | `apps/api/src/services/checklist.service.ts` |
| `ArteService` | `apps/api/src/services/arte.service.ts` |
| `UserService` | `apps/api/src/services/user.service.ts` |
| `Zod`, `ChecklistController`, `ArteController` | the request schemas and the ADMIN gate of the two controllers |
| `PontoPage`, `UsePonto`, `GestaoPontos`, `PontoAnalytics`, `Funcionarios` | the time-clock pages and hook |
| `ArtesPage` | the Kanban page |
| `ChecklistDiario`, `UseChecklist` | the checklist page and its optimistic mutation |
| `ToastStore`, `AuthStore` | the two client stores |
| `SweepGap` | how the 22:00 sweep interacts with the punch state machine |

## Model

| member | source | states |
|---|---|---|
| ErrorHandler.Handle | apps/api/src/middlewares/errorHandler.ts:13-31 | P2002 gives 409 and P2025 gives 404, whatever the status code. Any other error gives its status code, or 500 without one. A 500 always carries the generic message; other statuses echo the error's message. |
| ErrorHandler.UnclassifiedIsInternal | apps/api/src/middlewares/errorHandler.ts:28-29 | An error with neither a status code nor a code (a schema failure) becomes 500 with the generic message. |
| ErrorHandler.FromService | apps/api/src/middlewares/errorHandler.ts:9-31 | A service success becomes the handler's status with the value. A failure becomes the middleware's response. |
| PontoService.FindDaily | apps/api/src/services/ponto.service.ts:55-59 | The lookup on the `userId_date` key finds a record of that user and day, and finds none only when there is none. |
| PontoService.NextSlot | apps/api/src/services/ponto.service.ts:75-102 | The next slot is the first empty one in the order entrada, almoco, retorno, saida. Every earlier slot is filled, and there is none exactly when all four are filled. |
| PontoService.BaterPonto | apps/api/src/services/ponto.service.ts:50-105 | With no record today, the punch appends one with only entrada = now. Otherwise it fills exactly the first empty slot of the user's record; the other records and the other fields stay as they were. With all four filled it fails with "Jornada do dia já encerrada", status 400, and the table does not change. |
| PontoService.BaterPontoKeepsUniqueDaily | apps/api/src/services/ponto.service.ts:55-71 | A punch never creates a second record for the same user and day. |
| PontoService.BaterPontoKeepsPrefix | apps/api/src/services/ponto.service.ts:75-98 | When every record's filled slots form a prefix, they still do after a punch, and a successful punch on an existing record fills one more slot. |
| PontoService.WorkedMs | apps/api/src/services/ponto.service.ts:130-138 | There is no total exactly when entrada or saida is missing. The lunch (retorno − almoco) is subtracted only when both are set. |
| PontoService.CalcularHoras | apps/api/src/services/ponto.service.ts:124-145 | The text is null exactly when entrada or saida is missing. |
| PontoService.FormatHorasReadsBack | apps/api/src/services/ponto.service.ts:140-144 | For a non-negative total, the text is digits, `h`, two digits below 60 and `m`, and hours·60 + minutes = ⌊ms/60000⌋. |
| PontoService.NegativeHalfHour | apps/api/src/services/ponto.service.ts:140-144 | The truncating remainder makes a total of −30 minutes read "-1h-30m". |
| PontoService.WorkedDayExample | apps/api/src/services/ponto.service.ts:132-138 | A day of 08:00–12:00 and 13:00–17:30 reads "8h30m". Without lunch punches the same day reads "9h30m". |
| PontoService.ReportScope | apps/api/src/services/ponto.service.ts:158-160 | A non-ADMIN caller is restricted to their own id, whatever `userId` they pass. An ADMIN gets `userId` or everybody. |
| PontoService.ReportRecords | apps/api/src/services/ponto.service.ts:162-176 | The report holds exactly the records in scope and date range (as a multiset), by ascending date. |
| PontoService.GetRelatorio | apps/api/src/services/ponto.service.ts:148-183 | Every row carries `horasTrabalhadas = calcularHoras(row)`. Rows lie in the date range and are sorted by date. A non-ADMIN sees only their own rows. |
| AutoClose.Close | apps/api/src/jobs/fecharPontos.ts:30-38 | An open record of today gets saida = cutoff and the automatic flag; any other record is returned as it was. |
| AutoClose.FecharPontosAbertos | apps/api/src/jobs/fecharPontos.ts:7-52 | Only today's records with entrada and without saida are closed, at the cutoff with the automatic flag; their other slots are untouched and all other records are unchanged. `encerrados` is the number closed. `usuarios` holds, in table order, one entry per closed record: its user's id, the joined user's name and its entrada. With nothing open, the table is unchanged and the result is `{0, []}`. |
| AutoClose.OpenUsersInOrder | apps/api/src/jobs/fecharPontos.ts:40-44 | Entry k of the name list is the id, name and entrada of the k-th open record in table order. |
| AutoClose.OpenUsersComplete | apps/api/src/jobs/fecharPontos.ts:40-44 | Every open record of today has its entry in the name list. |
| AutoClose.SweepIdempotent | apps/api/src/jobs/fecharPontos.ts:15-38 | A second sweep without punches in between closes nothing and changes nothing. |
| SweepGap.SweepKeepsLookup | apps/api/src/jobs/fecharPontos.ts:30-38 | The sweep leaves every user's daily record where the punch looks for it. |
| SweepGap.SweepBreaksPrefix | apps/api/src/jobs/fecharPontos.ts:30-38 | An open record without lunch is closed with empty middle slots, so its filled slots no longer form a prefix. |
| SweepGap.PunchAfterSweepWritesLunchAfterExit | apps/api/src/services/ponto.service.ts:81-86 | As written: a punch after the sweep on such a record is accepted and writes almoco later than saida. |
| SweepGap.SweptDayExample | apps/web/src/pages/Ponto.tsx:42-50 | The worked case: in at 09:00, swept at 22:00, punched at 22:30. The button offered "Saída para Almoço", the server stores lunch at 22:30, and the toast reads "Saída registrada às 22:30". |
| SweepGap.BaterPontoFixed | apps/api/src/services/ponto.service.ts:93-102 | Corrected punch: a record whose saida is set is closed and the punch fails with status 400. Otherwise it is the original punch. |
| SweepGap.FixedAgreesOnPrefixRecords | apps/api/src/services/ponto.service.ts:75-102 | On tables whose records keep the prefix shape, the corrected punch is the original one. |
| SweepGap.FixedKeepsClosedRecords | apps/api/src/services/ponto.service.ts:93-102 | With the correction, no punch changes a record that has saida. |
| SweepGap.FixedRefusesAfterSweep | apps/api/src/jobs/fecharPontos.ts:30-38 | With the correction, a punch on a swept day is refused and the table is unchanged. |
| ChecklistService.IsAtrasado | apps/api/src/services/checklist.service.ts:14-20 | The item is never late without a deadline or once done. When late, the deadline parses and now is after that day's deadline. |
| ChecklistService.AtrasadoAtDeadline | apps/api/src/services/checklist.service.ts:14-20 | For an `HH:MM` deadline on a pending item, late exactly when now is strictly after h:m of now's day. |
| ChecklistService.IsNoHorario | apps/api/src/services/checklist.service.ts:22-27 | False without feitoEm or deadline. When true, feitoEm is at or before the deadline on its own day. |
| ChecklistService.NoHorarioAtDeadline | apps/api/src/services/checklist.service.ts:22-27 | For an `HH:MM` deadline, on time exactly when feitoEm ≤ h:m of feitoEm's day. |
| ChecklistService.ListarItens | apps/api/src/services/checklist.service.ts:31-38 | ADMIN gets every item and others only active ones (as a multiset), by ascending ordem. |
| ChecklistService.DefaultOrdem | apps/api/src/services/checklist.service.ts:46-52 | Without items the default ordem is 1. Otherwise it is one more than the largest ordem. |
| ChecklistService.CriarItem | apps/api/src/services/checklist.service.ts:40-55 | Appends one active item with the given fields, using the given ordem or the default. |
| ChecklistService.EditarItem | apps/api/src/services/checklist.service.ts:57-70 | A missing id is the not-found error, and success holds exactly when the id exists. On success only that item changes. titulo and ordem take the given value or stay; descricao and horarioLimite take the given value or stay; id and ativo never change. |
| ChecklistService.ToggleAtivoItem | apps/api/src/services/checklist.service.ts:72-78 | Negates `ativo` of that item only. A missing id is the not-found error. |
| ChecklistService.ToggleTwiceRestores | apps/api/src/services/checklist.service.ts:72-78 | Toggling twice restores the table. |
| ChecklistService.DeletarItem | apps/api/src/services/checklist.service.ts:80-82 | Removes exactly the item with that id. A missing id is the not-found error. |
| ChecklistService.ActiveItems | apps/api/src/services/checklist.service.ts:89-92 | The active items, all of them (as a multiset), by ascending ordem. |
| ChecklistService.ToItemHoje | apps/api/src/services/checklist.service.ts:106-127 | The item's id, ativo, ordem, titulo, descricao and deadline are copied. `feito` is the row's flag, false without a row. `feitoEm` is the row's, null without one. `feitoPor` is the row's user exactly when done, else null. `atrasado` is the late test of the deadline against now, so a done item is never late. |
| ChecklistService.GetChecklistHoje | apps/api/src/services/checklist.service.ts:86-128 | One entry per active item, in ordem order, carrying that item's id, titulo and deadline. `feito` is the flag of the latest row of today for the item, a row of the table. `feitoEm` is that row's. `feitoPor` is its user exactly when done, else null. `atrasado` is the late test against now, never true for a done item. |
| ChecklistService.MarcarItem | apps/api/src/services/checklist.service.ts:130-167 | An unknown item is not found. An existing row of today flips feito: feitoEm = now and the caller as userId when it becomes done; feitoEm null and the previous userId when undone. Without a row it appends a done row by the caller at now. The reply is today's checklist over the new table. |
| ChecklistService.FirstMarkShowsDone | apps/api/src/services/checklist.service.ts:152-166 | The first mark of the day shows the item done by the caller at now and not late. |
| ChecklistService.Dia | apps/api/src/services/checklist.service.ts:212-243 | One day: totalItens = number of active items; itensConcluidos = number of entries done, at most the total; percentual = round(100·c/t), i.e. 2t·p ≤ 200c + t < 2t·p + 2t, within 0..100, and 0 without items. Entry i carries item i's titulo and deadline, and `feito`, `feitoEm` and the user's name as `feitoPor` from that day's latest row (null without one). `noHorario` is the on-time test of that feitoEm. |
| ChecklistService.ToItemRelatorio | apps/api/src/services/checklist.service.ts:218-230 | titulo and deadline are the item's. feito is the row's flag, false without a row. feitoEm and the user's name are the row's, both null without a row. noHorario is the on-time test of that feitoEm. |
| ChecklistService.GetRelatorio | apps/api/src/services/checklist.service.ts:171-246 | One entry per calendar day from start to end, and entry k is exactly the `Dia` of start + k, so it carries every per-item flag and per-day total `Dia` states. Each has total = number of active items, concluded ≤ total, and percentual = round(100·concluded/total) within 0..100. |
| ChecklistService.ReportNamesUnmarker | apps/api/src/services/checklist.service.ts:216-231 | The report names whoever last touched the row even when it was unmarked, where today's view shows nobody. |
| ArteService.MaxCodigo | apps/api/src/services/arte.service.ts:35-38 | The row `orderBy codigo desc` returns first is a code of the table, and no code sorts above it as a string. |
| ArteService.LexLessTotal | apps/api/src/services/arte.service.ts:35-37 | The string order used for `codigo` is total. |
| ArteService.GerarCodigoArte | apps/api/src/services/arte.service.ts:34-45 | "ART-001" on an empty table, and always a code starting with "ART-". The number it carries is stated by ArteService.GerarFollowsTop and ArteService.NonNumericTopRestarts. |
| ArteService.GerarFollowsTop | apps/api/src/services/arte.service.ts:35-44 | On a non-empty table, the number read back from the generated code is one more than the number parsed from the greatest code (when that is at least −1). |
| ArteService.NonNumericTopRestarts | apps/api/src/services/arte.service.ts:42-43 | When the greatest code, with "ART-" removed, parses as NaN, the NaN counts as 0 and the next code is "ART-001". |
| ArteService.NonNumericSuffixRestarts | apps/api/src/services/arte.service.ts:42-43 | A greatest code "ART-" + s, where s starts with neither a digit, a sign nor white space, parses as NaN, so the next code is "ART-001". |
| ArteService.CodeRoundTrip | apps/api/src/services/arte.service.ts:42-44 | Reading back the suffix of a generated code gives its number. |
| ArteService.NextAfterCanonical | apps/api/src/services/arte.service.ts:35-44 | When the greatest code is `ART-n` in canonical form, the next code is `ART-(n+1)`. |
| ArteService.ThousandSortsFirst | apps/api/src/services/arte.service.ts:36 | "ART-999" sorts above "ART-1000" as a string. |
| ArteService.ThousandRegenerated | apps/api/src/services/arte.service.ts:34-45 | As written: with ART-999 and ART-1000 present, the generator returns ART-1000 again, a code already taken. |
| ArteService.GerarCodigoNumerico | apps/api/src/services/arte.service.ts:34-45 | Corrected generator (numeric maximum): "ART-001" on an empty table, and never a code already in the table. |
| ArteService.NewArte | apps/api/src/services/arte.service.ts:72-85 | A new arte is TODO. quantidade defaults to 1 and urgencia to NORMAL; an absent or empty prazo and an absent observacoes are null. |
| ArteService.Insert | apps/api/src/services/arte.service.ts:71-92 | The insert fails on a taken codigo with the unique violation, then on an unknown responsável with the foreign-key error, and otherwise appends. |
| ArteService.CreateArte | apps/api/src/services/arte.service.ts:64-106 | Between 1 and 3 attempts. A success appends the new arte, with a code not in the table it was generated from. A failure leaves the table as that attempt saw it. |
| ArteService.CreateArteOutcome | apps/api/src/services/arte.service.ts:93-105 | Every retried attempt hit a taken code. A failure is the unique violation, the foreign-key error or the Invalid Date error. A unique failure comes only after all three attempts hit taken codes. |
| ArteService.ForeignKeyNotRetried | apps/api/src/services/arte.service.ts:94-100 | Any other error propagates from the first attempt without a retry. |
| ArteService.CreateArteStuck | apps/api/src/services/arte.service.ts:65-105 | As written: once ART-999 and ART-1000 exist, every creation exhausts its three attempts and the client receives 409. |
| ArteService.CreateArteNumerico | apps/api/src/services/arte.service.ts:64-106 | Corrected creation: one attempt, which succeeds whenever the responsável exists. |
| ArteService.ApplyEdicao | apps/api/src/services/arte.service.ts:110-122 | Each of clienteNome, clienteNumero, orcamentoNum, produto, quantidade, largura, altura, responsavelId, urgencia and observacoes takes the given value when defined and stays otherwise. An absent prazo stays, a null or empty one becomes null, and any other prazo becomes its parsed date. Id, code, status and creation time never change. |
| ArteService.UpdateArte | apps/api/src/services/arte.service.ts:109-134 | A prazo that does not parse fails with the Invalid Date error first. Then a missing id is the not-found error. Then an unknown responsavelId is the foreign-key error. Success holds exactly when none of these applies, and then only that arte changes, to the edited one. |
| ArteService.UpdateArteKeepsReferences | apps/api/src/services/arte.service.ts:124-133 | A successful update keeps every reference resolving: each arte's responsável and each file's arte still exist. |
| ArteService.EmptyUpdateIsIdentity | apps/api/src/services/arte.service.ts:110-122 | An update with no fields changes nothing. |
| ArteService.UpdateArteStatus | apps/api/src/services/arte.service.ts:137-148 | Changes only that arte's status, or fails with not-found. |
| ArteService.ListArtes | apps/api/src/services/arte.service.ts:48-61 | ADMIN gets every arte and others exactly their own (as a multiset), newest first. |
| ArteService.DeleteArte | apps/api/src/services/arte.service.ts:151-172 | A missing arte fails with "Arte não encontrada" and 404. Otherwise the arte and its files go and everything else stays. |
| ArteService.DeleteArteKeepsReferences | apps/api/src/services/arte.service.ts:170-171 | After the cascade, every remaining file still points at an existing arte. |
| ArteService.AddArquivos | apps/api/src/services/arte.service.ts:175-196 | One file row per upload, appended in order with `/uploads/<filename>` as URL. With at least one file, an unknown arte is a foreign-key failure; with none, nothing is written and nothing fails. |
| ArteService.DeleteArquivo | apps/api/src/services/arte.service.ts:199-215 | A file not belonging to the arte fails with "Arquivo não encontrado" and 404. Otherwise exactly one row goes. |
| UserService.GetInitials | apps/api/src/services/user.service.ts:22-28 | One word gives its first two characters uppercased. Several words give the first letters of the first and last words, uppercased. |
| UserService.InitialsOfTwoWords | apps/api/src/services/user.service.ts:22-28 | Two words without spaces, trimmed already, give the uppercased first letters of each. |
| UserService.InitialsOfOneWord | apps/api/src/services/user.service.ts:22-26 | A single trimmed word gives its first two characters uppercased, or that one character uppercased when the word has only one. |
| UserService.CreateUser | apps/api/src/services/user.service.ts:49-73 | Appends an active user: role defaults to EMPLOYEE, color to #6c63ff, initials come from the name, and the password is hashed. A taken email is the unique violation. |
| UserService.ApplyEdicao | apps/api/src/services/user.service.ts:79-90 | A non-empty name updates name and initials together. email, role and avatarColor are copied only when truthy. active is copied whenever defined. A non-empty password is hashed. |
| UserService.FalsyNameKeptFalseActiveApplied | apps/api/src/services/user.service.ts:79-86 | An empty name is ignored while `active: false` is applied. |
| UserService.UpdateUser | apps/api/src/services/user.service.ts:76-107 | A missing id is the not-found error; a truthy email held by another user is the email unique violation. Success holds exactly when neither applies, and then only that user changes, to the edited one. |
| UserService.DeleteUser | apps/api/src/services/user.service.ts:110-120 | The soft delete sets only `active` to false, or fails with not-found. |
| UserService.DeleteUserIdempotent | apps/api/src/services/user.service.ts:110-120 | Deactivating twice is deactivating once. |
| UserService.HardDeleteUser | apps/api/src/services/user.service.ts:123-142 | Removes the user's checklist rows, time records, the files of the user's artes, those artes and the user, and nothing else. |
| UserService.HardDeleteKeepsReferences | apps/api/src/services/user.service.ts:124-136 | The cascade order leaves no dangling reference. |
| Zod.Req | apps/api/src/controllers/checklist.controller.ts:7-12 | A required field passes exactly when present and valid, yielding its checked value. Otherwise it fails naming the field. |
| Zod.Opt | apps/api/src/controllers/checklist.controller.ts:9-11 | An optional field passes when absent (yielding nothing) or when valid. |
| Zod.Nullable | apps/api/src/controllers/arte.controller.ts:29-30 | A nullable optional field also passes on null, yielding an explicit null. |
| ChecklistController.ParseCriarItem | apps/api/src/controllers/checklist.controller.ts:7-12 | Accepts exactly the bodies with titulo of 2..100 characters, descricao ≤ 300, an `NN:NN` deadline and an integer ordem ≥ 0, and yields those fields. |
| ChecklistController.ParseEditarItem | apps/api/src/controllers/checklist.controller.ts:14-19 | The same constraints with every field optional. |
| ChecklistController.CreateBodyIsEditBody | apps/api/src/controllers/checklist.controller.ts:7-19 | Every valid create body is a valid edit body with the same fields. |
| ChecklistController.SchemaExamples | apps/api/src/controllers/checklist.controller.ts:8-10 | "99:99" passes the deadline shape, and a one-character titulo is refused. |
| ChecklistController.ParseRelatorioQuery | apps/api/src/controllers/checklist.controller.ts:21-24 | Accepts exactly two `DDDD-DD-DD` dates. |
| ChecklistController.CriarItem | apps/api/src/controllers/checklist.controller.ts:39-51 | A non-ADMIN gets 403 before parsing. An invalid body gives 500. Otherwise it answers 201 with the appended item. |
| ChecklistController.EditarItem | apps/api/src/controllers/checklist.controller.ts:54-66 | 403 for a non-ADMIN, 500 for an invalid body, 404 for a missing item. An ADMIN edit of an existing item stores the service's edit of the parsed fields and answers 200 with that edited item. |
| ChecklistController.ToggleItem | apps/api/src/controllers/checklist.controller.ts:69-80 | 403 for a non-ADMIN and 404 for a missing item. An existing item under ADMIN gets 200, with that item's `ativo` negated and every other item unchanged; the reply is the toggled item. |
| ChecklistController.DeletarItem | apps/api/src/controllers/checklist.controller.ts:83-94 | 403 for a non-ADMIN and 404 for a missing item. An existing item under ADMIN is removed and answered with `{ok: true}`: the table loses exactly that row, and every item with another id stays. |
| ChecklistController.Relatorio | apps/api/src/controllers/checklist.controller.ts:117-129 | 403 for a non-ADMIN, 500 for malformed dates, and 500 for well-shaped dates that name no day (an Invalid Date filter). Otherwise 200 with one report entry per day from start to end. |
| ArteController.EnumsAcceptTheirNames | apps/api/src/controllers/arte.controller.ts:9-14 | The produto, urgencia and status enums accept exactly their own names. |
| ArteController.ParseCreate | apps/api/src/controllers/arte.controller.ts:5-17 | Accepts exactly the bodies meeting the create schema: non-empty cliente fields and responsável, a known produto, integer quantidade ≥ 1, positive largura and altura, a known urgencia. On success the parsed record holds exactly the body's values: the required strings and numbers as given, the named produto, and quantidade, urgencia, prazo and observacoes when present. |
| ArteController.ParseUpdate | apps/api/src/controllers/arte.controller.ts:19-31 | The same constraints, all optional. On success each field of the parsed edit is the body's value when the key is present and absent otherwise; prazo and observacoes may be null, which yields an explicit null. |
| ArteController.CreateBodyIsUpdateBody | apps/api/src/controllers/arte.controller.ts:5-31 | Every valid create body is a valid update body, and the update sets each field the create gives to the same value. |
| ArteController.ParseStatus | apps/api/src/controllers/arte.controller.ts:33-35 | Accepts exactly TODO, DOING, REVIEW and DONE. |
| ArteController.Create | apps/api/src/controllers/arte.controller.ts:46-54 | An invalid body gives 500 and no write, and so does a prazo that does not parse. A success is 201 with a TODO arte appended, carrying the body's clienteNome and quantidade (1 when absent). A valid body fails only with 409 or 500. |
| ArteController.CreateInvalidPrazo | apps/api/src/services/arte.service.ts:72-85 | A prazo that does not parse makes the creation fail on its first attempt with the Invalid Date error, which the middleware turns into 500. |
| ArteController.Update | apps/api/src/controllers/arte.controller.ts:56-64 | 500 for an invalid body or a prazo that does not parse, 404 for a missing arte, and 500 for an unknown responsavelId. A success is 200, changes only that arte, keeps its code and status, writes a given responsavelId and keeps an absent clienteNome. The stored arte is the old one with the parsed body's fields applied, and the reply is that stored arte. |
| ArteController.UpdateStatus | apps/api/src/controllers/arte.controller.ts:66-74 | A bad status gives 500, and a missing arte 404 with the table unchanged. An existing arte gets 200 with its status set to the requested one and every other field and arte unchanged; the reply is that arte. |
| ArteController.UploadArquivos | apps/api/src/controllers/arte.controller.ts:85-99 | No files gives 400 without touching the tables. A success adds one row per file and answers 200 with the unchanged arte together with its files: every earlier file of that arte and every new one, and no file of another arte. |
| PontoPage.CalcularHorasMatchesServer | apps/web/src/pages/Ponto.tsx:12-22 | The page's hours text is the server's for every record. |
| PontoPage.GetPontoStatusLabel | apps/web/src/pages/Ponto.tsx:25-29 | Completo iff saida; Parcial iff entrada without saida; Falta otherwise. |
| PontoPage.StatusOnPrefixRecords | apps/web/src/pages/Ponto.tsx:25-29 | On prefix-shaped records, Completo iff all four slots are set, and Falta iff none is. |
| PontoPage.GetButtonState | apps/web/src/pages/Ponto.tsx:32-77 | The button names the slot the server fills next. It is disabled iff all four slots are filled, and then reads "Expediente Encerrado". |
| PontoPage.ButtonAnnouncesNextPunch | apps/web/src/pages/Ponto.tsx:32-68 | Pressing an enabled button fills exactly the slot it names. |
| PontoPage.GetWorkingStatus | apps/web/src/pages/Ponto.tsx:80-86 | Null iff no entrada; encerrado iff saida; "No almoço" iff almoco without retorno or saida. |
| PontoPage.FmtTime | apps/web/src/pages/Ponto.tsx:89-92 | '—' for null, otherwise the HH:mm rendering. |
| UsePonto.Batida | apps/web/src/hooks/usePonto.ts:25-28 | The slot named is the latest filled one in punch order, or Entrada. |
| UsePonto.DetectNamesPunchedSlot | apps/web/src/hooks/usePonto.ts:23-29 | On prefix-shaped records, the toast names the slot the punch just filled. |
| UsePonto.FirstPunchIsEntrada | apps/web/src/hooks/usePonto.ts:28 | The first punch of the day is announced as Entrada. |
| UsePonto.RelatorioEnabled | apps/web/src/hooks/usePonto.ts:53 | The report query runs iff both dates are non-empty. |
| GestaoPontos.GetStatusLabel | apps/web/src/pages/GestaoPontos.tsx:32-38 | Completo iff saida; Almoço iff almoco without retorno and saida; Ausente iff no timestamp at all. |
| GestaoPontos.HoursTextIsClean | apps/web/src/pages/GestaoPontos.tsx:49 | The hours text is never the dash and contains no comma, quote or line feed. |
| GestaoPontos.Fields | apps/web/src/pages/GestaoPontos.tsx:47-50 | Nine fields: name, "Funcionário", date, the entrada, almoco, retorno and saida times ('—' when unset), the hours ('—' iff entrada or saida is missing, otherwise the page's hours text) and the status label. |
| GestaoPontos.RowHasNineFields | apps/web/src/pages/GestaoPontos.tsx:50 | With clean renderings, a row splits on commas into exactly the nine quoted fields. |
| GestaoPontos.NameIsNotEscaped | apps/web/src/pages/GestaoPontos.tsx:50 | The name is written between quotes verbatim, with no escaping. |
| GestaoPontos.ExportCsv | apps/web/src/pages/GestaoPontos.tsx:45-52 | The file starts with the byte order mark U+FEFF, then the fixed header. |
| GestaoPontos.OneLinePerRecord | apps/web/src/pages/GestaoPontos.tsx:46-52 | After the byte order mark and the header, the file splits into exactly one line per record, in input order. |
| GestaoPontos.GetStats | apps/web/src/pages/GestaoPontos.tsx:76-80 | totalRegistros is the number of records; completos counts those with saida; trabalhando those with entrada and no saida, so together at most the total. The absences shown are max(0, active users − records). |
| PontoAnalytics.Minutes | apps/web/src/pages/PontoAnalytics.tsx:136-138 | A kept record counts its worked minutes, clamped at 0. |
| PontoAnalytics.AddRecord | apps/web/src/pages/PontoAnalytics.tsx:134-145 | A record without entrada or saida is skipped. A known user's bucket grows by the record's minutes. A new user gets a bucket at the end, named by first name. |
| PontoAnalytics.Group | apps/web/src/pages/PontoAnalytics.tsx:131-145 | Exactly one bucket per user with a kept record. Its minutes are the sum over that user's kept records. |
| PontoAnalytics.HorasPorFunc | apps/web/src/pages/PontoAnalytics.tsx:146-148 | One bar per bucket (as a multiset), sorted by hours descending. |
| PontoAnalytics.BarRoundsToTenths | apps/web/src/pages/PontoAnalytics.tsx:147 | A bar's tenths of an hour are the bucket's minutes rounded to the nearest 6. |
| Funcionarios.PontosHoje | apps/web/src/pages/Funcionarios.tsx:224-226 | Exactly the records dated today. |
| Funcionarios.GetUserPontoStatus | apps/web/src/pages/Funcionarios.tsx:260-266 | Ausente without a record today or without entrada; otherwise the classifier of the first record found. |
| Funcionarios.Classify | apps/web/src/pages/Funcionarios.tsx:262-265 | Ausente iff no entrada; Completo iff entrada and saida; Almoço iff almoco without retorno and saida. |
| Funcionarios.ClassifiersAgree | apps/web/src/pages/Funcionarios.tsx:260-266 | This page and the time-clock management page agree on a record iff it has entrada or has no later slot either. |
| Funcionarios.UserArtesAtivasCounts | apps/web/src/pages/Funcionarios.tsx:268-270 | A user's active artes are their non-DONE artes. |
| Funcionarios.GetStats | apps/web/src/pages/Funcionarios.tsx:229-236 | totalCount counts the users and activeCount the active ones. presentesToday counts today's records with entrada, at most today's records. ausentesHoje is active minus present. artesAtivasTotal counts the artes not DONE. |
| Funcionarios.AusentesShown | apps/web/src/pages/Funcionarios.tsx:309 | The displayed absences are max(0, active − present). |
| Funcionarios.NobodyInMeansAllAbsent | apps/web/src/pages/Funcionarios.tsx:234-236 | With no entrada anywhere, every active user counts as absent and every badge reads Ausente. |
| ArtesPage.NextStatus | apps/web/src/pages/Artes.tsx:587-588 | None iff DONE; otherwise the adjacent later status. |
| ArtesPage.PrevStatus | apps/web/src/pages/Artes.tsx:589 | None iff TODO; otherwise the adjacent earlier status. |
| ArtesPage.NextPrevInverse | apps/web/src/pages/Artes.tsx:95 | Next and previous undo each other. |
| ArtesPage.FilteredSelects | apps/web/src/pages/Artes.tsx:834-857 | The filtered list is an order-preserving subsequence, holding exactly the artes that pass all three filters. |
| ArtesPage.NoFilterShowsAll | apps/web/src/pages/Artes.tsx:837-854 | An empty search with 'all' people and urgencies shows everything. |
| ArtesPage.SearchIgnoresQueryCase | apps/web/src/pages/Artes.tsx:838 | The search is insensitive to the case of the query. |
| ArtesPage.GroupedArtes | apps/web/src/pages/Artes.tsx:860-865 | Four columns in board order. Each column holds only filtered artes of its status, and every filtered arte is in its column. |
| ArtesPage.ColumnsPartition | apps/web/src/pages/Artes.tsx:860-865 | Column sizes add up to the filtered length. |
| ArtesPage.DropTarget | apps/web/src/pages/Artes.tsx:890-901 | The target is the column when the drop id names a status, otherwise the status of the card dropped on. |
| ArtesPage.HandleDragEnd | apps/web/src/pages/Artes.tsx:880-906 | No target or an unknown card issues nothing. An update is issued iff the target status exists and differs from the card's. |
| ArtesPage.DropOnOwnColumnIsNoop | apps/web/src/pages/Artes.tsx:903 | Dropping a card on its own column issues nothing. |
| ArtesPage.IsOverdue | apps/web/src/pages/Artes.tsx:126 | Only a card with a deadline can be overdue, and a done card never is. |
| ArtesPage.OverdueStaysOverdue | apps/web/src/pages/Artes.tsx:126 | Once overdue, a card stays overdue as time passes; at its deadline it is not yet overdue. |
| ChecklistDiario.FormatHora | apps/web/src/pages/ChecklistDiario.tsx:42-46 | '' iff null; otherwise two digits, ':' and two digits reading back the hour and minute. |
| ChecklistDiario.GetCardState | apps/web/src/pages/ChecklistDiario.tsx:48-60 | A pending item is late iff `atrasado`. A done item is done-late iff it has a deadline and feitoEm, and feitoEm is after that day's deadline or the deadline does not parse. |
| ChecklistDiario.CardStateAgreesWithReport | apps/web/src/pages/ChecklistDiario.tsx:48-60 | For `HH:MM` deadlines, done-late on the page iff the report's on-time flag is false. |
| ChecklistDiario.Pct | apps/web/src/pages/ChecklistDiario.tsx:116-118 | 0 without items; otherwise round(100·done/total), within 0..100, and 100 when all are done. |
| ChecklistDiario.GetProgressColor | apps/web/src/pages/ChecklistDiario.tsx:62-66 | Green iff ≥ 100, accent iff 50..99, yellow below 50. |
| ChecklistDiario.GreenIffAllDone | apps/web/src/pages/ChecklistDiario.tsx:62-66 | With fewer than 200 items, the bar is green iff every item is done. |
| ChecklistDiario.NearlyDoneShowsGreen | apps/web/src/pages/ChecklistDiario.tsx:116-118 | 199 of 200 rounds to 100% and shows green. |
| ChecklistDiario.Media | apps/web/src/pages/ChecklistDiario.tsx:474-477 | 0 for an empty report; otherwise the rounded mean of the percentuals, within 0..100. |
| ChecklistDiario.MediaOfConstant | apps/web/src/pages/ChecklistDiario.tsx:474-477 | The mean of equal percentuals is that percentual. |
| ChecklistDiario.RowColor | apps/web/src/pages/ChecklistDiario.tsx:573 | Green iff ≥ 80, accent iff 50..79, yellow below 50. |
| ChecklistDiario.RowEmoji | apps/web/src/pages/ChecklistDiario.tsx:574 | ✅ at ≥ 100, ⚠️ below 50, nothing between. |
| ChecklistDiario.Headers | apps/web/src/pages/ChecklistDiario.tsx:488-492 | The four fixed headers, then the first day's item titles. |
| ChecklistDiario.RowCells | apps/web/src/pages/ChecklistDiario.tsx:494-497 | Date, totals, `p%`, then S or N per item. |
| ChecklistDiario.ExportCsv | apps/web/src/pages/ChecklistDiario.tsx:484-501 | Without a report there is no file; a file starts with the byte order mark U+FEFF. |
| ChecklistDiario.CsvShape | apps/web/src/pages/ChecklistDiario.tsx:488-501 | With plain titles and dates, the file starts with U+FEFF and the rest splits on line feeds into the header line plus one line per day, line k being day k's cells joined by ';'. Each line splits on ';' back into its cells. |
| UseChecklist.OptimisticUpdate | apps/web/src/hooks/useChecklist.ts:31-37 | An absent cache stays absent. Length, order and ids are kept. Exactly the entries of that id flip `feito` and stop being late; every other entry is unchanged. |
| UseChecklist.FlipTwice | apps/web/src/hooks/useChecklist.ts:31-37 | Two optimistic flips restore the list except that the late flag stays cleared. |
| UseChecklist.OnMutate | apps/web/src/hooks/useChecklist.ts:27-40 | The context keeps the cache as it was before the flip. |
| UseChecklist.OnError | apps/web/src/hooks/useChecklist.ts:45-48 | The snapshot is restored when there is one. Without a context or a snapshot the cache stays as it is. One error toast "Erro ao atualizar checklist" is appended, and the store stays valid. |
| UseChecklist.ErrorRollsBack | apps/web/src/hooks/useChecklist.ts:27-48 | A failed mutation leaves the cache exactly as it was before. |
| UseChecklist.ErrorKeepsLaterFetch | apps/web/src/hooks/useChecklist.ts:27-48 | A mutation that started with no cached list does not wipe a list fetched in the meantime. |
| UseChecklist.MarkFlipsOnlyItem | apps/api/src/services/checklist.service.ts:130-167 | With one row per item and day, a mark flips what today's checklist shows for that item and nothing else. |
| UseChecklist.OptimisticPredictsServer | apps/web/src/hooks/useChecklist.ts:31-44 | The optimistic list agrees with the server's reply on length, ids and feito. A done item is not late in either. An unknown id is an error on the server. |
| ToastStore.CounterOfToastId | apps/web/src/stores/toastStore.ts:24 | An id reads back the counter value it was made from, whatever the clock. |
| ToastStore.AddToast | apps/web/src/stores/toastStore.ts:23-28 | The counter goes up by one and exactly one toast, not removing, is appended at the end with that counter in its id. The store stays valid (ids distinct). |
| ToastStore.RemoveToast | apps/web/src/stores/toastStore.ts:45-48 | Drops exactly the toasts with that id and keeps the rest in order. |
| ToastStore.RemoveUnknownIsNoop | apps/web/src/stores/toastStore.ts:45-48 | Removing an id not on screen changes nothing. |
| ToastStore.RemoveKeepsValid | apps/web/src/stores/toastStore.ts:45-48 | Removing keeps the ids distinct. |
| ToastStore.MarkRemoving | apps/web/src/stores/toastStore.ts:50-55 | Only the matching toasts get `removing`; the length and every other field are unchanged. |
| ToastStore.DismissIsRemove | apps/web/src/stores/toastStore.ts:30-41 | The timed dismissal (mark, then remove) ends where an immediate removal does. |
| ToastStore.Run | apps/web/src/stores/toastStore.ts:18-55 | Any run of store calls keeps the ids distinct, and the counter grows by the number of additions. |
| ToastStore.RunFromInitial | apps/web/src/stores/toastStore.ts:18-28 | From the empty store, ids stay unique even for toasts added in the same millisecond. |
| AuthStore.SetAuth | apps/web/src/stores/authStore.ts:26-27 | Sets both tokens and the user, and sets authenticated. |
| AuthStore.SetToken | apps/web/src/stores/authStore.ts:29-30 | Changes only the access token. |
| AuthStore.SetUser | apps/web/src/stores/authStore.ts:32-33 | Changes only the user. |
| AuthStore.Logout | apps/web/src/stores/authStore.ts:35-36 | Clears everything. |
| AuthStore.LogoutIdempotent | apps/web/src/stores/authStore.ts:21-24 | Logging out is the initial state and is idempotent. |
| AuthStore.Run | apps/web/src/stores/authStore.ts:20-36 | Any run of store calls keeps "authenticated implies tokens and user". The session is authenticated iff the last login came after the last logout (or it was already authenticated and there was neither). |
| Horario.OffsetOfHHMM | apps/api/src/services/checklist.service.ts:16-19 | For an `HH:MM` deadline, server and browser read the same offset, h hours and m minutes. |
| Horario.HourOnlyDisagrees | apps/web/src/pages/ChecklistDiario.tsx:51-54 | For "8" the server gets an Invalid Date, while the browser reads 08:00. |

## Left out

- Time zones: `getToday()`, `setHours` and `toDateString` depend on the host's zone. Civil day, local midnight (`dayStart`) and the 22:00 cutoff are parameters instead.
- Date parsing and `new Date(string)`: prazo parsing and the report's `DDDD-DD-DD` dates are parameter functions returning no date for an Invalid Date. On the server an Invalid Date, as a prazo or as a report bound, is the data-access error (500); in the browser an Invalid Date from `new Date(iso)` is not modelled.
- date-fns formatting (`HH:mm`, `dd/MM/yyyy`) and the analytics period presets: a formatting parameter stands in.
- Floating point: hours are modelled as whole tenths, and largura/altura are carried as reals but never computed with. KB display is not modelled.
- Unicode case mapping beyond ASCII and Latin-1: `toLowerCase` and `toUpperCase` are modelled on those ranges only. Within Latin-1, ÿ and µ map to Ÿ and Μ as in JavaScript, but ß stays ß where JavaScript gives "SS".
- `parseInt` beyond 2^53: numbers are unbounded integers.
- Prisma plumbing: `include`/`select` projections and the exact wording of the data-access layer's foreign-key and Invalid Date messages (every such message reaches the client only as the generic 500).
- Sort stability between equal keys of the data-access layer: `orderBy` is modelled as a stable insertion sort.
- JWT, bcrypt (an opaque hash parameter), multer, `fs.unlink` in deleteArte/deleteArquivo, and the axios refresh interceptor.
- Metrics, XLSX/PDF export and e-mail of the time-clock controller: their bodies are not part of this model.
- Scheduling: the cron trigger, `setTimeout` timers (the toast timers appear only as the two transitions they fire), zustand `persist`, and react-query cancellation and invalidation.
- Concurrency: two creations racing for the same code are modelled as a table that may differ per attempt (`tableAt`), not as interleavings.
- Pages and components that only render, and the thin hooks, routes, the user and auth controllers, env parsing and the seed script.
- PontoService.CalcularHoras: the contract states only when the text is null. The text itself is stated by PontoService.FormatHorasReadsBack for non-negative totals and by PontoService.NegativeHalfHour for a negative one.
- ChecklistService.GetRelatorio: each entry is stated to be ChecklistService.Dia of its day, so it inherits the exact-rational rounding described for Dia below.
- GestaoPontos.ExportCsv: states the byte order mark and the header only. The rows are stated by GestaoPontos.OneLinePerRecord, which assumes names and rendered dates free of commas, quotes and line feeds.
- ChecklistDiario.ExportCsv: states only when there is a file and its leading byte order mark. The lines are stated by ChecklistDiario.CsvShape, which assumes titles and dates without ';' or line feeds.
- ChecklistService.Dia: the percentual is the exact rational 100·c/t rounded half up. The server computes `Math.round((c / t) * 100)` in double precision, where the product can land just below a half. 23 of 40 reads 57 there and 58 here; so do 46/80, 69/120, 29/200, 57/200, 113/200 and 115/200, each one less in JavaScript.
- ChecklistDiario.Pct: the same exact rounding against the page's double-precision `Math.round((c / t) * 100)`, with the same inputs reading one less in the browser.
- UserService.GetInitials: names are sequences of code points, while `substring(0, 2)` and `[0]` take UTF-16 code units. A name whose first letter lies above U+FFFF ("𝒜na") gets "𝒜N" here and "𝒜" in JavaScript, and a several-word name starting with one gets a lone surrogate there. The same holds for CreateUser and ApplyEdicao, which store these initials.
- ArteController.Create: a success is stated to append to the table seen by one of the attempts, not which one.

## Findings

| source | as written | input that shows it | evidently intended | confidence | as-written member | corrected member |
|---|---|---|---|---|---|---|
| apps/api/src/services/arte.service.ts:35-44 | The next code comes from the greatest `codigo` as a string, so "ART-999" sorts above "ART-1000". | Table holding ART-999 and ART-1000: every attempt generates ART-1000 again, all three attempts hit the unique violation, and the client gets 409. | The next code is one more than the greatest numeric suffix, never a taken code. | not executed | ArteService.CreateArteStuck | ArteService.CreateArteNumerico |
| apps/api/src/jobs/fecharPontos.ts:30-38 | The 22:00 sweep sets saida on records whose almoco and retorno may be empty, and `baterPonto` fills the first empty slot without looking at saida. | In at 09:00, no lunch, swept at 22:00, punch at 22:30: the record gets almoco 22:30 after saida 22:00, and the toast says "Saída registrada". | A record with saida ends the day, and a further punch is refused with status 400. | not executed | SweepGap.PunchAfterSweepWritesLunchAfterExit | SweepGap.BaterPontoFixed |

Other behaviours the proofs bring out:

- 199 items done out of 200 round to 100% and paint the bar green (ChecklistDiario.NearlyDoneShowsGreen).
- The two client ponto classifiers disagree on records without entrada but with a later slot (Funcionarios.ClassifiersAgree).
- The checklist report names a person for an unmarked row (ChecklistService.ReportNamesUnmarker).
- `createArte`'s final throw after the loop is unreachable, because the last attempt always returns or rethrows (ArteService.CreateArte: at most three attempts).
- The optimistic update clears `atrasado` on an unmarked item, while the server may report it late again. UseChecklist.OptimisticPredictsServer claims agreement on the late flag only for done items.

=== FILE: arte_controller.dfy ===
/** The arte endpoints (apps/api/src/controllers/arte.controller.ts): the
    create, update and status schemas, and the guard that refuses an upload
    without files before the service is called. */
module ArteController {
  import opened Wrappers
  import opened Entities
  import opened ErrorHandler
  import opened JsText
  import opened Zod
  import ArteService
  import Seqs

  // ----- enumerations -----

  function ProdutoName(p: Produto): string {
    match p
    case AZULEJO => "AZULEJO"
    case BANNER => "BANNER"
    case ADESIVO => "ADESIVO"
    case PLACA => "PLACA"
    case FAIXA => "FAIXA"
    case OUTRO => "OUTRO"
  }

  /** `z.enum(['AZULEJO', 'BANNER', 'ADESIVO', 'PLACA', 'FAIXA', 'OUTRO'])` */
  function ProdutoOf(s: string): (r: Option<Produto>)
    ensures r.Some? ==> ProdutoName(r.value) == s
  {
    if s == "AZULEJO" then Some(AZULEJO)
    else if s == "BANNER" then Some(BANNER)
    else if s == "ADESIVO" then Some(ADESIVO)
    else if s == "PLACA" then Some(PLACA)
    else if s == "FAIXA" then Some(FAIXA)
    else if s == "OUTRO" then Some(OUTRO)
    else None
  }

  function UrgenciaName(u: Urgencia): string {
    match u
    case LOW => "LOW"
    case NORMAL => "NORMAL"
    case HIGH => "HIGH"
  }

  /** `z.enum(['LOW', 'NORMAL', 'HIGH'])` */
  function UrgenciaOf(s: string): (r: Option<Urgencia>)
    ensures r.Some? ==> UrgenciaName(r.value) == s
  {
    if s == "LOW" then Some(LOW)
    else if s == "NORMAL" then Some(NORMAL)
    else if s == "HIGH" then Some(HIGH)
    else None
  }

  function StatusName(s: ArteStatus): string {
    match s
    case TODO => "TODO"
    case DOING => "DOING"
    case REVIEW => "REVIEW"
    case DONE => "DONE"
  }

  /** `z.enum(['TODO', 'DOING', 'REVIEW', 'DONE'])` */
  function StatusOf(s: string): (r: Option<ArteStatus>)
    ensures r.Some? ==> StatusName(r.value) == s
  {
    if s == "TODO" then Some(TODO)
    else if s == "DOING" then Some(DOING)
    else if s == "REVIEW" then Some(REVIEW)
    else if s == "DONE" then Some(DONE)
    else None
  }

  /** Each enum accepts exactly the names of its values. */
  lemma EnumsAcceptTheirNames(p: Produto, u: Urgencia, s: ArteStatus)
    ensures ProdutoOf(ProdutoName(p)) == Some(p)
    ensures UrgenciaOf(UrgenciaName(u)) == Some(u)
    ensures StatusOf(StatusName(s)) == Some(s)
  {
    match p
    case AZULEJO =>
    case BANNER =>
    case ADESIVO =>
      assert ProdutoName(p) != "AZULEJO" && ProdutoName(p) != "BANNER";
    case PLACA =>
      assert ProdutoName(p) != "AZULEJO" && ProdutoName(p) != "BANNER" && ProdutoName(p) != "ADESIVO";
    case FAIXA =>
      assert ProdutoName(p) != "AZULEJO" && ProdutoName(p) != "BANNER" && ProdutoName(p) != "ADESIVO"
        && ProdutoName(p) != "PLACA";
    case OUTRO =>
      assert ProdutoName(p) != "AZULEJO" && ProdutoName(p) != "BANNER" && ProdutoName(p) != "ADESIVO"
        && ProdutoName(p) != "PLACA" && ProdutoName(p) != "FAIXA";
  }

  // ----- field constraints -----

  /** `z.string().min(1)` */
  predicate IsNonEmpty(v: Json) {
    v.JStr? && |v.s| > 0
  }

  predicate IsProduto(v: Json) {
    v.JStr? && ProdutoOf(v.s).Some?
  }

  predicate IsUrgencia(v: Json) {
    v.JStr? && UrgenciaOf(v.s).Some?
  }

  /** `z.number().int().min(1)` */
  predicate IsQuantidade(v: Json) {
    v.JNum? && IsInteger(v.n) && v.n >= 1.0
  }

  /** `z.number().positive()` */
  predicate IsPositive(v: Json) {
    v.JNum? && v.n > 0.0
  }

  predicate IsString(v: Json) {
    v.JStr?
  }

  predicate Required(body: Json, key: string, p: Json -> bool) {
    body.JObj? && key in body.fields && p(body.fields[key])
  }

  predicate Optional(body: Json, key: string, p: Json -> bool) {
    body.JObj? && (key in body.fields ==> p(body.fields[key]))
  }

  /** `.nullable().optional()` over `p` */
  predicate NullableOk(body: Json, key: string, p: Json -> bool) {
    body.JObj? && (key in body.fields ==> body.fields[key].JNull? || p(body.fields[key]))
  }

  /** What `createArteSchema` accepts. */
  predicate CreateValid(body: Json) {
    && Required(body, "clienteNome", IsNonEmpty)
    && Required(body, "clienteNumero", IsNonEmpty)
    && Required(body, "orcamentoNum", IsNonEmpty)
    && Required(body, "produto", IsProduto)
    && Optional(body, "quantidade", IsQuantidade)
    && Required(body, "largura", IsPositive)
    && Required(body, "altura", IsPositive)
    && Required(body, "responsavelId", IsNonEmpty)
    && Optional(body, "urgencia", IsUrgencia)
    && Optional(body, "prazo", IsString)
    && Optional(body, "observacoes", IsString)
  }

  /** What `updateArteSchema` accepts: the same constraints, every field
      optional, and `prazo`/`observacoes` also `null`. */
  predicate UpdateValid(body: Json) {
    UpdateTextValid(body) && UpdateFiguresValid(body)
  }

  /** The update schema's free-text fields. */
  predicate UpdateTextValid(body: Json) {
    && Optional(body, "clienteNome", IsNonEmpty)
    && Optional(body, "clienteNumero", IsNonEmpty)
    && Optional(body, "orcamentoNum", IsNonEmpty)
    && Optional(body, "responsavelId", IsNonEmpty)
    && NullableOk(body, "prazo", IsString)
    && NullableOk(body, "observacoes", IsString)
  }

  /** The update schema's enumerated and numeric fields. */
  predicate UpdateFiguresValid(body: Json) {
    && Optional(body, "produto", IsProduto)
    && Optional(body, "quantidade", IsQuantidade)
    && Optional(body, "largura", IsPositive)
    && Optional(body, "altura", IsPositive)
    && Optional(body, "urgencia", IsUrgencia)
  }

  // ----- schemas -----

  function NonEmptyString(v: Json): (r: Option<string>)
    ensures r.Some? <==> IsNonEmpty(v)
    ensures r.Some? ==> r.value == v.s
  {
    if v.JStr? then assert |v.s| <= Utf16Length(v.s) <= 2 * |v.s|; Str(v, 1, None)
    else None
  }

  function AnyString(v: Json): Option<string> { Str(v, 0, None) }
  function ParseProduto(v: Json): Option<Produto> { Enum(v, ProdutoOf) }
  function ParseUrgencia(v: Json): Option<Urgencia> { Enum(v, UrgenciaOf) }
  function ParseQuantidade(v: Json): Option<int> { Int(v, 1) }

  /** `createArteSchema.parse(body)` */
  function ParseCreate(body: Json): (r: Result<ArteService.NovaArte, string>)
    ensures r.Success? <==> CreateValid(body)
    ensures r.Success? ==> r.value == ArteService.NovaArte(
      body.fields["clienteNome"].s, body.fields["clienteNumero"].s, body.fields["orcamentoNum"].s,
      ProdutoOf(body.fields["produto"].s).value, OptInt(body, "quantidade"),
      body.fields["largura"].n, body.fields["altura"].n, body.fields["responsavelId"].s,
      OptEnum(body, "urgencia", UrgenciaOf), OptString(body, "prazo"), OptString(body, "observacoes"))
  {
    if !body.JObj? then Failure("")
    else
      var clienteNome :- Req(body, "clienteNome", NonEmptyString);
      var clienteNumero :- Req(body, "clienteNumero", NonEmptyString);
      var orcamentoNum :- Req(body, "orcamentoNum", NonEmptyString);
      var produto :- Req(body, "produto", ParseProduto);
      var quantidade :- Opt(body, "quantidade", ParseQuantidade);
      var largura :- Req(body, "largura", Positive);
      var altura :- Req(body, "altura", Positive);
      var responsavelId :- Req(body, "responsavelId", NonEmptyString);
      var urgencia :- Opt(body, "urgencia", ParseUrgencia);
      var prazo :- Opt(body, "prazo", AnyString);
      var observacoes :- Opt(body, "observacoes", AnyString);
      Success(ArteService.NovaArte(clienteNome, clienteNumero, orcamentoNum, produto, quantidade,
                                   largura, altura, responsavelId, urgencia, prazo, observacoes))
  }

  datatype TextFields = TextFields(clienteNome: Option<string>, clienteNumero: Option<string>,
                                   orcamentoNum: Option<string>, responsavelId: Option<Id>,
                                   prazo: Option<Option<string>>, observacoes: Option<Option<string>>)

  datatype Figures = Figures(produto: Option<Produto>, quantidade: Option<int>, largura: Option<real>,
                             altura: Option<real>, urgencia: Option<Urgencia>)

  function ParseUpdateText(body: Json): (r: Result<TextFields, string>)
    requires body.JObj?
    ensures r.Success? <==> UpdateTextValid(body)
    ensures r.Success? ==> r.value == TextFields(
      OptString(body, "clienteNome"), OptString(body, "clienteNumero"), OptString(body, "orcamentoNum"),
      OptString(body, "responsavelId"), NullableString(body, "prazo"), NullableString(body, "observacoes"))
  {
    var clienteNome :- Opt(body, "clienteNome", NonEmptyString);
    var clienteNumero :- Opt(body, "clienteNumero", NonEmptyString);
    var orcamentoNum :- Opt(body, "orcamentoNum", NonEmptyString);
    var responsavelId :- Opt(body, "responsavelId", NonEmptyString);
    var prazo :- Nullable(body, "prazo", AnyString);
    var observacoes :- Nullable(body, "observacoes", AnyString);
    Success(TextFields(clienteNome, clienteNumero, orcamentoNum, responsavelId, prazo, observacoes))
  }

  function ParseUpdateFigures(body: Json): (r: Result<Figures, string>)
    requires body.JObj?
    ensures r.Success? <==> UpdateFiguresValid(body)
    ensures r.Success? ==> r.value == Figures(
      OptEnum(body, "produto", ProdutoOf), OptInt(body, "quantidade"), OptNumber(body, "largura"),
      OptNumber(body, "altura"), OptEnum(body, "urgencia", UrgenciaOf))
  {
    var produto :- Opt(body, "produto", ParseProduto);
    var quantidade :- Opt(body, "quantidade", ParseQuantidade);
    var largura :- Opt(body, "largura", Positive);
    var altura :- Opt(body, "altura", Positive);
    var urgencia :- Opt(body, "urgencia", ParseUrgencia);
    Success(Figures(produto, quantidade, largura, altura, urgencia))
  }

  /** `updateArteSchema.parse(body)` */
  function ParseUpdate(body: Json): (r: Result<ArteService.EdicaoArte, string>)
    ensures r.Success? <==> UpdateValid(body)
    ensures r.Success? ==> r.value == ArteService.EdicaoArte(
      OptString(body, "clienteNome"), OptString(body, "clienteNumero"), OptString(body, "orcamentoNum"),
      OptEnum(body, "produto", ProdutoOf), OptInt(body, "quantidade"),
      OptNumber(body, "largura"), OptNumber(body, "altura"), OptString(body, "responsavelId"),
      OptEnum(body, "urgencia", UrgenciaOf), NullableString(body, "prazo"), NullableString(body, "observacoes"))
  {
    if !body.JObj? then Failure("")
    else
      var t :- ParseUpdateText(body);
      var f :- ParseUpdateFigures(body);
      Success(ArteService.EdicaoArte(t.clienteNome, t.clienteNumero, t.orcamentoNum, f.produto, f.quantidade,
                                     f.largura, f.altura, t.responsavelId, f.urgencia, t.prazo, t.observacoes))
  }

  /** Whatever creates an arte would also pass as an update, setting the
      same fields to the same values. */
  lemma CreateBodyIsUpdateBody(body: Json)
    requires CreateValid(body)
    ensures ParseUpdate(body).Success?
    ensures var c := ParseCreate(body).value; var e := ParseUpdate(body).value;
      && e.clienteNome == Some(c.clienteNome) && e.clienteNumero == Some(c.clienteNumero)
      && e.orcamentoNum == Some(c.orcamentoNum) && e.produto == Some(c.produto)
      && e.quantidade == c.quantidade && e.largura == Some(c.largura) && e.altura == Some(c.altura)
      && e.responsavelId == Some(c.responsavelId) && e.urgencia == c.urgencia
      && e.prazo == (if c.prazo.Some? then Some(c.prazo) else None)
      && e.observacoes == (if c.observacoes.Some? then Some(c.observacoes) else None)
  {
    assert UpdateValid(body);
  }

  /** `statusSchema.parse(body).status` */
  function ParseStatus(body: Json): (r: Result<ArteStatus, string>)
    ensures r.Success? <==> body.JObj? && "status" in body.fields && body.fields["status"].JStr?
                            && StatusOf(body.fields["status"].s).Some?
    ensures r.Success? ==> StatusName(r.value) == body.fields["status"].s
  {
    if !body.JObj? then Failure("")
    else Req(body, "status", v => Enum(v, StatusOf))
  }

  // ----- endpoints -----

  /** A body whose `prazo` is a non-empty string that `new Date` cannot read. */
  predicate BodyPrazoInvalido(body: Json, parseDate: string -> Option<Timestamp>) {
    && body.JObj? && "prazo" in body.fields && body.fields["prazo"].JStr?
    && |body.fields["prazo"].s| > 0 && parseDate(body.fields["prazo"].s).None?
  }

  /** `POST /api/artes`: 201 with the new arte; a repeated code ends in 409,
      and an unknown `responsavelId` or an unreadable `prazo` in the generic
      500. */
  function Create(body: Json, tableAt: nat -> seq<Arte>, users: seq<User>, freshId: Id, now: Timestamp,
                  parseDate: string -> Option<Timestamp>): (r: Handled<seq<Arte>, Arte>)
    ensures !CreateValid(body) ==> r == Handled(tableAt(0), Err(Response(500, InternalMessage)))
    ensures CreateValid(body) && BodyPrazoInvalido(body, parseDate) ==>
      r == Handled(tableAt(0), Err(Response(500, InternalMessage)))
    ensures r.reply.Ok? ==>
      (&& CreateValid(body) && r.reply.status == 201
       && r.reply.body.status == TODO && r.reply.body.clienteNome == body.fields["clienteNome"].s
       && r.reply.body.quantidade == (if "quantidade" in body.fields then body.fields["quantidade"].n.Floor else 1)
       && exists k :: 0 <= k < ArteService.MaxRetries && r.state == tableAt(k) + [r.reply.body])
    ensures CreateValid(body) && r.reply.Err? ==>
      r.reply.response == Response(409, DuplicateMessage) || r.reply.response == Response(500, InternalMessage)
  {
    match ParseCreate(body)
    case Failure(f) => Handled(tableAt(0), Invalid(f))
    case Success(data) =>
      var c := ArteService.CreateArte(tableAt, users, data, freshId, now, parseDate);
      ArteService.CreateArteOutcome(tableAt, users, data, freshId, now, parseDate);
      CreateInvalidPrazo(body, data, tableAt, users, freshId, now, parseDate);
      Handled(c.artes, FromService(c.result, 201))
  }

  /** The body's unreadable `prazo` reaches the service, which refuses it. */
  lemma CreateInvalidPrazo(body: Json, data: ArteService.NovaArte, tableAt: nat -> seq<Arte>, users: seq<User>,
                           freshId: Id, now: Timestamp, parseDate: string -> Option<Timestamp>)
    requires ParseCreate(body) == Success(data)
    ensures var c := ArteService.CreateArte(tableAt, users, data, freshId, now, parseDate);
      && (BodyPrazoInvalido(body, parseDate) ==> c == ArteService.Creation(tableAt(0), Failure(ArteService.InvalidDateError()), 1))
      && Handle(ArteService.InvalidDateError()) == Response(500, InternalMessage)
  {
    UnclassifiedIsInternal(ArteService.InvalidDateError());
    if BodyPrazoInvalido(body, parseDate) {
      assert ArteService.PrazoInvalido(data.prazo, parseDate);
    }
  }

  /** `PUT /api/artes/:id`: 200 with the edited arte; a missing arte ends in
      404, and an unknown `responsavelId` or an unreadable `prazo` in the
      generic 500. */
  function Update(id: Id, body: Json, artes: seq<Arte>, users: seq<User>, parseDate: string -> Option<Timestamp>)
    : (r: Handled<seq<Arte>, Arte>)
    ensures !UpdateValid(body) ==> r == Handled(artes, Err(Response(500, InternalMessage)))
    ensures UpdateValid(body) && BodyPrazoInvalido(body, parseDate) ==>
      r == Handled(artes, Err(Response(500, InternalMessage)))
    ensures UpdateValid(body) && !BodyPrazoInvalido(body, parseDate) && ArteService.FindArte(artes, id).None? ==>
      r == Handled(artes, Err(Response(404, NotFoundMessage)))
    ensures (&& UpdateValid(body) && ArteService.FindArte(artes, id).Some? && "responsavelId" in body.fields
             && !ArteService.UserExists(users, body.fields["responsavelId"].s)) ==>
      r == Handled(artes, Err(Response(500, InternalMessage)))
    ensures r.reply.Ok? ==>
      (&& r.reply.status == 200 && |r.state| == |artes| && ArteService.FindArte(artes, id).Some?
       && var k := ArteService.FindArte(artes, id).value;
          && r.state[k].codigo == artes[k].codigo && r.state[k].status == artes[k].status
          && ("responsavelId" in body.fields ==> r.state[k].responsavelId == body.fields["responsavelId"].s)
          && ("clienteNome" !in body.fields ==> r.state[k].clienteNome == artes[k].clienteNome)
          && r.reply.body == r.state[k]
          && forall j :: 0 <= j < |artes| && j != k ==> r.state[j] == artes[j])
    ensures r.reply.Ok? ==>
      && UpdateValid(body) && ArteService.FindArte(artes, id).Some?
      && var k := ArteService.FindArte(artes, id).value;
      r.state[k] == ArteService.ApplyEdicao(artes[k], ParseUpdate(body).value, parseDate)
  {
    match ParseUpdate(body)
    case Failure(f) => Handled(artes, Invalid(f))
    case Success(data) =>
      UnclassifiedIsInternal(ArteService.InvalidDateError());
      match ArteService.UpdateArte(artes, users, id, data, parseDate)
      case Failure(e) => Handled(artes, Err(Handle(e)))
      case Success(artes') => Handled(artes', Ok(200, artes'[ArteService.FindArte(artes, id).value]))
  }

  /** `PATCH /api/artes/:id/status`, answering with the updated arte. */
  function UpdateStatus(id: Id, body: Json, artes: seq<Arte>): (r: Handled<seq<Arte>, Arte>)
    ensures ParseStatus(body).Failure? ==> r == Handled(artes, Err(Response(500, InternalMessage)))
    ensures r.reply.Ok? ==>
      (&& |r.state| == |artes| && ArteService.FindArte(artes, id).Some?
       && var k := ArteService.FindArte(artes, id).value;
          StatusName(r.state[k].status) == body.fields["status"].s)
    ensures ParseStatus(body).Success? && ArteService.FindArte(artes, id).None? ==>
      r == Handled(artes, Err(Response(404, NotFoundMessage)))
    ensures ParseStatus(body).Success? && ArteService.FindArte(artes, id).Some? ==>
      && r.reply.Ok? && r.reply.status == 200 && |r.state| == |artes|
      && var k := ArteService.FindArte(artes, id).value;
      && r.state[k] == artes[k].(status := ParseStatus(body).value)
      && r.reply.body == r.state[k]
      && forall j :: 0 <= j < |artes| && j != k ==> r.state[j] == artes[j]
  {
    match ParseStatus(body)
    case Failure(f) => Handled(artes, Invalid(f))
    case Success(status) =>
      match ArteService.UpdateArteStatus(artes, id, status)
      case Failure(e) => Handled(artes, Err(Handle(e)))
      case Success(artes') => Handled(artes', Ok(200, artes'[ArteService.FindArte(artes, id).value]))
  }

  const NoFiles: Response := Response(400, "Nenhum arquivo enviado")

  /** An arte read back with `include: { arquivos: true }`. */
  datatype ArteComArquivos = ArteComArquivos(arte: Arte, arquivos: seq<Arquivo>)

  /** The files of arte `id`, in table order. */
  function ArquivosOf(arquivos: seq<Arquivo>, id: Id): (r: seq<Arquivo>)
    ensures forall i :: 0 <= i < |r| ==> r[i].arteId == id && r[i] in arquivos
    ensures forall i :: 0 <= i < |arquivos| && arquivos[i].arteId == id ==> arquivos[i] in r
  {
    Seqs.Filter(arquivos, (a: Arquivo) => a.arteId == id)
  }

  /** `POST /api/artes/:id/arquivos`: a missing or empty file list is refused
      before the service runs; otherwise the arte is read back with all its
      files, the new ones included. */
  function UploadArquivos(db: Db, id: Id, files: Option<seq<ArteService.Upload>>, idOf: nat -> Id)
    : (r: Handled<Db, ArteComArquivos>)
    ensures files.None? || |files.value| == 0 ==> r == Handled(db, Err(NoFiles))
    ensures r.reply.Ok? ==> files.Some? && |r.state.arquivos| == |db.arquivos| + |files.value| > |db.arquivos|
    ensures files.Some? && |files.value| > 0 && ArteService.FindArte(db.artes, id).None? ==>
      r == Handled(db, Err(Response(500, InternalMessage)))
    ensures files.Some? && |files.value| > 0 && ArteService.FindArte(db.artes, id).Some? ==>
      && r.reply.Ok? && r.reply.status == 200 && r.state.artes == db.artes
      && r.reply.body.arte == db.artes[ArteService.FindArte(db.artes, id).value]
      && (forall i :: 0 <= i < |r.reply.body.arquivos| ==> r.reply.body.arquivos[i].arteId == id)
      && (forall i :: 0 <= i < |db.arquivos| && db.arquivos[i].arteId == id ==> db.arquivos[i] in r.reply.body.arquivos)
      && (forall k :: 0 <= k < |files.value| ==>
            ArteService.ToArquivo(id, files.value[k], idOf(k)) in r.reply.body.arquivos)
  {
    if files.None? || |files.value| == 0 then Handled(db, Err(NoFiles))
    else match ArteService.AddArquivos(db, id, files.value, idOf)
      case Failure(e) => Handled(db, Err(Handle(e)))
      case Success(db') =>
        var k := ArteService.FindArte(db.artes, id).value;
        Handled(db', Ok(200, ArteComArquivos(db'.artes[k], ArquivosOf(db'.arquivos, id))))
  }
}

=== FILE: arte_service.dfy ===
/** The print-order service (apps/api/src/services/arte.service.ts): code
    generation, creation with bounded retry, partial update, status change,
    listing and deletion of artes and their reference files. */
module ArteService {
  import opened Wrappers
  import opened Entities
  import opened ErrorHandler
  import opened JsText
  import Seqs
  import Sorting

  // ----- ordering of codes -----

  /** `a` sorts strictly before `b`, comparing character by character; the
      database orders `codigo` this way for codes made of ASCII letters, '-'
      and digits. */
  predicate LexLess(a: string, b: string)
    decreases |a|
  {
    if |a| == 0 then |b| > 0
    else if |b| == 0 then false
    else if a[0] != b[0] then a[0] < b[0]
    else LexLess(a[1..], b[1..])
  }

  lemma {:induction false} LexLessTotal(a: string, b: string)
    ensures a == b || LexLess(a, b) || LexLess(b, a)
    decreases |a|
  {
    if |a| > 0 && |b| > 0 && a[0] == b[0] {
      LexLessTotal(a[1..], b[1..]);
      if a[1..] == b[1..] {
        assert a == [a[0]] + a[1..] && b == [b[0]] + b[1..];
      }
    }
  }

  lemma {:induction false} LexLessTransitive(a: string, b: string, c: string)
    requires LexLess(a, b) && LexLess(b, c)
    ensures LexLess(a, c)
    decreases |a|
  {
    if |a| > 0 && a[0] == b[0] && b[0] == c[0] {
      LexLessTransitive(a[1..], b[1..], c[1..]);
    }
  }

  lemma {:induction false} LexLessIrreflexive(a: string)
    ensures !LexLess(a, a)
    decreases |a|
  {
    if |a| > 0 {
      LexLessIrreflexive(a[1..]);
    }
  }

  /** The `codigo` of the first arte when ordered by `codigo` descending. */
  function MaxCodigo(artes: seq<Arte>): (r: string)
    requires |artes| > 0
    ensures exists i :: 0 <= i < |artes| && artes[i].codigo == r
    ensures forall i :: 0 <= i < |artes| ==> !LexLess(r, artes[i].codigo)
  {
    if |artes| == 1 then
      LexLessIrreflexive(artes[0].codigo);
      artes[0].codigo
    else
      var rest := MaxCodigo(artes[1..]);
      assert forall i :: 1 <= i < |artes| ==> artes[i] == artes[1..][i - 1];
      if LexLess(rest, artes[0].codigo) then
        forall i | 0 <= i < |artes|
          ensures !LexLess(artes[0].codigo, artes[i].codigo)
        {
          if i == 0 {
            LexLessIrreflexive(artes[0].codigo);
          } else if LexLess(artes[0].codigo, artes[i].codigo) {
            LexLessTransitive(rest, artes[0].codigo, artes[i].codigo);
          }
        }
        artes[0].codigo
      else
        LexLessTotal(rest, artes[0].codigo);
        LexLessIrreflexive(rest);
        rest
  }

  // ----- reading and writing codes -----

  /** `s.replace(pat, rep)` with a string pattern: only the first occurrence. */
  function ReplaceFirst(s: string, pat: string, rep: string): (r: string)
    ensures IndexOf(s, pat, 0) == -1 ==> r == s
    ensures IndexOf(s, pat, 0) != -1 ==> exists i :: OccursAt(s, pat, i) && r == s[..i] + rep + s[i + |pat|..]
  {
    var i := IndexOf(s, pat, 0);
    if i == -1 then s else s[..i] + rep + s[i + |pat|..]
  }

  /** The longest prefix of decimal digits. */
  function LeadingDigits(s: string): (r: string)
    ensures |r| <= |s| && AllDigits(r) && r == s[..|r|]
    ensures |r| < |s| ==> !IsDigit(s[|r|])
  {
    if |s| > 0 && IsDigit(s[0]) then [s[0]] + LeadingDigits(s[1..]) else ""
  }

  /** `parseInt(s, 10)`, with `None` for NaN: leading white space, an optional
      sign, then as many digits as there are. */
  function ParseInt(s: string): (r: Option<int>)
    ensures r.None? <==> |LeadingDigits(UnsignedPart(TrimStart(s)))| == 0
  {
    var t := TrimStart(s);
    var digits := LeadingDigits(UnsignedPart(t));
    if |digits| == 0 then None
    else if |t| > 0 && t[0] == '-' then Some(-(DigitsValue(digits) as int))
    else Some(DigitsValue(digits))
  }

  function UnsignedPart(t: string): string {
    if |t| > 0 && (t[0] == '-' || t[0] == '+') then t[1..] else t
  }

  const Prefix: string := "ART-"

  /** The code of the first arte. */
  const FirstCode: string := "ART-001"

  /** `ART-` followed by `n` zero-padded to at least three digits. */
  function CodeFor(n: int): (r: string)
    ensures StartsWith(r, Prefix) && |r| >= 7
  {
    Prefix + PadStart(IntToString(n), 3, '0')
  }

  /** The number a stored code carries, NaN read as 0. */
  function SuffixNumber(codigo: string): int {
    ParseInt(ReplaceFirst(codigo, Prefix, "")).GetOr(0)
  }

  /** `gerarCodigoArte()` over the current table: the number read from the
      greatest code in string order, plus one. */
  function GerarCodigoArte(artes: seq<Arte>): (r: string)
    ensures |artes| == 0 ==> r == FirstCode
    ensures StartsWith(r, Prefix)
  {
    if |artes| == 0 then FirstCode else CodeAfter(MaxCodigo(artes))
  }

  /** The code that follows `top`: its number read back, plus one. */
  function CodeAfter(top: string): (r: string)
    ensures StartsWith(r, Prefix)
  {
    CodeFor(SuffixNumber(top) + 1)
  }

  /** The generated code carries one more than the number read from the
      greatest code, whenever that number is not below -1. */
  lemma GerarFollowsTop(artes: seq<Arte>)
    requires |artes| > 0 && SuffixNumber(MaxCodigo(artes)) >= -1
    ensures SuffixNumber(GerarCodigoArte(artes)) == SuffixNumber(MaxCodigo(artes)) + 1
  {
    var top := MaxCodigo(artes);
    assert GerarCodigoArte(artes) == CodeAfter(top);
    CodeAfterFollows(top);
  }

  lemma CodeAfterFollows(top: string)
    requires SuffixNumber(top) >= -1
    ensures SuffixNumber(CodeAfter(top)) == SuffixNumber(top) + 1
  {
    CodeRoundTrip(SuffixNumber(top) + 1);
  }

  /** A greatest code whose suffix has no leading digits reads as NaN, which
      counts as 0, so the next code is "ART-001". */
  lemma NonNumericTopRestarts(artes: seq<Arte>)
    requires |artes| > 0 && ParseInt(ReplaceFirst(MaxCodigo(artes), Prefix, "")).None?
    ensures GerarCodigoArte(artes) == FirstCode
  {
    CodeOne();
  }

  /** A greatest code whose suffix starts with neither a digit, a sign nor
      white space restarts the numbering at "ART-001". */
  lemma NonNumericSuffixRestarts(artes: seq<Arte>, suffix: string)
    requires |artes| > 0 && MaxCodigo(artes) == Prefix + suffix
    requires |suffix| > 0 && !IsDigit(suffix[0]) && !IsJsWhitespace(suffix[0])
    requires suffix[0] != '-' && suffix[0] != '+'
    ensures GerarCodigoArte(artes) == FirstCode
  {
    StripPrefix(suffix);
    NotANumber(suffix);
    NonNumericTopRestarts(artes);
  }

  lemma NotANumber(suffix: string)
    requires |suffix| > 0 && !IsDigit(suffix[0]) && !IsJsWhitespace(suffix[0])
    requires suffix[0] != '-' && suffix[0] != '+'
    ensures ParseInt(suffix).None?
  {
    assert TrimStart(suffix) == suffix;
    assert UnsignedPart(suffix) == suffix;
    assert LeadingDigits(suffix) == "";
  }

  /** Zeros in front do not change a digit string's value. */
  lemma {:induction false} LeadingZeros(k: nat, s: string)
    requires AllDigits(s)
    ensures AllDigits(Repeat('0', k) + s)
    ensures DigitsValue(Repeat('0', k) + s) == DigitsValue(s)
    decreases |s|, k
  {
    var z := Repeat('0', k);
    if |s| == 0 {
      assert z + s == z;
      if k > 0 {
        assert z[..k - 1] == Repeat('0', k - 1);
        LeadingZeros(k - 1, "");
        assert Repeat('0', k - 1) + "" == Repeat('0', k - 1);
      }
    } else {
      LeadingZeros(k, s[..|s| - 1]);
      assert (z + s)[..|z + s| - 1] == z + s[..|s| - 1];
    }
  }

  lemma LeadingDigitsAll(s: string)
    requires AllDigits(s)
    ensures LeadingDigits(s) == s
  {
  }

  /** A generated suffix is a digit string worth the number. */
  lemma PaddedDigits(n: nat)
    ensures AllDigits(PadStart(NatToString(n), 3, '0')) && |PadStart(NatToString(n), 3, '0')| >= 3
    ensures DigitsValue(PadStart(NatToString(n), 3, '0')) == n
  {
    var digits := NatToString(n);
    var k := if |digits| >= 3 then 0 else 3 - |digits|;
    assert PadStart(digits, 3, '0') == Repeat('0', k) + digits;
    LeadingZeros(k, digits);
    NatToStringRoundTrip(n);
  }

  lemma StripPrefix(p: string)
    ensures ReplaceFirst(Prefix + p, Prefix, "") == p
  {
    var s := Prefix + p;
    assert OccursAt(s, Prefix, 0);
    assert IndexOf(s, Prefix, 0) == 0;
    assert s[4..] == p;
  }

  lemma ParseDigits(d: string)
    requires AllDigits(d) && |d| > 0
    ensures ParseInt(d) == Some(DigitsValue(d))
  {
    assert !IsJsWhitespace(d[0]) && d[0] != '-' && d[0] != '+';
    assert TrimStart(d) == d;
    assert UnsignedPart(d) == d;
    LeadingDigitsAll(d);
    assert LeadingDigits(UnsignedPart(TrimStart(d))) == d;
  }

  /** Reading a generated code back gives its number. */
  lemma CodeRoundTrip(n: nat)
    ensures SuffixNumber(CodeFor(n)) == n
  {
    var padded := PadStart(NatToString(n), 3, '0');
    PaddedDigits(n);
    StripPrefix(padded);
    ParseDigits(padded);
  }

  /** While codes stay in sequence the next code follows the greatest one. */
  lemma NextAfterCanonical(artes: seq<Arte>, n: nat)
    requires |artes| > 0 && MaxCodigo(artes) == CodeFor(n)
    ensures GerarCodigoArte(artes) == CodeFor(n + 1)
  {
    NextCode(MaxCodigo(artes), n);
  }

  lemma NextCode(top: string, n: nat)
    requires top == CodeFor(n)
    ensures CodeAfter(top) == CodeFor(n + 1)
  {
    CodeRoundTrip(n);
  }


  function Codigos(artes: seq<Arte>): (r: set<string>)
    ensures forall i :: 0 <= i < |artes| ==> artes[i].codigo in r
    ensures forall c :: c in r ==> exists i :: 0 <= i < |artes| && artes[i].codigo == c
  {
    set i | 0 <= i < |artes| :: artes[i].codigo
  }

  lemma ThousandSortsFirst()
    ensures LexLess("ART-1000", "ART-999")
  {
    assert "ART-1000"[1..] == "RT-1000" && "ART-999"[1..] == "RT-999";
    assert "RT-1000"[1..] == "T-1000" && "RT-999"[1..] == "T-999";
    assert "T-1000"[1..] == "-1000" && "T-999"[1..] == "-999";
    assert "-1000"[1..] == "1000" && "-999"[1..] == "999";
  }

  lemma Codes999And1000()
    ensures CodeFor(999) == "ART-999" && CodeFor(1000) == "ART-1000"
  {
    NineHundredNinetyNine();
    OneThousand();
  }

  lemma NineHundredNinetyNine()
    ensures NatToString(999) == "999"
  {
    assert NatToString(9) == "9";
    assert NatToString(99) == NatToString(9) + ['9'];
    assert NatToString(999) == NatToString(99) + ['9'];
  }

  lemma OneThousand()
    ensures NatToString(1000) == "1000"
  {
    assert NatToString(1) == "1";
    assert NatToString(10) == NatToString(1) + ['0'];
    assert NatToString(100) == NatToString(10) + ['0'];
    assert NatToString(1000) == NatToString(100) + ['0'];
  }

  /** "ART-999" sorts after "ART-1000", so with both in the table the next
      code is "ART-1000" again. */
  lemma ThousandRegenerated(a999: Arte, a1000: Arte)
    requires a999.codigo == "ART-999" && a1000.codigo == "ART-1000"
    ensures GerarCodigoArte([a999, a1000]) == "ART-1000"
    ensures GerarCodigoArte([a999, a1000]) in Codigos([a999, a1000])
  {
    var t := [a999, a1000];
    ThousandSortsFirst();
    assert t[1..] == [a1000];
    assert MaxCodigo(t) == "ART-999";
    Codes999And1000();
    CodeRoundTrip(999);
    assert SuffixNumber("ART-999") == 999;
  }

  /** The greatest number any stored code carries (NaN read as 0), or 0. */
  function MaxSuffix(artes: seq<Arte>): (r: int)
    ensures r >= 0
    ensures forall i :: 0 <= i < |artes| ==> SuffixNumber(artes[i].codigo) <= r
  {
    var nums := Suffixes(artes);
    var r := MaxAtLeastZero(nums);
    assert forall i :: 0 <= i < |artes| ==> nums[i] <= r;
    r
  }

  function Suffixes(artes: seq<Arte>): (nums: seq<int>)
    ensures |nums| == |artes| && forall i :: 0 <= i < |artes| ==> nums[i] == SuffixNumber(artes[i].codigo)
  {
    seq(|artes|, i requires 0 <= i < |artes| => SuffixNumber(artes[i].codigo))
  }

  /** `Math.max(0, ...nums)` */
  function MaxAtLeastZero(nums: seq<int>): (r: int)
    ensures r >= 0
    ensures forall i :: 0 <= i < |nums| ==> nums[i] <= r
  {
    if |nums| == 0 then 0
    else
      var rest := MaxAtLeastZero(nums[1..]);
      assert forall i :: 1 <= i < |nums| ==> nums[i] == nums[1..][i - 1];
      if nums[0] > rest then nums[0] else rest
  }

  /** Code generation by the numeric maximum: the next code is always new. */
  function GerarCodigoNumerico(artes: seq<Arte>): (r: string)
    ensures |artes| == 0 ==> r == FirstCode
    ensures r !in Codigos(artes)
  {
    var n := MaxSuffix(artes) + 1;
    CodeAboveAllIsFresh(artes, n);
    CodeOne();
    CodeFor(n)
  }

  /** A code whose number exceeds every stored number is not stored. */
  lemma CodeAboveAllIsFresh(artes: seq<Arte>, n: nat)
    requires forall i :: 0 <= i < |artes| ==> SuffixNumber(artes[i].codigo) < n
    ensures CodeFor(n) !in Codigos(artes)
  {
    CodeRoundTrip(n);
    forall i | 0 <= i < |artes|
      ensures artes[i].codigo != CodeFor(n)
    {
      assert SuffixNumber(artes[i].codigo) < n == SuffixNumber(CodeFor(n));
    }
  }

  lemma CodeOne()
    ensures CodeFor(1) == "ART-001"
  {
    assert NatToString(1) == "1";
    assert PadStart("1", 3, '0') == Repeat('0', 2) + "1" == "001";
  }

  // ----- creation -----

  /** The validated body of a create request. */
  datatype NovaArte = NovaArte(
    clienteNome: string,
    clienteNumero: string,
    orcamentoNum: string,
    produto: Produto,
    quantidade: Option<int>,
    largura: real,
    altura: real,
    responsavelId: Id,
    urgencia: Option<Urgencia>,
    prazo: Option<string>,
    observacoes: Option<string>)

  const MaxRetries: nat := 3
  const CodigoViolation: string := UniqueConstraintFailed + "codigo" + "`)"

  /** The data-access layer's rejection of an unknown `responsavelId`. */
  function ForeignKeyViolation(): AppError {
    AppError(ForeignKeyMessage, None, Some("P2003"))
  }

  const ForeignKeyMessage: string := "Foreign key" + " constraint failed on the field: `responsavelId`"

  /** `err instanceof Error && err.message.includes(...)` */
  function IsUniqueViolation(err: AppError): bool {
    Contains(err.message, CodigoViolation)
  }

  lemma CodigoViolationRecognised()
    ensures IsUniqueViolation(UniqueViolation("codigo"))
    ensures !IsUniqueViolation(ForeignKeyViolation())
  {
    assert OccursAt(UniqueViolation("codigo").message, CodigoViolation, 0);
    var fk := ForeignKeyViolation().message;
    assert CodigoViolation[0] == 'U';
    forall i | 0 <= i
      ensures !OccursAt(fk, CodigoViolation, i)
    {
      if i <= 10 {
        assert fk[i] == "Foreign key"[i];
        assert fk[i] != 'U';
      }
    }
  }

  /** The data-access layer's refusal to write an Invalid Date: it carries
      neither a status nor a code. */
  function InvalidDateError(): AppError {
    AppError(InvalidDateMessage, None, None)
  }

  const InvalidDateMessage: string := "Invalid value for argument `prazo`: Provided Date object is invalid. Expected Date."

  /** A non-empty `prazo` that `new Date` turns into an Invalid Date.
      `parseDate(s)` is `new Date(s)`, with `None` for an Invalid Date. */
  predicate PrazoInvalido(prazo: Option<string>, parseDate: string -> Option<Timestamp>) {
    prazo.Some? && |prazo.value| > 0 && parseDate(prazo.value).None?
  }

  /** `prazo: data.prazo ? new Date(data.prazo) : null`, for a `prazo` that is
      not `PrazoInvalido`. */
  function Prazo(prazo: Option<string>, parseDate: string -> Option<Timestamp>): (r: Option<Timestamp>)
    ensures prazo.Some? && |prazo.value| > 0 ==> r == parseDate(prazo.value)
    ensures prazo.None? || |prazo.value| == 0 ==> r.None?
    ensures !PrazoInvalido(prazo, parseDate) ==> (r.Some? <==> prazo.Some? && |prazo.value| > 0)
  {
    if prazo.Some? && |prazo.value| > 0 then parseDate(prazo.value) else None
  }

  /** The row `createArte` writes for `codigo`. */
  function NewArte(data: NovaArte, codigo: string, id: Id, now: Timestamp,
                   parseDate: string -> Option<Timestamp>): (r: Arte)
    ensures r.id == id && r.codigo == codigo && r.status == TODO && r.createdAt == now
    ensures r.clienteNome == data.clienteNome && r.clienteNumero == data.clienteNumero
    ensures r.orcamentoNum == data.orcamentoNum && r.produto == data.produto
    ensures r.largura == data.largura && r.altura == data.altura && r.responsavelId == data.responsavelId
    ensures r.quantidade == data.quantidade.GetOr(1) && r.urgencia == data.urgencia.GetOr(NORMAL)
    ensures r.observacoes == data.observacoes
    ensures data.prazo.Some? && |data.prazo.value| > 0 ==> r.prazo == parseDate(data.prazo.value)
    ensures data.prazo.None? || |data.prazo.value| == 0 ==> r.prazo.None?
  {
    Arte(id, codigo, data.clienteNome, data.clienteNumero, data.orcamentoNum, data.produto,
         data.quantidade.GetOr(1), data.largura, data.altura, data.responsavelId, TODO,
         data.urgencia.GetOr(NORMAL), Prazo(data.prazo, parseDate), data.observacoes, now)
  }

  predicate UserExists(users: seq<User>, id: Id) {
    exists j :: 0 <= j < |users| && users[j].id == id
  }

  /** The insert: the `codigo` unique index is checked before the
      `responsavelId` foreign key. */
  function Insert(artes: seq<Arte>, users: seq<User>, arte: Arte): (r: Result<seq<Arte>, AppError>)
    ensures arte.codigo in Codigos(artes) ==> r == Failure(UniqueViolation("codigo"))
    ensures arte.codigo !in Codigos(artes) && !UserExists(users, arte.responsavelId)
      ==> r == Failure(ForeignKeyViolation())
    ensures r.Success? <==> arte.codigo !in Codigos(artes) && UserExists(users, arte.responsavelId)
    ensures r.Success? ==> r.value == artes + [arte]
  {
    if arte.codigo in Codigos(artes) then Failure(UniqueViolation("codigo"))
    else if Seqs.FindIndex(users, (u: User) => u.id == arte.responsavelId).None? then Failure(ForeignKeyViolation())
    else Success(artes + [arte])
  }

  /** The table after a create, the created arte or the error thrown, and how
      many attempts were made. */
  datatype Creation = Creation(artes: seq<Arte>, result: Result<Arte, AppError>, attempts: nat)

  /** Whether `gerar` repeats a code the table already holds. */
  predicate CodigoTaken(gerar: seq<Arte> -> string, table: seq<Arte>) {
    gerar(table) in Codigos(table)
  }

  /** `createArte(data)`. `tableAt(k)` is the table as attempt `k` sees it,
      so that writers between attempts are part of the input. An Invalid
      Date is refused before the insert reaches the table, on the first
      attempt, and is not a unique violation, so it is thrown at once. */
  function CreateArte(tableAt: nat -> seq<Arte>, users: seq<User>, data: NovaArte, freshId: Id,
                      now: Timestamp, parseDate: string -> Option<Timestamp>): (r: Creation)
    ensures 1 <= r.attempts <= MaxRetries
    ensures PrazoInvalido(data.prazo, parseDate) ==> r == Creation(tableAt(0), Failure(InvalidDateError()), 1)
    ensures r.result.Success? ==>
      && r.artes == tableAt(r.attempts - 1) + [r.result.value]
      && r.result.value == NewArte(data, GerarCodigoArte(tableAt(r.attempts - 1)), freshId, now, parseDate)
      && r.result.value.codigo !in Codigos(tableAt(r.attempts - 1))
    ensures r.result.Failure? ==> r.artes == tableAt(r.attempts - 1)
  {
    if PrazoInvalido(data.prazo, parseDate) then Creation(tableAt(0), Failure(InvalidDateError()), 1)
    else Attempt(0, GerarCodigoArte, tableAt, users, data, freshId, now, parseDate)
  }

  /** Attempt `k` and those after it, with `gerar` choosing each code. */
  function Attempt(k: nat, gerar: seq<Arte> -> string, tableAt: nat -> seq<Arte>, users: seq<User>,
                   data: NovaArte, freshId: Id, now: Timestamp, parseDate: string -> Option<Timestamp>): (r: Creation)
    requires k < MaxRetries
    ensures k < r.attempts <= MaxRetries
    ensures r.result.Success? ==>
      && r.artes == tableAt(r.attempts - 1) + [r.result.value]
      && r.result.value == NewArte(data, gerar(tableAt(r.attempts - 1)), freshId, now, parseDate)
      && r.result.value.codigo !in Codigos(tableAt(r.attempts - 1))
    ensures r.result.Failure? ==> r.artes == tableAt(r.attempts - 1)
    decreases MaxRetries - k
  {
    var table := tableAt(k);
    var arte := NewArte(data, gerar(table), freshId, now, parseDate);
    match Insert(table, users, arte)
    case Success(t) => Creation(t, Success(arte), k + 1)
    case Failure(err) =>
      if !IsUniqueViolation(err) || k == MaxRetries - 1 then Creation(table, Failure(err), k + 1)
      else Attempt(k + 1, gerar, tableAt, users, data, freshId, now, parseDate)
  }

  /** What the two possible insert errors look like to the retry test. */
  lemma InsertErrorKinds(table: seq<Arte>, users: seq<User>, arte: Arte)
    requires Insert(table, users, arte).Failure?
    ensures var e := Insert(table, users, arte).error;
      && (e == UniqueViolation("codigo") || e == ForeignKeyViolation())
      && (IsUniqueViolation(e) <==> arte.codigo in Codigos(table))
      && (IsUniqueViolation(e) <==> e == UniqueViolation("codigo"))
  {
    CodigoViolationRecognised();
    assert UniqueViolation("codigo").code != ForeignKeyViolation().code;
  }

  /** One attempt either ends the call or, its code being taken, hands over
      to the next attempt. */
  lemma AttemptStep(k: nat, gerar: seq<Arte> -> string, tableAt: nat -> seq<Arte>,
                    users: seq<User>, data: NovaArte, freshId: Id, now: Timestamp,
                    parseDate: string -> Option<Timestamp>)
    requires k < MaxRetries
    ensures var r := Attempt(k, gerar, tableAt, users, data, freshId, now, parseDate);
      || r.attempts == k + 1
      || (&& k + 1 < MaxRetries && CodigoTaken(gerar, tableAt(k))
          && r == Attempt(k + 1, gerar, tableAt, users, data, freshId, now, parseDate))
  {
    var table := tableAt(k);
    var arte := NewArte(data, gerar(table), freshId, now, parseDate);
    var ins := Insert(table, users, arte);
    if ins.Failure? {
      InsertErrorKinds(table, users, arte);
    }
  }

  /** Attempt `j` is followed by another only when its code was already taken. */
  lemma {:induction false} AttemptRetriesOnlyTaken(k: nat, gerar: seq<Arte> -> string, tableAt: nat -> seq<Arte>,
                                          users: seq<User>, data: NovaArte, freshId: Id, now: Timestamp,
                                          parseDate: string -> Option<Timestamp>)
    requires k < MaxRetries
    ensures var r := Attempt(k, gerar, tableAt, users, data, freshId, now, parseDate);
      forall j :: k <= j < r.attempts - 1 ==> CodigoTaken(gerar, tableAt(j))
    decreases MaxRetries - k
  {
    var r := Attempt(k, gerar, tableAt, users, data, freshId, now, parseDate);
    AttemptStep(k, gerar, tableAt, users, data, freshId, now, parseDate);
    if r.attempts != k + 1 {
      AttemptRetriesOnlyTaken(k + 1, gerar, tableAt, users, data, freshId, now, parseDate);
      TakenThrough(k, r.attempts, gerar, tableAt);
    }
  }

  /** A taken code at `k` extends a run of taken codes that starts at `k + 1`. */
  lemma TakenThrough(k: nat, n: nat, gerar: seq<Arte> -> string, tableAt: nat -> seq<Arte>)
    requires CodigoTaken(gerar, tableAt(k))
    requires forall j :: k + 1 <= j < n - 1 ==> CodigoTaken(gerar, tableAt(j))
    ensures forall j :: k <= j < n - 1 ==> CodigoTaken(gerar, tableAt(j))
  {
  }

  /** A failed create throws the insert error itself, never the final
      "Falha ao gerar código" error. */
  lemma {:induction false} AttemptErrors(k: nat, gerar: seq<Arte> -> string, tableAt: nat -> seq<Arte>,
                                          users: seq<User>, data: NovaArte, freshId: Id, now: Timestamp,
                                          parseDate: string -> Option<Timestamp>)
    requires k < MaxRetries
    ensures var r := Attempt(k, gerar, tableAt, users, data, freshId, now, parseDate);
      r.result.Failure? ==> r.result.error == UniqueViolation("codigo") || r.result.error == ForeignKeyViolation()
    decreases MaxRetries - k
  {
    var table := tableAt(k);
    var arte := NewArte(data, gerar(table), freshId, now, parseDate);
    var ins := Insert(table, users, arte);
    var r := Attempt(k, gerar, tableAt, users, data, freshId, now, parseDate);
    if ins.Failure? {
      InsertErrorKinds(table, users, arte);
      if !IsUniqueViolation(ins.error) || k == MaxRetries - 1 {
        assert r == Creation(table, Failure(ins.error), k + 1);
      } else {
        AttemptErrors(k + 1, gerar, tableAt, users, data, freshId, now, parseDate);
        assert r == Attempt(k + 1, gerar, tableAt, users, data, freshId, now, parseDate);
      }
    } else {
      assert r.attempts == k + 1;
    }
  }

  /** A create that fails on the code has made all three attempts, each of
      which repeated a taken code. */
  lemma {:induction false} AttemptExhausted(k: nat, gerar: seq<Arte> -> string, tableAt: nat -> seq<Arte>,
                                          users: seq<User>, data: NovaArte, freshId: Id, now: Timestamp,
                                          parseDate: string -> Option<Timestamp>)
    requires k < MaxRetries
    ensures var r := Attempt(k, gerar, tableAt, users, data, freshId, now, parseDate);
      r.result.Failure? && r.result.error == UniqueViolation("codigo") ==>
        r.attempts == MaxRetries && forall j :: k <= j < MaxRetries ==> CodigoTaken(gerar, tableAt(j))
    decreases MaxRetries - k
  {
    var r := Attempt(k, gerar, tableAt, users, data, freshId, now, parseDate);
    AttemptUniqueStep(k, gerar, tableAt, users, data, freshId, now, parseDate);
    if r.result.Failure? && r.result.error == UniqueViolation("codigo") && k + 1 < MaxRetries {
      AttemptExhausted(k + 1, gerar, tableAt, users, data, freshId, now, parseDate);
      TakenThrough(k, MaxRetries + 1, gerar, tableAt);
    }
  }

  /** An attempt that ends in the unique violation found its own code taken,
      and was either the last allowed or handed over to the next attempt. */
  lemma AttemptUniqueStep(k: nat, gerar: seq<Arte> -> string, tableAt: nat -> seq<Arte>,
                          users: seq<User>, data: NovaArte, freshId: Id, now: Timestamp,
                          parseDate: string -> Option<Timestamp>)
    requires k < MaxRetries
    ensures var r := Attempt(k, gerar, tableAt, users, data, freshId, now, parseDate);
      r.result.Failure? && r.result.error == UniqueViolation("codigo") ==>
        && CodigoTaken(gerar, tableAt(k))
        && (|| (k + 1 == MaxRetries && r.attempts == MaxRetries)
            || (k + 1 < MaxRetries && r == Attempt(k + 1, gerar, tableAt, users, data, freshId, now, parseDate)))
  {
    var table := tableAt(k);
    var arte := NewArte(data, gerar(table), freshId, now, parseDate);
    var ins := Insert(table, users, arte);
    if ins.Failure? {
      InsertErrorKinds(table, users, arte);
    }
  }

  /** The retry behaviour of the whole create. */
  lemma CreateArteOutcome(tableAt: nat -> seq<Arte>, users: seq<User>, data: NovaArte, freshId: Id,
                          now: Timestamp, parseDate: string -> Option<Timestamp>)
    ensures var r := CreateArte(tableAt, users, data, freshId, now, parseDate);
      && (forall j :: 0 <= j < r.attempts - 1 ==> CodigoTaken(GerarCodigoArte, tableAt(j)))
      && (r.result.Failure? ==> r.result.error == UniqueViolation("codigo") || r.result.error == ForeignKeyViolation()
                                || r.result.error == InvalidDateError())
      && (r.result.Failure? && r.result.error == UniqueViolation("codigo") ==>
            r.attempts == MaxRetries && forall j :: 0 <= j < MaxRetries ==> CodigoTaken(GerarCodigoArte, tableAt(j)))
  {
    var r := CreateArte(tableAt, users, data, freshId, now, parseDate);
    if !PrazoInvalido(data.prazo, parseDate) {
      var g := GerarCodigoArte;
      CreateIsFirstAttempt(tableAt, users, data, freshId, now, parseDate);
      AttemptRetriesOnlyTaken(0, g, tableAt, users, data, freshId, now, parseDate);
      AttemptErrors(0, g, tableAt, users, data, freshId, now, parseDate);
      AttemptExhausted(0, g, tableAt, users, data, freshId, now, parseDate);
    }
  }

  lemma CreateIsFirstAttempt(tableAt: nat -> seq<Arte>, users: seq<User>, data: NovaArte, freshId: Id,
                             now: Timestamp, parseDate: string -> Option<Timestamp>)
    requires !PrazoInvalido(data.prazo, parseDate)
    ensures CreateArte(tableAt, users, data, freshId, now, parseDate)
         == Attempt(0, GerarCodigoArte, tableAt, users, data, freshId, now, parseDate)
  {
  }

  /** A fresh code with an unknown `responsavelId` fails on the first attempt
      with the foreign-key error, which is not retried. */
  lemma ForeignKeyNotRetried(tableAt: nat -> seq<Arte>, users: seq<User>, data: NovaArte, freshId: Id,
                             now: Timestamp, parseDate: string -> Option<Timestamp>)
    requires !CodigoTaken(GerarCodigoArte, tableAt(0)) && !UserExists(users, data.responsavelId)
    requires !PrazoInvalido(data.prazo, parseDate)
    ensures CreateArte(tableAt, users, data, freshId, now, parseDate) == Creation(tableAt(0), Failure(ForeignKeyViolation()), 1)
  {
    CodigoViolationRecognised();
  }

  /** Once "ART-999" and "ART-1000" both exist, and nothing else is written,
      all three attempts fail and the client sees a 409. */
  lemma CreateArteStuck(a999: Arte, a1000: Arte, users: seq<User>, data: NovaArte, freshId: Id,
                        now: Timestamp, parseDate: string -> Option<Timestamp>)
    requires a999.codigo == "ART-999" && a1000.codigo == "ART-1000"
    requires !PrazoInvalido(data.prazo, parseDate)
    ensures var r := CreateArte(_ => [a999, a1000], users, data, freshId, now, parseDate);
      && r.result == Failure(UniqueViolation("codigo")) && r.attempts == MaxRetries
      && Handle(r.result.error) == Response(409, DuplicateMessage)
  {
    ThousandRegenerated(a999, a1000);
    CodigoViolationRecognised();
  }

  /** `createArte` with numeric code generation: the first attempt never
      repeats a code, so it fails only on an unknown `responsavelId`. */
  function CreateArteNumerico(tableAt: nat -> seq<Arte>, users: seq<User>, data: NovaArte, freshId: Id,
                              now: Timestamp, parseDate: string -> Option<Timestamp>): (r: Creation)
    ensures r.attempts == 1
    ensures PrazoInvalido(data.prazo, parseDate) ==> r == Creation(tableAt(0), Failure(InvalidDateError()), 1)
    ensures !PrazoInvalido(data.prazo, parseDate) && UserExists(users, data.responsavelId) ==>
      && r.result.Success?
      && r.artes == tableAt(0) + [r.result.value]
      && r.result.value == NewArte(data, GerarCodigoNumerico(tableAt(0)), freshId, now, parseDate)
    ensures !PrazoInvalido(data.prazo, parseDate) && !UserExists(users, data.responsavelId) ==>
      r == Creation(tableAt(0), Failure(ForeignKeyViolation()), 1)
  {
    if PrazoInvalido(data.prazo, parseDate) then Creation(tableAt(0), Failure(InvalidDateError()), 1)
    else
      CodigoViolationRecognised();
      assert !CodigoTaken(GerarCodigoNumerico, tableAt(0));
      Attempt(0, GerarCodigoNumerico, tableAt, users, data, freshId, now, parseDate)
  }

  // ----- lookup, update, status -----

  function FindArte(artes: seq<Arte>, id: Id): (r: Option<nat>)
    ensures r.Some? ==> r.value < |artes| && artes[r.value].id == id
    ensures r.None? <==> forall i :: 0 <= i < |artes| ==> artes[i].id != id
  {
    Seqs.FindIndex(artes, (a: Arte) => a.id == id)
  }

  /** The validated body of an update: `None` is an absent field, and for the
      nullable fields `Some(None)` is an explicit null. */
  datatype EdicaoArte = EdicaoArte(
    clienteNome: Option<string>,
    clienteNumero: Option<string>,
    orcamentoNum: Option<string>,
    produto: Option<Produto>,
    quantidade: Option<int>,
    largura: Option<real>,
    altura: Option<real>,
    responsavelId: Option<Id>,
    urgencia: Option<Urgencia>,
    prazo: Option<Option<string>>,
    observacoes: Option<Option<string>>)

  const NoEdicao: EdicaoArte := EdicaoArte(None, None, None, None, None, None, None, None, None, None, None)

  /** The arte with each field the body carries replaced; a `prazo` present
      as null or "" clears the deadline. */
  function ApplyEdicao(a: Arte, data: EdicaoArte, parseDate: string -> Option<Timestamp>): (r: Arte)
    ensures r.id == a.id && r.codigo == a.codigo && r.status == a.status && r.createdAt == a.createdAt
    ensures r.clienteNome == (if data.clienteNome.Some? then data.clienteNome.value else a.clienteNome)
    ensures r.clienteNumero == (if data.clienteNumero.Some? then data.clienteNumero.value else a.clienteNumero)
    ensures r.orcamentoNum == (if data.orcamentoNum.Some? then data.orcamentoNum.value else a.orcamentoNum)
    ensures r.produto == (if data.produto.Some? then data.produto.value else a.produto)
    ensures r.quantidade == (if data.quantidade.Some? then data.quantidade.value else a.quantidade)
    ensures r.largura == (if data.largura.Some? then data.largura.value else a.largura)
    ensures r.altura == (if data.altura.Some? then data.altura.value else a.altura)
    ensures r.responsavelId == (if data.responsavelId.Some? then data.responsavelId.value else a.responsavelId)
    ensures r.urgencia == (if data.urgencia.Some? then data.urgencia.value else a.urgencia)
    ensures data.prazo.None? ==> r.prazo == a.prazo
    ensures data.prazo.Some? && (data.prazo.value.None? || |data.prazo.value.value| == 0) ==> r.prazo.None?
    ensures data.prazo.Some? && data.prazo.value.Some? && |data.prazo.value.value| > 0 ==>
      r.prazo == parseDate(data.prazo.value.value)
    ensures r.observacoes == (if data.observacoes.Some? then data.observacoes.value else a.observacoes)
  {
    a.(clienteNome := data.clienteNome.GetOr(a.clienteNome),
       clienteNumero := data.clienteNumero.GetOr(a.clienteNumero),
       orcamentoNum := data.orcamentoNum.GetOr(a.orcamentoNum),
       produto := data.produto.GetOr(a.produto),
       quantidade := data.quantidade.GetOr(a.quantidade),
       largura := data.largura.GetOr(a.largura),
       altura := data.altura.GetOr(a.altura),
       responsavelId := data.responsavelId.GetOr(a.responsavelId),
       urgencia := data.urgencia.GetOr(a.urgencia),
       prazo := if data.prazo.Some? then Prazo(data.prazo.value, parseDate) else a.prazo,
       observacoes := data.observacoes.GetOr(a.observacoes))
  }

  /** The body carries a `prazo` that `new Date` cannot read. */
  predicate EdicaoPrazoInvalido(data: EdicaoArte, parseDate: string -> Option<Timestamp>) {
    data.prazo.Some? && PrazoInvalido(data.prazo.value, parseDate)
  }

  /** `updateArte(id, data)`: only the fields present are written. An Invalid
      Date is refused before the update reaches the table; a missing row is
      reported before the `responsavelId` foreign key is checked. */
  function UpdateArte(artes: seq<Arte>, users: seq<User>, id: Id, data: EdicaoArte,
                      parseDate: string -> Option<Timestamp>)
    : (r: Result<seq<Arte>, AppError>)
    ensures EdicaoPrazoInvalido(data, parseDate) ==> r == Failure(InvalidDateError())
    ensures !EdicaoPrazoInvalido(data, parseDate) && FindArte(artes, id).None? ==> r == Failure(RecordNotFound())
    ensures !EdicaoPrazoInvalido(data, parseDate) && FindArte(artes, id).Some?
      && data.responsavelId.Some? && !UserExists(users, data.responsavelId.value)
      ==> r == Failure(ForeignKeyViolation())
    ensures r.Success? <==> && !EdicaoPrazoInvalido(data, parseDate) && FindArte(artes, id).Some?
                            && (data.responsavelId.Some? ==> UserExists(users, data.responsavelId.value))
    ensures r.Success? ==> |r.value| == |artes| && var k := FindArte(artes, id).value;
      && r.value[k] == ApplyEdicao(artes[k], data, parseDate)
      && forall j :: 0 <= j < |artes| && j != k ==> r.value[j] == artes[j]
  {
    if EdicaoPrazoInvalido(data, parseDate) then Failure(InvalidDateError())
    else match FindArte(artes, id)
      case None => Failure(RecordNotFound())
      case Some(k) =>
        if data.responsavelId.Some? && Seqs.FindIndex(users, (u: User) => u.id == data.responsavelId.value).None?
        then Failure(ForeignKeyViolation())
        else Success(artes[k := ApplyEdicao(artes[k], data, parseDate)])
  }

  /** An accepted update keeps every `responsavelId` pointing at a user. */
  lemma UpdateArteKeepsReferences(db: Db, id: Id, data: EdicaoArte, parseDate: string -> Option<Timestamp>)
    requires ReferencesResolve(db)
    requires UpdateArte(db.artes, db.users, id, data, parseDate).Success?
    ensures ReferencesResolve(db.(artes := UpdateArte(db.artes, db.users, id, data, parseDate).value))
  {
    var t := UpdateArte(db.artes, db.users, id, data, parseDate).value;
    var d := db.(artes := t);
    UpdatedResponsaveisResolve(db, id, data, parseDate);
    UpdatedArquivosResolve(db, t);
    assert d.pontos == db.pontos && d.registros == db.registros && d.users == db.users;
  }

  /** Every row's responsible user still exists after an accepted update. */
  lemma UpdatedResponsaveisResolve(db: Db, id: Id, data: EdicaoArte, parseDate: string -> Option<Timestamp>)
    requires forall i :: 0 <= i < |db.artes| ==> Entities.UserExists(db, db.artes[i].responsavelId)
    requires UpdateArte(db.artes, db.users, id, data, parseDate).Success?
    ensures var d := db.(artes := UpdateArte(db.artes, db.users, id, data, parseDate).value);
      forall i :: 0 <= i < |d.artes| ==> Entities.UserExists(d, d.artes[i].responsavelId)
  {
    var t := UpdateArte(db.artes, db.users, id, data, parseDate).value;
    var d := db.(artes := t);
    var k := FindArte(db.artes, id).value;
    forall i | 0 <= i < |d.artes|
      ensures Entities.UserExists(d, d.artes[i].responsavelId)
    {
      if i == k && data.responsavelId.Some? {
        assert UserExists(db.users, data.responsavelId.value);
        var j :| 0 <= j < |db.users| && db.users[j].id == data.responsavelId.value;
        assert d.users[j].id == d.artes[i].responsavelId;
      } else {
        assert d.artes[i].responsavelId == db.artes[i].responsavelId;
        assert Entities.UserExists(db, db.artes[i].responsavelId);
        var j :| 0 <= j < |db.users| && db.users[j].id == db.artes[i].responsavelId;
        assert d.users[j].id == d.artes[i].responsavelId;
      }
    }
  }

  /** Files still point at an existing arte when the ids of the table are kept. */
  lemma UpdatedArquivosResolve(db: Db, t: seq<Arte>)
    requires forall i :: 0 <= i < |db.arquivos| ==> Entities.ArteExists(db, db.arquivos[i].arteId)
    requires |t| == |db.artes| && forall j :: 0 <= j < |t| ==> t[j].id == db.artes[j].id
    ensures var d := db.(artes := t);
      forall i :: 0 <= i < |d.arquivos| ==> Entities.ArteExists(d, d.arquivos[i].arteId)
  {
    var d := db.(artes := t);
    forall i | 0 <= i < |d.arquivos|
      ensures Entities.ArteExists(d, d.arquivos[i].arteId)
    {
      assert Entities.ArteExists(db, db.arquivos[i].arteId);
      var j :| 0 <= j < |db.artes| && db.artes[j].id == db.arquivos[i].arteId;
      assert d.artes[j].id == db.artes[j].id;
    }
  }

  /** An update with no fields leaves the table as it was. */
  lemma EmptyUpdateIsIdentity(artes: seq<Arte>, users: seq<User>, id: Id, parseDate: string -> Option<Timestamp>)
    requires FindArte(artes, id).Some?
    ensures UpdateArte(artes, users, id, NoEdicao, parseDate) == Success(artes)
  {
    var k := FindArte(artes, id).value;
    assert ApplyEdicao(artes[k], NoEdicao, parseDate) == artes[k];
    assert artes[k := artes[k]] == artes;
  }

  /** `updateArteStatus(id, status)`: only `status` changes. */
  function UpdateArteStatus(artes: seq<Arte>, id: Id, status: ArteStatus): (r: Result<seq<Arte>, AppError>)
    ensures FindArte(artes, id).None? <==> r.Failure?
    ensures r.Failure? ==> r.error == RecordNotFound()
    ensures r.Success? ==> |r.value| == |artes| && var k := FindArte(artes, id).value;
      && r.value[k] == artes[k].(status := status)
      && forall j :: 0 <= j < |artes| && j != k ==> r.value[j] == artes[j]
  {
    match FindArte(artes, id)
    case None => Failure(RecordNotFound())
    case Some(k) => Success(artes[k := artes[k].(status := status)])
  }

  // ----- listing -----

  function NewestFirst(a: Arte): int {
    -a.createdAt
  }

  /** `listArtes(userId, role)`: every arte for an ADMIN, the caller's own
      otherwise, newest first. */
  function ListArtes(artes: seq<Arte>, userId: Id, role: Role): (r: seq<Arte>)
    ensures role == ADMIN ==> multiset(r) == multiset(artes)
    ensures role != ADMIN ==> multiset(r) == multiset(Seqs.Filter(artes, (a: Arte) => a.responsavelId == userId))
    ensures role != ADMIN ==> forall i :: 0 <= i < |r| ==> r[i].responsavelId == userId
    ensures forall i, j :: 0 <= i < j < |r| ==> r[i].createdAt >= r[j].createdAt
  {
    var visible := if role == ADMIN then artes else Seqs.Filter(artes, (a: Arte) => a.responsavelId == userId);
    var sorted := Sorting.SortBy(visible, NewestFirst);
    forall i | 0 <= i < |sorted|
      ensures role != ADMIN ==> sorted[i].responsavelId == userId
    {
      assert sorted[i] in multiset(visible);
    }
    assert Sorting.SortedBy(sorted, NewestFirst);
    sorted
  }

  // ----- deletion and files -----

  const ArteNaoEncontrada: string := "Arte não encontrada"
  const ArquivoNaoEncontrado: string := "Arquivo não encontrado"

  /** `deleteArte(id)`: the arte and, by cascade, its files. */
  function DeleteArte(db: Db, id: Id): (r: Result<Db, AppError>)
    ensures FindArte(db.artes, id).None? <==> r.Failure?
    ensures r.Failure? ==> r.error == HttpError(ArteNaoEncontrada, 404)
    ensures r.Success? ==> (r.value.users == db.users && r.value.pontos == db.pontos
      && r.value.itens == db.itens && r.value.registros == db.registros)
    ensures r.Success? ==> forall i :: 0 <= i < |r.value.artes| ==> r.value.artes[i].id != id
    ensures r.Success? ==> forall i :: 0 <= i < |r.value.arquivos| ==> r.value.arquivos[i].arteId != id
    ensures r.Success? ==> forall i :: 0 <= i < |db.artes| && db.artes[i].id != id ==> db.artes[i] in r.value.artes
    ensures r.Success? ==> forall i :: 0 <= i < |db.arquivos| && db.arquivos[i].arteId != id ==>
      db.arquivos[i] in r.value.arquivos
  {
    if FindArte(db.artes, id).None? then Failure(HttpError(ArteNaoEncontrada, 404))
    else Success(db.(artes := Seqs.Filter(db.artes, (a: Arte) => a.id != id),
                     arquivos := Seqs.Filter(db.arquivos, (f: Arquivo) => f.arteId != id)))
  }

  /** Deleting an arte leaves no file pointing at a missing arte. */
  lemma DeleteArteKeepsReferences(db: Db, id: Id)
    requires ReferencesResolve(db)
    requires DeleteArte(db, id).Success?
    ensures ReferencesResolve(DeleteArte(db, id).value)
  {
    var d := DeleteArte(db, id).value;
    forall i | 0 <= i < |d.arquivos|
      ensures ArteExists(d, d.arquivos[i].arteId)
    {
      var f := d.arquivos[i];
      assert f in db.arquivos;
      var m :| 0 <= m < |db.arquivos| && db.arquivos[m] == f;
      assert ArteExists(db, f.arteId);
      var j :| 0 <= j < |db.artes| && db.artes[j].id == f.arteId;
      assert db.artes[j] in d.artes;
    }
  }

  /** A file as the upload middleware stored it. */
  datatype Upload = Upload(originalname: string, path: string, mimetype: string, size: int, filename: string)

  function ToArquivo(arteId: Id, file: Upload, id: Id): (r: Arquivo)
    ensures r.arteId == arteId && r.url == "/uploads/" + file.filename && r.nomeStorage == file.path
  {
    Arquivo(id, arteId, file.originalname, file.path, file.mimetype, file.size, "/uploads/" + file.filename)
  }

  /** `addArquivos(arteId, files)`: one row per file, appended in order; an
      unknown arte violates the foreign key. `idOf(k)` is the id of row `k`.
      With no files the bulk insert writes nothing and so meets no foreign
      key, even for an unknown arte. */
  function AddArquivos(db: Db, arteId: Id, files: seq<Upload>, idOf: nat -> Id): (r: Result<Db, AppError>)
    ensures |files| == 0 ==> r == Success(db)
    ensures |files| > 0 && FindArte(db.artes, arteId).None? ==> r == Failure(ForeignKeyViolation())
    ensures FindArte(db.artes, arteId).Some? ==> (r.Success? && r.value.artes == db.artes
      && |r.value.arquivos| == |db.arquivos| + |files|
      && r.value.arquivos[..|db.arquivos|] == db.arquivos
      && forall k :: 0 <= k < |files| ==> r.value.arquivos[|db.arquivos| + k] == ToArquivo(arteId, files[k], idOf(k)))
  {
    if |files| == 0 then Success(db)
    else if FindArte(db.artes, arteId).None? then Failure(ForeignKeyViolation())
    else Success(db.(arquivos := db.arquivos + seq(|files|, k requires 0 <= k < |files| => ToArquivo(arteId, files[k], idOf(k)))))
  }

  /** `deleteArquivo(arteId, arquivoId)`: only a file of that arte. */
  function DeleteArquivo(arquivos: seq<Arquivo>, arteId: Id, arquivoId: Id): (r: Result<seq<Arquivo>, AppError>)
    ensures (forall i :: 0 <= i < |arquivos| ==> !(arquivos[i].id == arquivoId && arquivos[i].arteId == arteId))
      <==> r.Failure?
    ensures r.Failure? ==> r.error == HttpError(ArquivoNaoEncontrado, 404)
    ensures r.Success? ==> |r.value| == |arquivos| - 1
    ensures r.Success? ==> forall i :: 0 <= i < |arquivos| && arquivos[i].id != arquivoId ==> arquivos[i] in r.value
  {
    match Seqs.FindIndex(arquivos, (f: Arquivo) => f.id == arquivoId && f.arteId == arteId)
    case None => Failure(HttpError(ArquivoNaoEncontrado, 404))
    case Some(k) => Success(arquivos[..k] + arquivos[k + 1..])
  }
}

=== FILE: artes_page.dfy ===
/** The artes Kanban page (apps/web/src/pages/Artes.tsx): the status order and
    its next/previous buttons, the search and filters, the four columns, the
    drop handler and the overdue flag. */
module ArtesPage {
  import opened Wrappers
  import opened Entities
  import opened JsText
  import Seqs
  import ArteController

  /** `STATUSES`, the columns from left to right. */
  const Statuses: seq<ArteStatus> := [TODO, DOING, REVIEW, DONE]

  /** `STATUSES.indexOf(status)` */
  function StatusIndex(s: ArteStatus): (r: nat)
    ensures r < |Statuses| && Statuses[r] == s
  {
    match s
    case TODO => 0
    case DOING => 1
    case REVIEW => 2
    case DONE => 3
  }

  /** The "advance" button's status: the next column, none from the last. */
  function NextStatus(s: ArteStatus): (r: Option<ArteStatus>)
    ensures r.None? <==> s == DONE
    ensures r.Some? ==> StatusIndex(r.value) == StatusIndex(s) + 1
  {
    var i := StatusIndex(s);
    if i < |Statuses| - 1 then Some(Statuses[i + 1]) else None
  }

  /** The "back" button's status: the previous column, none from the first. */
  function PrevStatus(s: ArteStatus): (r: Option<ArteStatus>)
    ensures r.None? <==> s == TODO
    ensures r.Some? ==> StatusIndex(r.value) + 1 == StatusIndex(s)
  {
    var i := StatusIndex(s);
    if i > 0 then Some(Statuses[i - 1]) else None
  }

  /** Advancing and going back undo each other. */
  lemma NextPrevInverse(s: ArteStatus)
    ensures NextStatus(s).Some? ==> PrevStatus(NextStatus(s).value) == Some(s)
    ensures PrevStatus(s).Some? ==> NextStatus(PrevStatus(s).value) == Some(s)
  {
  }

  // ----- filters -----

  /** The toolbar: the search text and the two selects ("all" or a value). */
  datatype Filters = Filters(searchText: string, responsavel: string, urgencia: string)

  /** The search hits one of the code, client name, quote number or product,
      compared in lower case. */
  predicate MatchesSearch(a: Arte, search: string) {
    || Contains(ToLower(a.codigo), search)
    || Contains(ToLower(a.clienteNome), search)
    || Contains(ToLower(a.orcamentoNum), search)
    || Contains(ToLower(ArteController.ProdutoName(a.produto)), search)
  }

  predicate IsWildcard(v: string) {
    v == "" || v == "all"
  }

  function SearchOk(f: Filters): Arte -> bool {
    (a: Arte) => MatchesSearch(a, ToLower(f.searchText))
  }

  function ResponsavelOk(f: Filters): Arte -> bool {
    (a: Arte) => a.responsavelId == f.responsavel
  }

  function UrgenciaOk(f: Filters): Arte -> bool {
    (a: Arte) => ArteController.UrgenciaName(a.urgencia) == f.urgencia
  }

  /** Whether one arte survives all three filters. */
  predicate Passes(a: Arte, f: Filters) {
    && (f.searchText == "" || MatchesSearch(a, ToLower(f.searchText)))
    && (IsWildcard(f.responsavel) || a.responsavelId == f.responsavel)
    && (IsWildcard(f.urgencia) || ArteController.UrgenciaName(a.urgencia) == f.urgencia)
  }

  /** `filteredArtes`: the search, then the person, then the urgency, each
      skipped when empty or "all". */
  function FilteredArtes(artes: seq<Arte>, f: Filters): (r: seq<Arte>)
    ensures forall i :: 0 <= i < |r| ==> Passes(r[i], f)
  {
    var afterSearch := Apply(artes, f.searchText != "", SearchOk(f));
    var afterPerson := Apply(afterSearch, !IsWildcard(f.responsavel), ResponsavelOk(f));
    Apply(afterPerson, !IsWildcard(f.urgencia), UrgenciaOk(f))
  }

  /** One stage of `filteredArtes`: the filter when it is on, else nothing. */
  function Apply(s: seq<Arte>, on: bool, g: Arte -> bool): (r: seq<Arte>)
    ensures on ==> r == Seqs.Filter(s, g)
    ensures !on ==> r == s
  {
    if on then Seqs.Filter(s, g) else s
  }

  /** Reference definition: one pass keeping what passes every filter. */
  function OnePass(artes: seq<Arte>, f: Filters): seq<Arte>
    decreases |artes|
  {
    if |artes| == 0 then []
    else (if Passes(artes[0], f) then [artes[0]] else []) + OnePass(artes[1..], f)
  }

  /** The staged filters equal the single pass, so the page shows exactly the
      artes that pass, in their original order. */
  lemma {:induction false} FilteredIsOnePass(artes: seq<Arte>, f: Filters)
    ensures FilteredArtes(artes, f) == OnePass(artes, f)
    decreases |artes|
  {
    if |artes| > 0 {
      FilteredIsOnePass(artes[1..], f);
      var a := artes[0];
      var rest := artes[1..];
      assert artes == [a] + rest;
      var on1, on2, on3 := f.searchText != "", !IsWildcard(f.responsavel), !IsWildcard(f.urgencia);
      var g1, g2, g3 := SearchOk(f), ResponsavelOk(f), UrgenciaOk(f);
      var h1 := Stage([a], on1, g1);
      var h2 := Stage(h1, on2, g2);
      var h3 := Stage(h2, on3, g3);
      calc {
        FilteredArtes(artes, f);
        Apply(Apply(Apply([a] + rest, on1, g1), on2, g2), on3, g3);
        { StageCons([a], rest, on1, g1); }
        Apply(Apply(h1 + Apply(rest, on1, g1), on2, g2), on3, g3);
        { StageCons(h1, Apply(rest, on1, g1), on2, g2); }
        Apply(h2 + Apply(Apply(rest, on1, g1), on2, g2), on3, g3);
        { StageCons(h2, Apply(Apply(rest, on1, g1), on2, g2), on3, g3); }
        h3 + FilteredArtes(rest, f);
      }
      HeadStages(a, f);
    }
  }

  /** The three stages keep a single arte exactly when it passes. */
  lemma HeadStages(a: Arte, f: Filters)
    ensures var h1 := Stage([a], f.searchText != "", SearchOk(f));
      var h2 := Stage(h1, !IsWildcard(f.responsavel), ResponsavelOk(f));
      Stage(h2, !IsWildcard(f.urgencia), UrgenciaOk(f)) == if Passes(a, f) then [a] else []
  {
  }

  /** What one stage keeps of a list of at most one arte. */
  function Stage(h: seq<Arte>, on: bool, g: Arte -> bool): seq<Arte>
    requires |h| <= 1
  {
    if |h| == 1 && (!on || g(h[0])) then h else []
  }

  /** A stage, applied or skipped, treats the head and the rest apart. */
  lemma StageCons(h: seq<Arte>, rest: seq<Arte>, on: bool, g: Arte -> bool)
    requires |h| <= 1
    ensures Apply(h + rest, on, g) == Stage(h, on, g) + Apply(rest, on, g)
  {
    if on {
      Seqs.FilterAppend(h, rest, g);
      if |h| == 1 {
        assert h[1..] == [];
      }
    } else if |h| == 0 {
      assert h + rest == rest;
    }
  }

  /** Every arte that passes the filters is shown. */
  lemma OnePassKeepsPassing(artes: seq<Arte>, f: Filters)
    ensures forall i :: 0 <= i < |artes| && Passes(artes[i], f) ==> artes[i] in OnePass(artes, f)
    ensures Seqs.Subsequence(OnePass(artes, f), artes)
  {
    OnePassComplete(artes, f);
    OnePassOrdered(artes, f);
  }

  lemma {:induction false} OnePassComplete(artes: seq<Arte>, f: Filters)
    ensures forall i :: 0 <= i < |artes| && Passes(artes[i], f) ==> artes[i] in OnePass(artes, f)
    decreases |artes|
  {
    if |artes| > 0 {
      var rest := OnePass(artes[1..], f);
      var head := if Passes(artes[0], f) then [artes[0]] else [];
      OnePassComplete(artes[1..], f);
      assert OnePass(artes, f) == head + rest;
      forall i | 0 <= i < |artes| && Passes(artes[i], f)
        ensures artes[i] in head + rest
      {
        if i > 0 {
          assert artes[i] == artes[1..][i - 1];
          assert artes[i] in rest;
        }
      }
    }
  }

  lemma {:induction false} OnePassOrdered(artes: seq<Arte>, f: Filters)
    ensures Seqs.Subsequence(OnePass(artes, f), artes)
    decreases |artes|
  {
    if |artes| > 0 {
      var r := OnePass(artes, f);
      var rest := OnePass(artes[1..], f);
      OnePassOrdered(artes[1..], f);
      if Passes(artes[0], f) {
        assert r == [artes[0]] + rest;
        assert r[1..] == rest;
      } else {
        assert r == rest;
      }
    }
  }

  /** The filtered list is an order-preserving selection of the artes, and it
      holds every arte that passes. */
  lemma FilteredSelects(artes: seq<Arte>, f: Filters)
    ensures Seqs.Subsequence(FilteredArtes(artes, f), artes)
    ensures forall i :: 0 <= i < |artes| ==> (Passes(artes[i], f) <==> artes[i] in FilteredArtes(artes, f))
  {
    FilteredIsOnePass(artes, f);
    OnePassKeepsPassing(artes, f);
  }

  /** An empty search and "all" in both selects show every arte. */
  lemma NoFilterShowsAll(artes: seq<Arte>)
    ensures FilteredArtes(artes, Filters("", "all", "all")) == artes
  {
  }

  lemma LowerIdempotent(s: string)
    ensures ToLower(ToLower(s)) == ToLower(s)
  {
  }

  /** Typing the search in upper or lower case shows the same artes. */
  lemma SearchIgnoresQueryCase(artes: seq<Arte>, f: Filters)
    ensures FilteredArtes(artes, f.(searchText := ToLower(f.searchText))) == FilteredArtes(artes, f)
  {
    var g := f.(searchText := ToLower(f.searchText));
    LowerIdempotent(f.searchText);
    forall a ensures Passes(a, g) == Passes(a, f) { }
    FilteredIsOnePass(artes, f);
    FilteredIsOnePass(artes, g);
    SamePassesSameOnePass(artes, f, g);
  }

  lemma {:induction false} SamePassesSameOnePass(artes: seq<Arte>, f: Filters, g: Filters)
    requires forall a :: Passes(a, g) == Passes(a, f)
    ensures OnePass(artes, f) == OnePass(artes, g)
    decreases |artes|
  {
    if |artes| > 0 {
      SamePassesSameOnePass(artes[1..], f, g);
    }
  }

  // ----- columns -----

  function HasStatus(s: ArteStatus): Arte -> bool {
    (a: Arte) => a.status == s
  }

  /** `groupedArtes`: one column per status, in board order. */
  function GroupedArtes(filtered: seq<Arte>): (r: seq<seq<Arte>>)
    ensures |r| == |Statuses|
    ensures forall k :: 0 <= k < |r| ==> forall j :: 0 <= j < |r[k]| ==> r[k][j].status == Statuses[k] && r[k][j] in filtered
    ensures forall i :: 0 <= i < |filtered| ==> filtered[i] in r[StatusIndex(filtered[i].status)]
  {
    seq(|Statuses|, k requires 0 <= k < |Statuses| => Seqs.Filter(filtered, HasStatus(Statuses[k])))
  }

  /** The columns partition the filtered list: their sizes add up to it. */
  lemma {:induction false} ColumnsPartition(filtered: seq<Arte>)
    ensures var g := GroupedArtes(filtered); |g[0]| + |g[1]| + |g[2]| + |g[3]| == |filtered|
    decreases |filtered|
  {
    if |filtered| > 0 {
      ColumnsPartition(filtered[1..]);
      var g := GroupedArtes(filtered);
      var h := GroupedArtes(filtered[1..]);
      forall k | 0 <= k < 4
        ensures |g[k]| == |h[k]| + (if filtered[0].status == Statuses[k] then 1 else 0)
      {
        assert g[k] == Seqs.Filter(filtered, HasStatus(Statuses[k]));
        assert h[k] == Seqs.Filter(filtered[1..], HasStatus(Statuses[k]));
      }
    }
  }

  // ----- drag and drop -----

  function HasId(id: Id): Arte -> bool {
    (a: Arte) => a.id == id
  }

  /** The status a drop lands on: the column itself when the target id names a
      status, otherwise the status of the card dropped on. */
  function DropTarget(artes: seq<Arte>, overId: string): (r: Option<ArteStatus>)
    ensures ArteController.StatusOf(overId).Some? ==> r == ArteController.StatusOf(overId)
    ensures ArteController.StatusOf(overId).None? ==>
      match Seqs.FindIndex(artes, HasId(overId))
      case None => r.None?
      case Some(k) => r == Some(artes[k].status)
  {
    match ArteController.StatusOf(overId)
    case Some(s) => Some(s)
    case None =>
      match Seqs.FindIndex(artes, HasId(overId))
      case None => None
      case Some(k) => Some(artes[k].status)
  }

  datatype StatusUpdate = StatusUpdate(id: Id, status: ArteStatus)

  /** `handleDragEnd`: the status update the drop issues, if any. */
  function HandleDragEnd(artes: seq<Arte>, activeId: Id, overId: Option<string>): (r: Option<StatusUpdate>)
    ensures overId.None? ==> r.None?
    ensures Seqs.FindIndex(artes, HasId(activeId)).None? ==> r.None?
    ensures r.Some? ==> (
      && overId.Some? && r.value.id == activeId
      && Some(r.value.status) == DropTarget(artes, overId.value)
      && Seqs.FindIndex(artes, HasId(activeId)).Some?
      && artes[Seqs.FindIndex(artes, HasId(activeId)).value].status != r.value.status)
    ensures (&& overId.Some? && Seqs.FindIndex(artes, HasId(activeId)).Some? && DropTarget(artes, overId.value).Some?
             && DropTarget(artes, overId.value).value != artes[Seqs.FindIndex(artes, HasId(activeId)).value].status)
      ==> r.Some?
  {
    if overId.None? then None
    else match Seqs.FindIndex(artes, HasId(activeId))
      case None => None
      case Some(k) =>
        match DropTarget(artes, overId.value)
        case None => None
        case Some(s) => if s != artes[k].status then Some(StatusUpdate(activeId, s)) else None
  }

  /** Dropping a card on its own column issues nothing. */
  lemma DropOnOwnColumnIsNoop(artes: seq<Arte>, k: nat)
    requires k < |artes| && Seqs.FindIndex(artes, HasId(artes[k].id)) == Some(k)
    ensures HandleDragEnd(artes, artes[k].id, Some(ArteController.StatusName(artes[k].status))).None?
  {
    ArteController.EnumsAcceptTheirNames(AZULEJO, LOW, artes[k].status);
  }

  /** A card is overdue when its deadline has passed and it is not done. */
  function IsOverdue(a: Arte, now: Timestamp): (r: bool)
    ensures r ==> a.status != DONE && a.prazo.Some?
    ensures a.status == DONE ==> !r
  {
    a.prazo.Some? && a.prazo.value < now && a.status != DONE
  }

  /** Overdue is a one-way switch while the card stays put: once the deadline
      has passed, every later instant is overdue too, and at the deadline
      itself the card is not yet overdue. */
  lemma OverdueStaysOverdue(a: Arte, t: Timestamp, later: Timestamp)
    requires t <= later
    ensures IsOverdue(a, t) ==> IsOverdue(a, later)
    ensures a.prazo.Some? ==> !IsOverdue(a, a.prazo.value)
  {
  }
}

=== FILE: auth_store.dfy ===
/** The session store (apps/web/src/stores/authStore.ts): the access token,
    the refresh token and the signed-in user, with the flag the route guard
    reads. Persistence to local storage is not modelled. */
module AuthStore {
  import opened Wrappers
  import opened Entities

  datatype AuthState = AuthState(token: Option<string>, refreshToken: Option<string>,
                                 user: Option<User>, isAuthenticated: bool)

  const Initial: AuthState := AuthState(None, None, None, false)

  /** What the route guard relies on: a session flagged authenticated holds
      both tokens and a user. */
  predicate Valid(s: AuthState) {
    s.isAuthenticated ==> s.token.Some? && s.refreshToken.Some? && s.user.Some?
  }

  /** `setAuth(token, refreshToken, user)` after a login. */
  function SetAuth(s: AuthState, token: string, refreshToken: string, user: User): (r: AuthState)
    ensures r.isAuthenticated && Valid(r)
    ensures r.token == Some(token) && r.refreshToken == Some(refreshToken) && r.user == Some(user)
  {
    AuthState(Some(token), Some(refreshToken), Some(user), true)
  }

  /** `setToken(token)` after a refresh: only the access token changes. */
  function SetToken(s: AuthState, token: string): (r: AuthState)
    ensures r.token == Some(token)
    ensures r.refreshToken == s.refreshToken && r.user == s.user && r.isAuthenticated == s.isAuthenticated
    ensures Valid(s) ==> Valid(r)
  {
    s.(token := Some(token))
  }

  /** `setUser(user)` after a profile update: only the user changes. */
  function SetUser(s: AuthState, user: User): (r: AuthState)
    ensures r.user == Some(user)
    ensures r.token == s.token && r.refreshToken == s.refreshToken && r.isAuthenticated == s.isAuthenticated
    ensures Valid(s) ==> Valid(r)
  {
    s.(user := Some(user))
  }

  /** `logout()`: everything cleared, whatever the session held. */
  function Logout(s: AuthState): (r: AuthState)
    ensures !r.isAuthenticated && r.token.None? && r.refreshToken.None? && r.user.None?
    ensures Valid(r)
  {
    Initial
  }

  datatype Op = Login(token: string, refreshToken: string, user: User)
              | Refresh(token: string)
              | UpdateUser(user: User)
              | SignOut

  function Apply(s: AuthState, op: Op): AuthState {
    match op
    case Login(t, rt, u) => SetAuth(s, t, rt, u)
    case Refresh(t) => SetToken(s, t)
    case UpdateUser(u) => SetUser(s, u)
    case SignOut => Logout(s)
  }

  /** Any sequence of store calls keeps the session valid, and the session is
      authenticated exactly when the last login came after the last logout. */
  function Run(s: AuthState, ops: seq<Op>): (r: AuthState)
    ensures Valid(s) ==> Valid(r)
    ensures r.isAuthenticated <==> AuthenticatedAfter(s.isAuthenticated, ops)
    decreases |ops|
  {
    if |ops| == 0 then s
    else
      AuthenticatedAfterStep(s.isAuthenticated, ops);
      Run(Apply(s, ops[0]), ops[1..])
  }

  /** Reference definition: the flag after `ops` is the kind of the last login
      or logout among them, or `before` when there is none. */
  function AuthenticatedAfter(before: bool, ops: seq<Op>): bool
    decreases |ops|
  {
    if |ops| == 0 then before
    else
      var last := ops[|ops| - 1];
      if last.Login? then true
      else if last.SignOut? then false
      else AuthenticatedAfter(before, ops[..|ops| - 1])
  }

  /** The reference definition read from the front, as `Run` walks. */
  lemma {:induction false} AuthenticatedAfterStep(before: bool, ops: seq<Op>)
    requires |ops| > 0
    ensures AuthenticatedAfter(before, ops) ==
      AuthenticatedAfter(if ops[0].Login? then true else if ops[0].SignOut? then false else before, ops[1..])
    decreases |ops|
  {
    if |ops| > 1 {
      var n := |ops| - 1;
      assert ops[..n][1..] == ops[1..][..n - 1];
      AuthenticatedAfterStep(before, ops[..n]);
    }
  }

  /** Logging out ends any session: two logouts are one. */
  lemma LogoutIdempotent(s: AuthState)
    ensures Logout(Logout(s)) == Logout(s) && Logout(s) == Initial
  {
  }
}

=== FILE: auto_close.dfy ===
/** The 22:00 sweep that closes the day's open time-clock records
    (apps/api/src/jobs/fecharPontos.ts). The civil day and the cutoff instant
    are inputs; the user's name comes from the joined user row. */
module AutoClose {
  import opened Wrappers
  import opened Entities
  import Seqs

  /** A record the sweep must close: today's, clocked in, not clocked out. */
  predicate IsOpen(p: Ponto, today: Day) {
    p.date == today && p.entrada.Some? && p.saida.None?
  }

  datatype ClosedUser = ClosedUser(id: Id, name: string, entrada: Option<Timestamp>)

  datatype SweepResult = SweepResult(encerrados: nat, usuarios: seq<ClosedUser>)

  datatype Sweep = Sweep(store: seq<Ponto>, result: SweepResult)

  /** The record as the bulk update leaves it. */
  function Close(p: Ponto, today: Day, cutoff: Timestamp): (q: Ponto)
    ensures IsOpen(p, today) ==> q == p.(saida := Some(cutoff), encerramentoAutomatico := true)
    ensures !IsOpen(p, today) ==> q == p
  {
    if IsOpen(p, today) then p.(saida := Some(cutoff), encerramentoAutomatico := true) else p
  }

  /** The log entry the sweep returns for a closed record. */
  function LogEntry(p: Ponto, nameOf: Id -> string): ClosedUser {
    ClosedUser(p.userId, nameOf(p.userId), p.entrada)
  }

  /** The log entry for every open record, in table order. */
  function OpenUsers(store: seq<Ponto>, today: Day, nameOf: Id -> string): (r: seq<ClosedUser>)
    ensures |r| == Seqs.Count(store, p => IsOpen(p, today))
    decreases |store|
  {
    if |store| == 0 then []
    else
      var rest := OpenUsers(store[1..], today, nameOf);
      if IsOpen(store[0], today) then [LogEntry(store[0], nameOf)] + rest
      else rest
  }

  /** Entry `k` of the log belongs to the `k`-th open record. */
  lemma {:induction false} OpenUsersInOrder(store: seq<Ponto>, today: Day, nameOf: Id -> string)
    ensures var r := OpenUsers(store, today, nameOf);
      var open := Seqs.Filter(store, p => IsOpen(p, today));
      |r| == |open| && forall k :: 0 <= k < |r| ==> r[k] == LogEntry(open[k], nameOf)
    decreases |store|
  {
    if |store| > 0 {
      OpenUsersInOrder(store[1..], today, nameOf);
    }
  }

  /** Every open record has its entry in the log. */
  lemma OpenUsersComplete(store: seq<Ponto>, today: Day, nameOf: Id -> string)
    ensures forall i :: 0 <= i < |store| && IsOpen(store[i], today) ==>
      LogEntry(store[i], nameOf) in OpenUsers(store, today, nameOf)
  {
    var r := OpenUsers(store, today, nameOf);
    var open := Seqs.Filter(store, p => IsOpen(p, today));
    OpenUsersInOrder(store, today, nameOf);
    forall i | 0 <= i < |store| && IsOpen(store[i], today)
      ensures LogEntry(store[i], nameOf) in r
    {
      assert store[i] in open;
      var k :| 0 <= k < |open| && open[k] == store[i];
      assert r[k] == LogEntry(store[i], nameOf);
    }
  }

  /** `fecharPontosAbertos()` run on civil day `today` with `cutoff` = today 22:00. */
  function FecharPontosAbertos(store: seq<Ponto>, today: Day, cutoff: Timestamp, nameOf: Id -> string): (r: Sweep)
    ensures |r.store| == |store|
    ensures forall i :: 0 <= i < |store| && IsOpen(store[i], today) ==>
      && r.store[i].saida == Some(cutoff) && r.store[i].encerramentoAutomatico
      && r.store[i].entrada == store[i].entrada && r.store[i].almoco == store[i].almoco
      && r.store[i].retorno == store[i].retorno
      && r.store[i].id == store[i].id && r.store[i].userId == store[i].userId && r.store[i].date == store[i].date
    ensures forall i :: 0 <= i < |store| && !IsOpen(store[i], today) ==> r.store[i] == store[i]
    ensures r.result.encerrados == Seqs.Count(store, p => IsOpen(p, today)) == |r.result.usuarios|
    ensures forall i :: 0 <= i < |store| && IsOpen(store[i], today) ==> LogEntry(store[i], nameOf) in r.result.usuarios
    ensures |r.result.usuarios| == |Seqs.Filter(store, p => IsOpen(p, today))|
    ensures forall k :: 0 <= k < |r.result.usuarios| ==>
      r.result.usuarios[k] == LogEntry(Seqs.Filter(store, p => IsOpen(p, today))[k], nameOf)
    ensures r.result.encerrados == 0 ==> r.store == store && r.result == SweepResult(0, [])
  {
    var open := Seqs.Count(store, p => IsOpen(p, today));
    if open == 0 then
      NothingOpenMeansUnchanged(store, today, cutoff);
      Sweep(store, SweepResult(0, []))
    else
      var closed := seq(|store|, i requires 0 <= i < |store| => Close(store[i], today, cutoff));
      OpenUsersInOrder(store, today, nameOf);
      OpenUsersComplete(store, today, nameOf);
      Sweep(closed, SweepResult(open, OpenUsers(store, today, nameOf)))
  }

  lemma {:induction false} NothingOpenMeansUnchanged(store: seq<Ponto>, today: Day, cutoff: Timestamp)
    requires Seqs.Count(store, p => IsOpen(p, today)) == 0
    ensures forall i :: 0 <= i < |store| ==> !IsOpen(store[i], today)
  {
  }

  /** A second sweep on the same day, with no punch in between, closes nothing
      and changes nothing. */
  lemma SweepIdempotent(store: seq<Ponto>, today: Day, cutoff: Timestamp, nameOf: Id -> string)
    ensures var once := FecharPontosAbertos(store, today, cutoff, nameOf);
      var twice := FecharPontosAbertos(once.store, today, cutoff, nameOf);
      twice.result == SweepResult(0, []) && twice.store == once.store
  {
    var once := FecharPontosAbertos(store, today, cutoff, nameOf);
    forall i | 0 <= i < |once.store|
      ensures !IsOpen(once.store[i], today)
    {
    }
    NoneOpenCountsZero(once.store, today);
  }

  lemma {:induction false} NoneOpenCountsZero(store: seq<Ponto>, today: Day)
    requires forall i :: 0 <= i < |store| ==> !IsOpen(store[i], today)
    ensures Seqs.Count(store, p => IsOpen(p, today)) == 0
    decreases |store|
  {
    if |store| > 0 {
      NoneOpenCountsZero(store[1..], today);
    }
  }
}

=== FILE: checklist_controller.dfy ===
/** The checklist endpoints (apps/api/src/controllers/checklist.controller.ts):
    the request schemas, and the ADMIN gate that answers 403 before anything
    is parsed or stored. A schema failure carries neither a status nor a
    code, so the error middleware turns it into a generic 500. */
module ChecklistController {
  import opened Wrappers
  import opened Entities
  import opened ErrorHandler
  import opened JsText
  import opened Zod
  import Horario
  import ChecklistService

  const AccessDenied: Response := Response(403, "Acesso negado")

  // ----- field constraints -----

  /** `z.string().min(2).max(100)` */
  predicate IsTitulo(v: Json) {
    v.JStr? && 2 <= Utf16Length(v.s) <= 100
  }

  /** `z.string().max(300)` */
  predicate IsDescricao(v: Json) {
    v.JStr? && Utf16Length(v.s) <= 300
  }

  /** `z.string().regex(/^\d{2}:\d{2}$/)`: the shape only, so "99:99" passes. */
  predicate IsHorario(v: Json) {
    v.JStr? && Horario.IsHHMM(v.s)
  }

  /** `z.number().int().min(0)` */
  predicate IsOrdem(v: Json) {
    v.JNum? && IsInteger(v.n) && v.n >= 0.0
  }

  /** `/^\d{4}-\d{2}-\d{2}$/`, the shape of a calendar date only. */
  predicate IsDateShape(s: string) {
    && |s| == 10
    && IsDigit(s[0]) && IsDigit(s[1]) && IsDigit(s[2]) && IsDigit(s[3]) && s[4] == '-'
    && IsDigit(s[5]) && IsDigit(s[6]) && s[7] == '-' && IsDigit(s[8]) && IsDigit(s[9])
  }

  /** A key that, when present, satisfies `p`. */
  predicate OptionalOk(body: Json, key: string, p: Json -> bool) {
    body.JObj? && (key in body.fields ==> p(body.fields[key]))
  }

  /** What `criarItemSchema` accepts. */
  predicate CriarItemValid(body: Json) {
    && body.JObj?
    && "titulo" in body.fields && IsTitulo(body.fields["titulo"])
    && OptionalOk(body, "descricao", IsDescricao)
    && OptionalOk(body, "horarioLimite", IsHorario)
    && OptionalOk(body, "ordem", IsOrdem)
  }

  /** What `editarItemSchema` accepts: the same constraints, all optional. */
  predicate EditarItemValid(body: Json) {
    && body.JObj?
    && OptionalOk(body, "titulo", IsTitulo)
    && OptionalOk(body, "descricao", IsDescricao)
    && OptionalOk(body, "horarioLimite", IsHorario)
    && OptionalOk(body, "ordem", IsOrdem)
  }

  // ----- schemas -----

  function ParseDescricao(v: Json): Option<string> { Str(v, 0, Some(300)) }
  function ParseHorario(v: Json): Option<string> { Matching(v, Horario.IsHHMM) }
  function ParseOrdem(v: Json): Option<int> { Int(v, 0) }

  /** `criarItemSchema.parse(body)` */
  function ParseCriarItem(body: Json): (r: Result<ChecklistService.NovoItem, string>)
    ensures r.Success? <==> CriarItemValid(body)
    ensures r.Success? ==> r.value == ChecklistService.NovoItem(
      body.fields["titulo"].s, OptString(body, "descricao"),
      OptString(body, "horarioLimite"), OptInt(body, "ordem"))
  {
    if !body.JObj? then Failure("")
    else
      var titulo :- Req(body, "titulo", v => Str(v, 2, Some(100)));
      var descricao :- Opt(body, "descricao", ParseDescricao);
      var horarioLimite :- Opt(body, "horarioLimite", ParseHorario);
      var ordem :- Opt(body, "ordem", ParseOrdem);
      Success(ChecklistService.NovoItem(titulo, descricao, horarioLimite, ordem))
  }

  /** `editarItemSchema.parse(body)` */
  function ParseEditarItem(body: Json): (r: Result<ChecklistService.EdicaoItem, string>)
    ensures r.Success? <==> EditarItemValid(body)
    ensures r.Success? ==> r.value == ChecklistService.EdicaoItem(
      OptString(body, "titulo"), OptString(body, "descricao"),
      OptString(body, "horarioLimite"), OptInt(body, "ordem"))
  {
    if !body.JObj? then Failure("")
    else
      var titulo :- Opt(body, "titulo", v => Str(v, 2, Some(100)));
      var descricao :- Opt(body, "descricao", ParseDescricao);
      var horarioLimite :- Opt(body, "horarioLimite", ParseHorario);
      var ordem :- Opt(body, "ordem", ParseOrdem);
      Success(ChecklistService.EdicaoItem(titulo, descricao, horarioLimite, ordem))
  }

  /** Whatever creates an item would also pass as an edit, with the same
      fields set. */
  lemma CreateBodyIsEditBody(body: Json)
    requires CriarItemValid(body)
    ensures ParseEditarItem(body).Success?
    ensures var c := ParseCriarItem(body).value; var e := ParseEditarItem(body).value;
      e.titulo == Some(c.titulo) && e.descricao == c.descricao
      && e.horarioLimite == c.horarioLimite && e.ordem == c.ordem
  {
  }

  /** The deadline check is on shape only: an impossible clock time passes,
      and a title one character long does not. */
  lemma SchemaExamples()
    ensures ParseCriarItem(JObj(map["titulo" := JStr("ab"), "horarioLimite" := JStr("99:99")])).Success?
    ensures ParseCriarItem(JObj(map["titulo" := JStr("a")])).Failure?
  {
    var ok := JObj(map["titulo" := JStr("ab"), "horarioLimite" := JStr("99:99")]);
    assert Utf16Length("ab") == 2 by {
      assert "ab"[1..] == "b";
      assert "b"[1..] == "";
    }
    assert Horario.IsHHMM("99:99");
    assert CriarItemValid(ok);
    assert Utf16Length("a") == 1 by {
      assert "a"[1..] == "";
    }
  }

  /** The query `relatorioQuerySchema` accepts: both dates of the right shape. */
  predicate RelatorioQueryValid(query: Json) {
    && query.JObj?
    && "startDate" in query.fields && query.fields["startDate"].JStr? && IsDateShape(query.fields["startDate"].s)
    && "endDate" in query.fields && query.fields["endDate"].JStr? && IsDateShape(query.fields["endDate"].s)
  }

  function ParseDate(v: Json): Option<string> { Matching(v, IsDateShape) }

  /** `relatorioQuerySchema.parse(query)`: the two dates. */
  function ParseRelatorioQuery(query: Json): (r: Result<(string, string), string>)
    ensures r.Success? <==> RelatorioQueryValid(query)
    ensures r.Success? ==> r.value == (query.fields["startDate"].s, query.fields["endDate"].s)
  {
    if !query.JObj? then Failure("")
    else
      var startDate :- Req(query, "startDate", ParseDate);
      var endDate :- Req(query, "endDate", ParseDate);
      Success((startDate, endDate))
  }

  // ----- endpoints -----

  /** `POST /api/checklist/itens` */
  function CriarItem(role: Role, body: Json, itens: seq<ChecklistItem>, freshId: Id)
    : (r: Handled<seq<ChecklistItem>, ChecklistItem>)
    ensures role != ADMIN ==> r == Handled(itens, Err(AccessDenied))
    ensures role == ADMIN && !CriarItemValid(body) ==>
      r == Handled(itens, Err(Response(500, InternalMessage)))
    ensures role == ADMIN && CriarItemValid(body) ==>
      && |r.state| == |itens| + 1 && r.state[..|itens|] == itens
      && r.reply == Ok(201, r.state[|itens|])
      && r.reply.body.id == freshId && r.reply.body.titulo == body.fields["titulo"].s
  {
    if role != ADMIN then Handled(itens, Err(AccessDenied))
    else match ParseCriarItem(body)
      case Failure(f) => Handled(itens, Invalid(f))
      case Success(data) =>
        var itens' := ChecklistService.CriarItem(itens, data, freshId);
        Handled(itens', Ok(201, itens'[|itens|]))
  }

  /** `PUT /api/checklist/itens/:id`, answering with the edited item. */
  function EditarItem(role: Role, id: Id, body: Json, itens: seq<ChecklistItem>)
    : (r: Handled<seq<ChecklistItem>, ChecklistItem>)
    ensures role != ADMIN ==> r == Handled(itens, Err(AccessDenied))
    ensures role == ADMIN && !EditarItemValid(body) ==>
      r == Handled(itens, Err(Response(500, InternalMessage)))
    ensures role == ADMIN && EditarItemValid(body) && ChecklistService.FindItem(itens, id).None? ==>
      r == Handled(itens, Err(Response(404, NotFoundMessage)))
    ensures r.reply.Ok? ==> role == ADMIN && r.reply.status == 200 && |r.state| == |itens|
    ensures role == ADMIN && EditarItemValid(body) && ChecklistService.FindItem(itens, id).Some? ==>
      && r.state == ChecklistService.EditarItem(itens, id, ParseEditarItem(body).value).value
      && r.reply == Ok(200, r.state[ChecklistService.FindItem(itens, id).value])
  {
    if role != ADMIN then Handled(itens, Err(AccessDenied))
    else match ParseEditarItem(body)
      case Failure(f) => Handled(itens, Invalid(f))
      case Success(data) =>
        match ChecklistService.EditarItem(itens, id, data)
        case Failure(e) => Handled(itens, Err(Handle(e)))
        case Success(itens') => Handled(itens', Ok(200, itens'[ChecklistService.FindItem(itens, id).value]))
  }

  /** `PATCH /api/checklist/itens/:id/toggle`, answering with the toggled item. */
  function ToggleItem(role: Role, id: Id, itens: seq<ChecklistItem>)
    : (r: Handled<seq<ChecklistItem>, ChecklistItem>)
    ensures role != ADMIN ==> r == Handled(itens, Err(AccessDenied))
    ensures role == ADMIN && ChecklistService.FindItem(itens, id).None? ==>
      r == Handled(itens, Err(Response(404, NotFoundMessage)))
    ensures r.reply.Ok? ==> role == ADMIN && |r.state| == |itens| && var k := ChecklistService.FindItem(itens, id).value;
      r.state[k].ativo == !itens[k].ativo
    ensures role == ADMIN && ChecklistService.FindItem(itens, id).Some? ==>
      && |r.state| == |itens|
      && var k := ChecklistService.FindItem(itens, id).value;
      && r.reply == Ok(200, itens[k].(ativo := !itens[k].ativo))
      && r.state[k] == r.reply.body
      && forall j :: 0 <= j < |itens| && j != k ==> r.state[j] == itens[j]
  {
    if role != ADMIN then Handled(itens, Err(AccessDenied))
    else match ChecklistService.ToggleAtivoItem(itens, id)
      case Failure(e) => Handled(itens, Err(Handle(e)))
      case Success(itens') => Handled(itens', Ok(200, itens'[ChecklistService.FindItem(itens, id).value]))
  }

  /** `DELETE /api/checklist/itens/:id`, answering `{ ok: true }`. */
  function DeletarItem(role: Role, id: Id, itens: seq<ChecklistItem>)
    : (r: Handled<seq<ChecklistItem>, bool>)
    ensures role != ADMIN ==> r == Handled(itens, Err(AccessDenied))
    ensures role == ADMIN && ChecklistService.FindItem(itens, id).None? ==>
      r == Handled(itens, Err(Response(404, NotFoundMessage)))
    ensures r.reply.Ok? ==> role == ADMIN && r.reply == Ok(200, true) && |r.state| == |itens| - 1
    ensures role == ADMIN && ChecklistService.FindItem(itens, id).Some? ==>
      && r.reply == Ok(200, true)
      && var k := ChecklistService.FindItem(itens, id).value;
      && r.state == itens[..k] + itens[k + 1..]
      && forall j :: 0 <= j < |itens| && itens[j].id != id ==> itens[j] in r.state
  {
    if role != ADMIN then Handled(itens, Err(AccessDenied))
    else match ChecklistService.DeletarItem(itens, id)
      case Failure(e) => Handled(itens, Err(Handle(e)))
      case Success(itens') =>
        var k := ChecklistService.FindItem(itens, id).value;
        assert forall j :: 0 <= j < |itens| && j != k ==> itens[j] == itens'[if j < k then j else j - 1];
        Handled(itens', Ok(200, true))
  }

  /** `GET /api/checklist/relatorio`. `dayOf(s)` is the civil day of
      `new Date(s + 'T00:00:00')`, with `None` for an Invalid Date: a date of
      the right shape that names no day ("2024-13-01") reaches the data-access
      layer as an Invalid Date filter, which it refuses without a status or a
      code, so the middleware answers 500. */
  function Relatorio(role: Role, query: Json, itens: seq<ChecklistItem>, registros: seq<ChecklistRegistro>,
                     dayOf: string -> Option<Day>, nameOf: Id -> string, dayStart: Timestamp -> Timestamp)
    : (r: Reply<seq<ChecklistService.RelatorioDia>>)
    ensures role != ADMIN ==> r == Err(AccessDenied)
    ensures role == ADMIN && !RelatorioQueryValid(query) ==> r == Err(Response(500, InternalMessage))
    ensures && role == ADMIN && RelatorioQueryValid(query)
            && (dayOf(query.fields["startDate"].s).None? || dayOf(query.fields["endDate"].s).None?)
            ==> r == Err(Response(500, InternalMessage))
    ensures && role == ADMIN && RelatorioQueryValid(query)
            && dayOf(query.fields["startDate"].s).Some? && dayOf(query.fields["endDate"].s).Some?
            ==> var start := dayOf(query.fields["startDate"].s).value;
      (r.Ok? && r.status == 200
       && |r.body| == ClampDays(start, dayOf(query.fields["endDate"].s).value)
       && forall k :: 0 <= k < |r.body| ==> r.body[k].data == start + k)
    ensures r.Ok? ==> role == ADMIN && RelatorioQueryValid(query)
  {
    if role != ADMIN then Err(AccessDenied)
    else match ParseRelatorioQuery(query)
      case Failure(f) => Invalid(f)
      case Success(dates) =>
        match (dayOf(dates.0), dayOf(dates.1))
        case (Some(start), Some(end)) =>
          Ok(200, ChecklistService.GetRelatorio(itens, registros, start, end, nameOf, dayStart))
        case _ =>
          UnclassifiedIsInternal(InvalidDateFilter);
          Err(Handle(InvalidDateFilter))
  }

  /** The data-access layer's refusal of an Invalid Date in the `data` filter:
      it carries neither a status nor a code. */
  const InvalidDateFilter: AppError := AppError("Invalid value for argument `gte`: Provided Date object is invalid. Expected Date.", None, None)

  /** The number of calendar days from `start` to `end`, both included. */
  function ClampDays(start: Day, end: Day): nat {
    if end < start then 0 else end - start + 1
  }
}

=== FILE: checklist_diario.dfy ===
/** The daily checklist page (apps/web/src/pages/ChecklistDiario.tsx): the card
    state of each item, the progress bar, and the report modal's mean, row
    styling and CSV export. Local midnight (`dayStart`) and the local clock
    (`hourOf`, `minuteOf`) are the browser's, given as parameters. */
module ChecklistDiario {
  import opened Wrappers
  import opened Entities
  import opened JsMath
  import opened JsText
  import opened Horario
  import Seqs
  import ChecklistService

  type ItemHoje = ChecklistService.ItemHoje
  type RelatorioDia = ChecklistService.RelatorioDia

  /** `formatHora(iso)`: empty for no time, else the local "HH:MM". */
  function FormatHora(t: Option<Timestamp>, hourOf: Timestamp -> nat, minuteOf: Timestamp -> nat): (r: string)
    ensures t.None? <==> r == ""
    ensures t.Some? && hourOf(t.value) < 100 && minuteOf(t.value) < 100 ==>
      && |r| == 5 && r[2] == ':' && AllDigits(r[..2]) && AllDigits(r[3..])
      && DigitsValue(r[..2]) == hourOf(t.value) && DigitsValue(r[3..]) == minuteOf(t.value)
  {
    match t
    case None => ""
    case Some(v) =>
      ClockText(hourOf(v), minuteOf(v));
      PadStart(NatToString(hourOf(v)), 2, '0') + ":" + PadStart(NatToString(minuteOf(v)), 2, '0')
  }

  /** The zero-padded "HH:MM" of an hour and a minute below 100. */
  lemma ClockText(h: nat, m: nat)
    ensures var r := PadStart(NatToString(h), 2, '0') + ":" + PadStart(NatToString(m), 2, '0');
      h < 100 && m < 100 ==>
        |r| == 5 && r[2] == ':' && AllDigits(r[..2]) && AllDigits(r[3..]) && DigitsValue(r[..2]) == h && DigitsValue(r[3..]) == m
  {
    if h < 100 && m < 100 {
      PadTwoDigits(h);
      PadTwoDigits(m);
      var hh := PadStart(NatToString(h), 2, '0');
      var mm := PadStart(NatToString(m), 2, '0');
      var r := hh + ":" + mm;
      assert r[..2] == hh && r[3..] == mm;
    }
  }

  /** A time of the clock (hour below 24, minute below 60) prints in the very
      shape the request schema demands of a deadline. */
  lemma FormatHoraIsHHMM(t: Timestamp, hourOf: Timestamp -> nat, minuteOf: Timestamp -> nat)
    requires hourOf(t) < 24 && minuteOf(t) < 60
    ensures IsHHMM(FormatHora(Some(t), hourOf, minuteOf))
  {
    PadTwoDigits(hourOf(t));
    PadTwoDigits(minuteOf(t));
    var hh := PadStart(NatToString(hourOf(t)), 2, '0');
    var mm := PadStart(NatToString(minuteOf(t)), 2, '0');
    assert FormatHora(Some(t), hourOf, minuteOf) == hh + ":" + mm;
  }

  datatype CardState = DoneOnTime | DoneLate | Late | Pending

  /** `getCardState(item)`: a done item with a deadline and a completion time
      is late when it was done after that day's deadline; the comparison
      with an Invalid Date is false, so an unreadable deadline also counts
      as late. */
  function GetCardState(item: ItemHoje, dayStart: Timestamp -> Timestamp): (r: CardState)
    ensures !item.feito ==> (r == Late <==> item.atrasado) && (r == Pending <==> !item.atrasado)
    ensures item.feito ==> (r == DoneOnTime || r == DoneLate)
    ensures r == DoneLate <==>
      && item.feito && ChecklistService.Truthy(item.horarioLimite) && item.feitoEm.Some?
      && (ClientOffset(item.horarioLimite.value).None?
          || item.feitoEm.value > dayStart(item.feitoEm.value) + ClientOffset(item.horarioLimite.value).value)
  {
    if item.feito then
      if ChecklistService.Truthy(item.horarioLimite) && item.feitoEm.Some? then
        var feito := item.feitoEm.value;
        match ClientOffset(item.horarioLimite.value)
        case None => DoneLate
        case Some(offset) => if feito <= dayStart(feito) + offset then DoneOnTime else DoneLate
      else DoneOnTime
    else if item.atrasado then Late
    else Pending
  }

  /** For a well-formed "HH:MM" deadline the page calls a completion late
      exactly when the server's report says it was not on time. */
  lemma CardStateAgreesWithReport(item: ItemHoje, dayStart: Timestamp -> Timestamp)
    requires item.feito && item.feitoEm.Some? && item.horarioLimite.Some? && IsHHMM(item.horarioLimite.value)
    ensures GetCardState(item, dayStart) == DoneLate
      <==> !ChecklistService.IsNoHorario(item.feitoEm, item.horarioLimite, dayStart)
  {
    OffsetOfHHMM(item.horarioLimite.value);
  }

  predicate IsFeito(i: ItemHoje) { i.feito }

  /** The progress bar: `pct` of today's items done. */
  function Pct(itens: seq<ItemHoje>): (r: int)
    ensures 0 <= r <= 100
    ensures |itens| == 0 ==> r == 0
    ensures |itens| > 0 && Seqs.Count(itens, IsFeito) == |itens| ==> r == 100
    ensures |itens| > 0 ==> 2 * |itens| * r <= 200 * Seqs.Count(itens, IsFeito) + |itens| < 2 * |itens| * r + 2 * |itens|
  {
    Percent(Seqs.Count(itens, IsFeito), |itens|)
  }

  datatype ProgressColor = Green | Accent | Yellow

  /** `getProgressColor(pct)` */
  function GetProgressColor(pct: int): (r: ProgressColor)
    ensures r == Green <==> pct >= 100
    ensures r == Accent <==> 50 <= pct < 100
    ensures r == Yellow <==> pct < 50
  {
    if pct >= 100 then Green else if pct >= 50 then Accent else Yellow
  }

  /** On a list of fewer than 200 items the bar turns green exactly when
      every item is done. */
  lemma GreenIffAllDone(itens: seq<ItemHoje>)
    requires 0 < |itens| < 200
    ensures GetProgressColor(Pct(itens)) == Green <==> Seqs.Count(itens, IsFeito) == |itens|
  {
    var c := Seqs.Count(itens, IsFeito);
    var n := |itens|;
    if c < n {
      var r := Pct(itens);
      assert 2 * n * r <= 200 * c + n <= 201 * n - 200;
      if r >= 100 {
        MulLeq(100, r, 2 * n);
        assert false;
      }
    }
  }

  /** From 200 items on, `Math.round` lifts 199 of 200 to 100%: the bar is
      green with one item still open. */
  lemma NearlyDoneShowsGreen()
    ensures Percent(199, 200) == 100 && GetProgressColor(Percent(199, 200)) == Green
  {
  }

  // ----- report modal -----

  function SumPercentual(rel: seq<RelatorioDia>): int
    decreases |rel|
  {
    if |rel| == 0 then 0 else rel[0].percentual + SumPercentual(rel[1..])
  }

  predicate PercentualsInRange(rel: seq<RelatorioDia>) {
    forall k :: 0 <= k < |rel| ==> 0 <= rel[k].percentual <= 100
  }

  lemma {:induction false} SumBounds(rel: seq<RelatorioDia>)
    requires PercentualsInRange(rel)
    ensures 0 <= SumPercentual(rel) <= 100 * |rel|
    decreases |rel|
  {
    if |rel| > 0 {
      SumBounds(rel[1..]);
    }
  }

  /** `media`: the rounded mean of the days' percentages, 0 for no days. */
  function Media(rel: seq<RelatorioDia>): (r: int)
    ensures |rel| == 0 ==> r == 0
    ensures |rel| > 0 ==> 2 * |rel| * r <= 2 * SumPercentual(rel) + |rel| < 2 * |rel| * r + 2 * |rel|
    ensures PercentualsInRange(rel) ==> 0 <= r <= 100
  {
    if |rel| > 0 then
      SumBounds2(rel);
      RoundDivInRange(SumPercentual(rel), |rel|, 100);
      RoundDiv(SumPercentual(rel), |rel|)
    else 0
  }

  /** The bounds of the mean, for any report of valid percentages. */
  lemma SumBounds2(rel: seq<RelatorioDia>)
    ensures PercentualsInRange(rel) ==> 0 <= SumPercentual(rel) <= 100 * |rel|
  {
    if PercentualsInRange(rel) {
      SumBounds(rel);
    }
  }

  lemma {:induction false} SumOfConstant(rel: seq<RelatorioDia>, p: int)
    requires forall k :: 0 <= k < |rel| ==> rel[k].percentual == p
    ensures SumPercentual(rel) == p * |rel|
    decreases |rel|
  {
    if |rel| > 0 {
      SumOfConstant(rel[1..], p);
    }
  }

  /** A period in which every day scored the same shows that score as its mean. */
  lemma MediaOfConstant(rel: seq<RelatorioDia>, p: int)
    requires |rel| > 0
    requires forall k :: 0 <= k < |rel| ==> rel[k].percentual == p
    ensures Media(rel) == p
  {
    SumOfConstant(rel, p);
    var n := |rel|;
    assert SumPercentual(rel) == p * n;
    RoundDivUnique(p * n, n, p);
  }

  /** The colour of a report row. */
  function RowColor(pct: int): (r: ProgressColor)
    ensures r == Green <==> pct >= 80
    ensures r == Accent <==> 50 <= pct < 80
    ensures r == Yellow <==> pct < 50
  {
    if pct >= 80 then Green else if pct >= 50 then Accent else Yellow
  }

  /** The mark after a report row's count. */
  function RowEmoji(pct: int): (r: string)
    ensures pct >= 100 ==> r == " ✅"
    ensures pct < 50 ==> r == " ⚠️"
    ensures 50 <= pct < 100 ==> r == ""
  {
    if pct >= 100 then " ✅" else if pct < 50 then " ⚠️" else ""
  }

  /** A completely done day is green and ticked; a day below half is yellow
      and warned. */
  lemma RowStylesAgree(pct: int)
    ensures pct >= 100 ==> RowColor(pct) == Green && RowEmoji(pct) == " ✅"
    ensures pct < 50 ==> RowColor(pct) == Yellow && RowEmoji(pct) == " ⚠️"
  {
  }

  // ----- CSV -----

  const BaseHeaders: seq<string> := ["Data", "Total Itens", "Concluídos", "Percentual"]

  /** The header cells: four fixed ones, then the first day's item titles. */
  function Headers(rel: seq<RelatorioDia>): (r: seq<string>)
    ensures |r| >= 4 && r[..4] == BaseHeaders
    ensures |rel| == 0 ==> |r| == 4
    ensures |rel| > 0 ==> (
      && |r| == 4 + |rel[0].itens|
      && forall i :: 0 <= i < |rel[0].itens| ==> r[4 + i] == rel[0].itens[i].titulo)
  {
    var titles := if |rel| > 0 then seq(|rel[0].itens|, i requires 0 <= i < |rel[0].itens| => rel[0].itens[i].titulo) else [];
    var r := BaseHeaders + titles;
    assert r[..4] == BaseHeaders;
    r
  }

  function Mark(i: ChecklistService.ItemRelatorio): string {
    if i.feito then "S" else "N"
  }

  /** The cells of one day: date, totals, percentage, then S or N per item. */
  function RowCells(dia: RelatorioDia, fmtDay: Day -> string): (r: seq<string>)
    ensures |r| == 4 + |dia.itens|
    ensures r[0] == fmtDay(dia.data) && r[1] == NatToString(dia.totalItens)
    ensures r[2] == NatToString(dia.itensConcluidos) && r[3] == IntToString(dia.percentual) + "%"
    ensures forall i :: 0 <= i < |dia.itens| ==> r[4 + i] == (if dia.itens[i].feito then "S" else "N")
  {
    [fmtDay(dia.data), NatToString(dia.totalItens), NatToString(dia.itensConcluidos), IntToString(dia.percentual) + "%"]
      + seq(|dia.itens|, i requires 0 <= i < |dia.itens| => Mark(dia.itens[i]))
  }

  function Lines(rel: seq<RelatorioDia>, fmtDay: Day -> string): (r: seq<string>)
    ensures |r| == 1 + |rel|
    ensures r[0] == Join(Headers(rel), ';')
    ensures forall k :: 0 <= k < |rel| ==> r[k + 1] == Line(rel[k], fmtDay)
  {
    var rows := seq(|rel|, k requires 0 <= k < |rel| => Line(rel[k], fmtDay));
    var r := [Join(Headers(rel), ';')] + rows;
    assert forall k :: 0 <= k < |rel| ==> r[k + 1] == rows[k];
    r
  }

  /** One day's line: its cells joined by ';'. */
  function Line(dia: RelatorioDia, fmtDay: Day -> string): string {
    Join(RowCells(dia, fmtDay), ';')
  }

  /** `exportCSV()`: nothing without a report, else the header line and one
      line per day. */
  function ExportCsv(rel: Option<seq<RelatorioDia>>, fmtDay: Day -> string): (r: Option<string>)
    ensures r.None? <==> rel.None?
    ensures r.Some? ==> |r.value| >= 1 && r.value[0] == ByteOrderMark
  {
    match rel
    case None => None
    case Some(days) => Some([ByteOrderMark] + Join(Lines(days, fmtDay), '\n'))
  }

  /** Text free of the two separators. */
  predicate Plain(s: string) {
    forall i :: 0 <= i < |s| ==> s[i] != ';' && s[i] != '\n'
  }

  lemma NumbersArePlain(n: int)
    ensures Plain(NatToString(if n >= 0 then n else -n))
    ensures Plain(IntToString(n)) && Plain(IntToString(n) + "%")
  {
    assert AllDigits(NatToString(if n >= 0 then n else -n));
  }

  lemma {:induction false} JoinPlain(parts: seq<string>, c: char)
    requires c == ';' || c == '\n'
    requires forall i :: 0 <= i < |parts| ==> Plain(parts[i])
    ensures c == ';' ==> '\n' !in Join(parts, c)
    decreases |parts|
  {
    if |parts| > 1 {
      JoinPlain(parts[1..], c);
      var s := Join(parts, c);
      assert s == parts[0] + [c] + Join(parts[1..], c);
      if c == ';' {
        forall i | 0 <= i < |s| ensures s[i] != '\n' {
          if i < |parts[0]| {
            assert s[i] == parts[0][i];
          } else if i > |parts[0]| {
            assert s[i] == Join(parts[1..], c)[i - |parts[0]| - 1];
          }
        }
      }
    } else if |parts| == 1 {
      assert Join(parts, c) == parts[0];
    }
  }

  /** The cells of a day are plain when its date rendering is. */
  lemma RowCellsPlain(dia: RelatorioDia, fmtDay: Day -> string)
    requires Plain(fmtDay(dia.data))
    ensures forall i :: 0 <= i < |RowCells(dia, fmtDay)| ==> Plain(RowCells(dia, fmtDay)[i])
  {
    NumbersArePlain(dia.totalItens);
    NumbersArePlain(dia.itensConcluidos);
    NumbersArePlain(dia.percentual);
    var r := RowCells(dia, fmtDay);
    forall i | 0 <= i < |r| ensures Plain(r[i]) {
      if i >= 4 {
        assert r[i] == "S" || r[i] == "N";
      }
    }
  }

  /** With plain titles and dates, a row splits at ';' into its 4 + one cell
      per item, and the whole export splits at line feeds into the header
      line and one line per day. */
  lemma CsvShape(days: seq<RelatorioDia>, fmtDay: Day -> string)
    requires forall k :: 0 <= k < |days| ==> Plain(fmtDay(days[k].data))
    requires |days| > 0 ==> forall i :: 0 <= i < |days[0].itens| ==> Plain(days[0].itens[i].titulo)
    ensures ExportCsv(Some(days), fmtDay).value[0] == ByteOrderMark
    ensures Split(ExportCsv(Some(days), fmtDay).value[1..], '\n') == Lines(days, fmtDay)
    ensures forall k :: 0 <= k < |days| ==> Split(Lines(days, fmtDay)[k + 1], ';') == RowCells(days[k], fmtDay)
  {
    var lines := Lines(days, fmtDay);
    var hs := Headers(days);
    forall i | 0 <= i < |hs| ensures Plain(hs[i]) {
      if i < 4 {
        assert hs[i] == BaseHeaders[i];
      }
    }
    JoinPlain(hs, ';');
    forall k | 0 <= k < |days|
      ensures '\n' !in lines[k + 1]
      ensures Split(lines[k + 1], ';') == RowCells(days[k], fmtDay)
    {
      var cells := RowCells(days[k], fmtDay);
      RowCellsPlain(days[k], fmtDay);
      JoinPlain(cells, ';');
      PlainHasNoSemicolon(cells);
      SplitJoin(cells, ';');
    }
    forall i | 0 <= i < |lines| ensures '\n' !in lines[i] {
      if i > 0 {
        assert lines[i] == lines[(i - 1) + 1];
      }
    }
    SplitJoin(lines, '\n');
    assert ExportCsv(Some(days), fmtDay).value[1..] == Join(lines, '\n');
  }

  lemma PlainHasNoSemicolon(cells: seq<string>)
    requires forall i :: 0 <= i < |cells| ==> Plain(cells[i])
    ensures forall i :: 0 <= i < |cells| ==> ';' !in cells[i]
  {
    forall i | 0 <= i < |cells| ensures ';' !in cells[i] {
      assert forall j :: 0 <= j < |cells[i]| ==> cells[i][j] != ';';
    }
  }
}

=== FILE: checklist_service.dfy ===
/** The daily checklist service (apps/api/src/services/checklist.service.ts):
    deadline predicates, item administration, today's view, the mark/unmark
    toggle and the per-day compliance report. `now`, `today` and host-local
    midnight (`dayStart`) are parameters. */
module ChecklistService {
  import opened Wrappers
  import opened Entities
  import opened ErrorHandler
  import opened JsMath
  import opened Horario
  import opened JsText
  import Seqs
  import Sorting

  /** A JavaScript truthy string: present and non-empty. */
  predicate Truthy(s: Option<string>) {
    s.Some? && |s.value| > 0
  }

  /** `isAtrasado(horarioLimite, feito)` at instant `now`: today's deadline has
      passed and the item is not done; a deadline the parser rejects is never late. */
  function IsAtrasado(horarioLimite: Option<string>, feito: bool, now: Timestamp,
                      dayStart: Timestamp -> Timestamp): (r: bool)
    ensures !Truthy(horarioLimite) || feito ==> !r
    ensures r ==> (ServerOffset(horarioLimite.value).Some?
                   && now > dayStart(now) + ServerOffset(horarioLimite.value).value)
  {
    if !Truthy(horarioLimite) || feito then false
    else
      match ServerOffset(horarioLimite.value)
      case None => false
      case Some(offset) => now > dayStart(now) + offset
  }

  /** For a well-formed "HH:MM" deadline an open item is late exactly when
      `now` is past HH hours and MM minutes after local midnight. */
  lemma AtrasadoAtDeadline(h: string, now: Timestamp, dayStart: Timestamp -> Timestamp)
    requires IsHHMM(h)
    ensures IsAtrasado(Some(h), false, now, dayStart)
      <==> now > dayStart(now) + DigitsValue(h[..2]) * HourMs + DigitsValue(h[3..]) * MinuteMs
  {
    OffsetOfHHMM(h);
  }

  /** `isNoHorario(feitoEm, horarioLimite)`: done no later than the deadline of
      the day it was done on. */
  function IsNoHorario(feitoEm: Option<Timestamp>, horarioLimite: Option<string>,
                       dayStart: Timestamp -> Timestamp): (r: bool)
    ensures feitoEm.None? || !Truthy(horarioLimite) ==> !r
    ensures r ==> (ServerOffset(horarioLimite.value).Some?
                   && feitoEm.value <= dayStart(feitoEm.value) + ServerOffset(horarioLimite.value).value)
  {
    if feitoEm.None? || !Truthy(horarioLimite) then false
    else
      match ServerOffset(horarioLimite.value)
      case None => false
      case Some(offset) => feitoEm.value <= dayStart(feitoEm.value) + offset
  }

  /** For a well-formed "HH:MM" deadline a completion is on time exactly when
      it happened at most HH hours and MM minutes after its day's midnight. */
  lemma NoHorarioAtDeadline(h: string, t: Timestamp, dayStart: Timestamp -> Timestamp)
    requires IsHHMM(h)
    ensures IsNoHorario(Some(t), Some(h), dayStart)
      <==> t <= dayStart(t) + DigitsValue(h[..2]) * HourMs + DigitsValue(h[3..]) * MinuteMs
  {
    OffsetOfHHMM(h);
  }

  // ----- items -----

  function Ordem(item: ChecklistItem): int {
    item.ordem
  }

  /** `listarItens(role)`: every item for an ADMIN, the active ones for anybody
      else, by ascending `ordem`. */
  function ListarItens(itens: seq<ChecklistItem>, role: Role): (r: seq<ChecklistItem>)
    ensures role != ADMIN ==> forall i :: 0 <= i < |r| ==> r[i].ativo
    ensures forall i, j :: 0 <= i < j < |r| ==> r[i].ordem <= r[j].ordem
    ensures multiset(r) == multiset(Seqs.Filter(itens, (x: ChecklistItem) => role == ADMIN || x.ativo))
  {
    var visible := Seqs.Filter(itens, (x: ChecklistItem) => role == ADMIN || x.ativo);
    var sorted := Sorting.SortBy(visible, Ordem);
    forall i | 0 <= i < |sorted|
      ensures role != ADMIN ==> sorted[i].ativo
    {
      assert sorted[i] in multiset(visible);
    }
    assert Sorting.SortedBy(sorted, Ordem);
    sorted
  }

  function IsAtivo(item: ChecklistItem): bool {
    item.ativo
  }

  /** The active items by ascending `ordem`, as today's view and the report list them. */
  function ActiveItems(itens: seq<ChecklistItem>): (r: seq<ChecklistItem>)
    ensures forall i :: 0 <= i < |r| ==> r[i].ativo
    ensures forall i, j :: 0 <= i < j < |r| ==> r[i].ordem <= r[j].ordem
    ensures multiset(r) == multiset(Seqs.Filter(itens, IsAtivo))
    ensures |r| == Seqs.Count(itens, IsAtivo)
  {
    var active := Seqs.Filter(itens, IsAtivo);
    var sorted := Sorting.SortBy(active, Ordem);
    forall i | 0 <= i < |sorted|
      ensures sorted[i].ativo
    {
      assert sorted[i] in multiset(active);
    }
    assert Sorting.SortedBy(sorted, Ordem);
    sorted
  }

  function MaxOrdem(itens: seq<ChecklistItem>): (r: int)
    requires |itens| > 0
    ensures forall i :: 0 <= i < |itens| ==> itens[i].ordem <= r
    ensures exists i :: 0 <= i < |itens| && itens[i].ordem == r
  {
    if |itens| == 1 then itens[0].ordem
    else
      var rest := MaxOrdem(itens[1..]);
      assert itens[1..][0] == itens[1];
      if itens[0].ordem >= rest then itens[0].ordem else rest
  }

  /** The body a new item is created from, after the request schema. */
  datatype NovoItem = NovoItem(titulo: string, descricao: Option<string>,
                               horarioLimite: Option<string>, ordem: Option<int>)

  /** The `ordem` given to an item created without one: one past the largest
      existing `ordem`, or 1 for an empty table. */
  function DefaultOrdem(itens: seq<ChecklistItem>): (r: int)
    ensures |itens| == 0 ==> r == 1
    ensures forall i :: 0 <= i < |itens| ==> itens[i].ordem < r
    ensures |itens| > 0 ==> exists i :: 0 <= i < |itens| && itens[i].ordem == r - 1
  {
    (if |itens| == 0 then 0 else MaxOrdem(itens)) + 1
  }

  /** `criarItem(data)`; the new row is active. */
  function CriarItem(itens: seq<ChecklistItem>, data: NovoItem, freshId: Id): (r: seq<ChecklistItem>)
    ensures |r| == |itens| + 1 && r[..|itens|] == itens
    ensures var item := r[|itens|];
      && item.id == freshId && item.titulo == data.titulo && item.descricao == data.descricao
      && item.horarioLimite == data.horarioLimite && item.ativo
      && (data.ordem.Some? ==> item.ordem == data.ordem.value)
      && (data.ordem.None? ==> item.ordem == DefaultOrdem(itens))
  {
    var ordem := if data.ordem.Some? then data.ordem.value else DefaultOrdem(itens);
    itens + [ChecklistItem(freshId, data.titulo, data.descricao, data.horarioLimite, ordem, true)]
  }

  function FindItem(itens: seq<ChecklistItem>, id: Id): (r: Option<nat>)
    ensures r.Some? ==> r.value < |itens| && itens[r.value].id == id
    ensures r.Some? ==> forall j :: 0 <= j < r.value ==> itens[j].id != id
    ensures r.None? <==> forall i :: 0 <= i < |itens| ==> itens[i].id != id
  {
    Seqs.FindIndex(itens, (x: ChecklistItem) => x.id == id)
  }

  /** The fields an edit may set, after the request schema. */
  datatype EdicaoItem = EdicaoItem(titulo: Option<string>, descricao: Option<string>,
                                   horarioLimite: Option<string>, ordem: Option<int>)

  function ApplyEdicao(item: ChecklistItem, data: EdicaoItem): ChecklistItem {
    item.(titulo := data.titulo.GetOr(item.titulo),
          descricao := if data.descricao.Some? then data.descricao else item.descricao,
          horarioLimite := if data.horarioLimite.Some? then data.horarioLimite else item.horarioLimite,
          ordem := data.ordem.GetOr(item.ordem))
  }

  /** `editarItem(id, data)`: only the fields given change; a missing id is the
      data-access layer's not-found error. */
  function EditarItem(itens: seq<ChecklistItem>, id: Id, data: EdicaoItem): (r: Result<seq<ChecklistItem>, AppError>)
    ensures FindItem(itens, id).None? <==> r.Failure?
    ensures r.Failure? ==> r.error == RecordNotFound()
    ensures r.Success? ==> |r.value| == |itens| && var k := FindItem(itens, id).value;
      && (forall j :: 0 <= j < |itens| && j != k ==> r.value[j] == itens[j])
      && r.value[k].id == itens[k].id && r.value[k].ativo == itens[k].ativo
      && (data.titulo.None? ==> r.value[k].titulo == itens[k].titulo)
      && (data.titulo.Some? ==> r.value[k].titulo == data.titulo.value)
      && (data.descricao.None? ==> r.value[k].descricao == itens[k].descricao)
      && (data.descricao.Some? ==> r.value[k].descricao == data.descricao)
      && (data.horarioLimite.None? ==> r.value[k].horarioLimite == itens[k].horarioLimite)
      && (data.horarioLimite.Some? ==> r.value[k].horarioLimite == data.horarioLimite)
      && (data.ordem.None? ==> r.value[k].ordem == itens[k].ordem)
      && (data.ordem.Some? ==> r.value[k].ordem == data.ordem.value)
  {
    match FindItem(itens, id)
    case None => Failure(RecordNotFound())
    case Some(k) => Success(itens[k := ApplyEdicao(itens[k], data)])
  }

  /** `toggleAtivoItem(id)`: flips `ativo` and nothing else. */
  function ToggleAtivoItem(itens: seq<ChecklistItem>, id: Id): (r: Result<seq<ChecklistItem>, AppError>)
    ensures FindItem(itens, id).None? <==> r.Failure?
    ensures r.Failure? ==> r.error == RecordNotFound()
    ensures r.Success? ==> |r.value| == |itens| && var k := FindItem(itens, id).value;
      && r.value[k] == itens[k].(ativo := !itens[k].ativo)
      && forall j :: 0 <= j < |itens| && j != k ==> r.value[j] == itens[j]
  {
    match FindItem(itens, id)
    case None => Failure(RecordNotFound())
    case Some(k) => Success(itens[k := itens[k].(ativo := !itens[k].ativo)])
  }

  /** Toggling twice restores the table. */
  lemma ToggleTwiceRestores(itens: seq<ChecklistItem>, id: Id)
    requires FindItem(itens, id).Some?
    ensures ToggleAtivoItem(itens, id).Success?
    ensures ToggleAtivoItem(ToggleAtivoItem(itens, id).value, id) == Success(itens)
  {
    var k := FindItem(itens, id).value;
    var once := itens[k := itens[k].(ativo := !itens[k].ativo)];
    assert ToggleAtivoItem(itens, id) == Success(once);
    assert FindItem(once, id) == Some(k);
    assert once[k := once[k].(ativo := !once[k].ativo)] == itens;
  }

  /** `deletarItem(id)` */
  function DeletarItem(itens: seq<ChecklistItem>, id: Id): (r: Result<seq<ChecklistItem>, AppError>)
    ensures FindItem(itens, id).None? <==> r.Failure?
    ensures r.Failure? ==> r.error == RecordNotFound()
    ensures r.Success? ==> (|r.value| == |itens| - 1
      && r.value == itens[..FindItem(itens, id).value] + itens[FindItem(itens, id).value + 1..])
  {
    match FindItem(itens, id)
    case None => Failure(RecordNotFound())
    case Some(k) => Success(itens[..k] + itens[k + 1..])
  }

  // ----- today's checklist -----

  /** An item as today's checklist shows it. */
  datatype ItemHoje = ItemHoje(
    id: Id,
    titulo: string,
    descricao: Option<string>,
    horarioLimite: Option<string>,
    ordem: int,
    ativo: bool,
    feito: bool,
    feitoEm: Option<Timestamp>,
    feitoPor: Option<Id>,
    atrasado: bool)

  /** `new Map(regs.map(r => [r.itemId, r])).get(itemId)`: the last registro of
      the item, since later entries overwrite earlier ones. */
  function LastRegistro(regs: seq<ChecklistRegistro>, itemId: Id): (r: Option<ChecklistRegistro>)
    ensures r.Some? ==> r.value in regs && r.value.itemId == itemId
    ensures r.None? <==> forall i :: 0 <= i < |regs| ==> regs[i].itemId != itemId
    decreases |regs|
  {
    if |regs| == 0 then None
    else if regs[|regs| - 1].itemId == itemId then Some(regs[|regs| - 1])
    else LastRegistro(regs[..|regs| - 1], itemId)
  }

  function OnDay(registros: seq<ChecklistRegistro>, day: Day): (r: seq<ChecklistRegistro>)
    ensures forall i :: 0 <= i < |r| ==> r[i].data == day
  {
    Seqs.Filter(registros, SameDay(day))
  }

  function SameDay(day: Day): ChecklistRegistro -> bool {
    (g: ChecklistRegistro) => g.data == day
  }

  /** One item of today's view, joined with its registro `reg` of today. */
  function ToItemHoje(item: ChecklistItem, reg: Option<ChecklistRegistro>, now: Timestamp,
                      dayStart: Timestamp -> Timestamp): (r: ItemHoje)
    ensures r.id == item.id && r.ativo == item.ativo && r.ordem == item.ordem
    ensures r.titulo == item.titulo && r.descricao == item.descricao && r.horarioLimite == item.horarioLimite
    ensures r.feito <==> reg.Some? && reg.value.feito
    ensures reg.None? ==> r.feitoEm.None?
    ensures reg.Some? ==> r.feitoEm == reg.value.feitoEm
    ensures r.feito ==> r.feitoPor == Some(reg.value.userId)
    ensures !r.feito ==> r.feitoPor.None?
    ensures r.atrasado == IsAtrasado(item.horarioLimite, r.feito, now, dayStart)
    ensures r.feito ==> !r.atrasado
  {
    var feito := reg.Some? && reg.value.feito;
    ItemHoje(item.id, item.titulo, item.descricao, item.horarioLimite, item.ordem, item.ativo,
             feito,
             if reg.Some? then reg.value.feitoEm else None,
             if feito then Some(reg.value.userId) else None,
             IsAtrasado(item.horarioLimite, feito, now, dayStart))
  }

  /** `getChecklistHoje()`: one entry per active item, by ascending `ordem`,
      joined with that item's registro of today. */
  function GetChecklistHoje(itens: seq<ChecklistItem>, registros: seq<ChecklistRegistro>, today: Day,
                            now: Timestamp, dayStart: Timestamp -> Timestamp): (r: seq<ItemHoje>)
    ensures |r| == |ActiveItems(itens)|
    ensures forall i :: 0 <= i < |r| ==> r[i].id == ActiveItems(itens)[i].id && r[i].ativo
    ensures forall i, j :: 0 <= i < j < |r| ==> r[i].ordem <= r[j].ordem
    ensures forall i :: 0 <= i < |r| ==> (r[i].feitoPor.Some? ==> r[i].feito) && (r[i].feito ==> !r[i].atrasado)
    ensures forall i :: 0 <= i < |r| ==>
      var g := LastRegistro(OnDay(registros, today), r[i].id);
      (r[i].feito <==> g.Some? && g.value.feito) && (g.Some? ==> g.value in registros && g.value.data == today)
    ensures forall i :: 0 <= i < |r| ==>
      var item := ActiveItems(itens)[i];
      var g := LastRegistro(OnDay(registros, today), item.id);
      && r[i].titulo == item.titulo && r[i].horarioLimite == item.horarioLimite
      && r[i].atrasado == IsAtrasado(item.horarioLimite, r[i].feito, now, dayStart)
      && r[i].feitoPor == (if r[i].feito then Some(g.value.userId) else None)
      && r[i].feitoEm == (if g.Some? then g.value.feitoEm else None)
  {
    Join(ActiveItems(itens), OnDay(registros, today), now, dayStart)
  }

  /** Each item with its last registro among `todays`. */
  function Join(active: seq<ChecklistItem>, todays: seq<ChecklistRegistro>, now: Timestamp,
                dayStart: Timestamp -> Timestamp): (r: seq<ItemHoje>)
    ensures |r| == |active|
    ensures forall i :: 0 <= i < |r| ==> r[i] == ToItemHoje(active[i], LastRegistro(todays, active[i].id), now, dayStart)
  {
    seq(|active|, i requires 0 <= i < |active| =>
      ToItemHoje(active[i], LastRegistro(todays, active[i].id), now, dayStart))
  }

  /** The registro of `itemId` for `day`, by the `itemId_data` unique key. */
  function FindRegistro(registros: seq<ChecklistRegistro>, itemId: Id, day: Day): (r: Option<nat>)
    ensures r.Some? ==> r.value < |registros| && registros[r.value].itemId == itemId && registros[r.value].data == day
    ensures r.None? <==> forall i :: 0 <= i < |registros| ==> !(registros[i].itemId == itemId && registros[i].data == day)
  {
    if |registros| == 0 then None
    else if registros[0].itemId == itemId && registros[0].data == day then Some(0)
    else match FindRegistro(registros[1..], itemId, day)
      case None => None
      case Some(k) => Some(k + 1)
  }

  /** The registros after a mark, and today's checklist or the error thrown. */
  datatype Marcacao = Marcacao(registros: seq<ChecklistRegistro>, result: Result<seq<ItemHoje>, AppError>)

  /** `marcarItem(itemId, userId)` at `now` on `today`; `freshId` is the id of a
      registro created by the call. */
  function MarcarItem(itens: seq<ChecklistItem>, registros: seq<ChecklistRegistro>, itemId: Id, userId: Id,
                      today: Day, now: Timestamp, freshId: Id, dayStart: Timestamp -> Timestamp): (r: Marcacao)
    ensures FindItem(itens, itemId).None? ==> r == Marcacao(registros, Failure(RecordNotFound()))
    ensures FindItem(itens, itemId).Some? ==>
      r.result == Success(GetChecklistHoje(itens, r.registros, today, now, dayStart))
    ensures FindItem(itens, itemId).Some? && FindRegistro(registros, itemId, today).Some? ==>
      |r.registros| == |registros|
    ensures FindItem(itens, itemId).Some? && FindRegistro(registros, itemId, today).Some? ==>
      var k := FindRegistro(registros, itemId, today).value;
      var before := registros[k];
      var after := r.registros[k];
      && (forall j :: 0 <= j < |registros| && j != k ==> r.registros[j] == registros[j])
      && after.id == before.id && after.itemId == before.itemId && after.data == before.data
      && after.feito == !before.feito
      && (after.feito ==> after.feitoEm == Some(now) && after.userId == userId)
      && (!after.feito ==> after.feitoEm.None? && after.userId == before.userId)
    ensures FindItem(itens, itemId).Some? && FindRegistro(registros, itemId, today).None? ==>
      r.registros == registros + [ChecklistRegistro(freshId, itemId, userId, today, true, Some(now))]
  {
    if FindItem(itens, itemId).None? then Marcacao(registros, Failure(RecordNotFound()))
    else
      var updated := match FindRegistro(registros, itemId, today)
        case Some(k) =>
          var novoFeito := !registros[k].feito;
          registros[k := registros[k].(feito := novoFeito,
                                       feitoEm := if novoFeito then Some(now) else None,
                                       userId := if novoFeito then userId else registros[k].userId)]
        case None =>
          registros + [ChecklistRegistro(freshId, itemId, userId, today, true, Some(now))];
      Marcacao(updated, Success(GetChecklistHoje(itens, updated, today, now, dayStart)))
  }

  /** Marking an item nobody has touched today shows it done, by the caller,
      in the checklist the call returns. */
  lemma {:induction false} FirstMarkShowsDone(itens: seq<ChecklistItem>, registros: seq<ChecklistRegistro>, itemId: Id,
                                              userId: Id, today: Day, now: Timestamp, freshId: Id,
                                              dayStart: Timestamp -> Timestamp, i: nat)
    requires FindRegistro(registros, itemId, today).None?
    requires i < |ActiveItems(itens)| && ActiveItems(itens)[i].id == itemId
    ensures var r := MarcarItem(itens, registros, itemId, userId, today, now, freshId, dayStart);
      && r.result.Success? && i < |r.result.value|
      && r.result.value[i].feito && r.result.value[i].feitoPor == Some(userId)
      && r.result.value[i].feitoEm == Some(now) && !r.result.value[i].atrasado
  {
    var active := ActiveItems(itens);
    ActiveItemIsFound(itens, i);
    var g := ChecklistRegistro(freshId, itemId, userId, today, true, Some(now));
    var todays := OnDay(registros + [g], today);
    MarkAppends(itens, registros, itemId, userId, today, now, freshId, dayStart);
    AppendedRowIsRead(registros, g, today);
    assert Join(active, todays, now, dayStart)[i] == ToItemHoje(active[i], Some(g), now, dayStart);
  }

  /** A row appended for `today` is the one today's view reads for its item. */
  lemma AppendedRowIsRead(regs: seq<ChecklistRegistro>, g: ChecklistRegistro, today: Day)
    requires g.data == today
    ensures LastRegistro(OnDay(regs + [g], today), g.itemId) == Some(g)
  {
    Seqs.FilterAppend(regs, [g], SameDay(today));
    assert OnDay(regs + [g], today) == OnDay(regs, today) + [g];
  }

  /** A first mark of an existing item appends a done registro and answers
      with the list joined against it. */
  lemma MarkAppends(itens: seq<ChecklistItem>, registros: seq<ChecklistRegistro>, itemId: Id,
                    userId: Id, today: Day, now: Timestamp, freshId: Id, dayStart: Timestamp -> Timestamp)
    requires FindItem(itens, itemId).Some? && FindRegistro(registros, itemId, today).None?
    ensures var updated := registros + [ChecklistRegistro(freshId, itemId, userId, today, true, Some(now))];
      MarcarItem(itens, registros, itemId, userId, today, now, freshId, dayStart)
        == Marcacao(updated, Success(Join(ActiveItems(itens), OnDay(updated, today), now, dayStart)))
  {
  }

  /** An item of today's list is one `findUnique` finds. */
  lemma ActiveItemIsFound(itens: seq<ChecklistItem>, i: nat)
    requires i < |ActiveItems(itens)|
    ensures FindItem(itens, ActiveItems(itens)[i].id).Some?
  {
    var active := ActiveItems(itens);
    assert active[i] in multiset(Seqs.Filter(itens, IsAtivo));
    assert active[i] in itens;
    var j :| 0 <= j < |itens| && itens[j] == active[i];
  }

  // ----- report -----

  datatype ItemRelatorio = ItemRelatorio(
    titulo: string,
    feito: bool,
    feitoEm: Option<Timestamp>,
    feitoPor: Option<string>,
    horarioLimite: Option<string>,
    noHorario: bool)

  datatype RelatorioDia = RelatorioDia(
    data: Day,
    totalItens: nat,
    itensConcluidos: nat,
    percentual: int,
    itens: seq<ItemRelatorio>)

  /** One item of a report day, joined with its last registro `reg` of that day. */
  function ToItemRelatorio(item: ChecklistItem, reg: Option<ChecklistRegistro>, nameOf: Id -> string,
                           dayStart: Timestamp -> Timestamp): (r: ItemRelatorio)
    ensures r.titulo == item.titulo && r.horarioLimite == item.horarioLimite
    ensures r.feito <==> reg.Some? && reg.value.feito
    ensures reg.None? ==> r.feitoEm.None? && r.feitoPor.None?
    ensures reg.Some? ==> r.feitoEm == reg.value.feitoEm && r.feitoPor == Some(nameOf(reg.value.userId))
    ensures r.noHorario == IsNoHorario(r.feitoEm, item.horarioLimite, dayStart)
  {
    var feitoEm := if reg.Some? then reg.value.feitoEm else None;
    ItemRelatorio(item.titulo,
                  reg.Some? && reg.value.feito,
                  feitoEm,
                  if reg.Some? then Some(nameOf(reg.value.userId)) else None,
                  item.horarioLimite,
                  IsNoHorario(feitoEm, item.horarioLimite, dayStart))
  }

  function IsFeito(i: ItemRelatorio): bool {
    i.feito
  }

  /** One day of the report. */
  function Dia(active: seq<ChecklistItem>, registros: seq<ChecklistRegistro>, day: Day,
               nameOf: Id -> string, dayStart: Timestamp -> Timestamp): (r: RelatorioDia)
    ensures r.data == day && r.totalItens == |active| == |r.itens|
    ensures r.itensConcluidos == Seqs.Count(r.itens, IsFeito) <= r.totalItens
    ensures 0 <= r.percentual <= 100
    ensures r.totalItens == 0 ==> r.percentual == 0
    ensures r.totalItens > 0 ==>
      2 * r.totalItens * r.percentual <= 200 * r.itensConcluidos + r.totalItens
                                      < 2 * r.totalItens * r.percentual + 2 * r.totalItens
    ensures forall i :: 0 <= i < |r.itens| ==> r.itens[i].titulo == active[i].titulo
    ensures forall i :: 0 <= i < |r.itens| ==>
      var g := LastRegistro(OnDay(registros, day), active[i].id);
      (r.itens[i].feito <==> g.Some? && g.value.feito)
    ensures forall i :: 0 <= i < |r.itens| ==>
      var g := LastRegistro(OnDay(registros, day), active[i].id);
      && r.itens[i].horarioLimite == active[i].horarioLimite
      && r.itens[i].feitoEm == (if g.Some? then g.value.feitoEm else None)
      && r.itens[i].feitoPor == (if g.Some? then Some(nameOf(g.value.userId)) else None)
      && r.itens[i].noHorario == IsNoHorario(r.itens[i].feitoEm, active[i].horarioLimite, dayStart)
  {
    var todays := OnDay(registros, day);
    var itens := seq(|active|, i requires 0 <= i < |active| =>
      ToItemRelatorio(active[i], LastRegistro(todays, active[i].id), nameOf, dayStart));
    var concluidos := Seqs.Count(itens, IsFeito);
    RelatorioDia(day, |active|, concluidos, Percent(concluidos, |active|), itens)
  }

  /** `getRelatorio(startDate, endDate)`: one entry per calendar day from the
      first to the last, each over the currently active items. */
  function GetRelatorio(itens: seq<ChecklistItem>, registros: seq<ChecklistRegistro>, startDay: Day, endDay: Day,
                        nameOf: Id -> string, dayStart: Timestamp -> Timestamp): (r: seq<RelatorioDia>)
    ensures |r| == ClampZero(endDay - startDay + 1)
    ensures forall k :: 0 <= k < |r| ==> r[k].data == startDay + k
    ensures forall k :: 0 <= k < |r| ==> r[k].totalItens == Seqs.Count(itens, IsAtivo)
    ensures forall k :: 0 <= k < |r| ==> r[k].itensConcluidos <= r[k].totalItens && 0 <= r[k].percentual <= 100
    ensures forall k :: 0 <= k < |r| ==> r[k].percentual == Percent(r[k].itensConcluidos, r[k].totalItens)
    ensures forall k :: 0 <= k < |r| ==> r[k] == Dia(ActiveItems(itens), registros, startDay + k, nameOf, dayStart)
  {
    var active := ActiveItems(itens);
    var days := ReportDays(active, registros, startDay, ClampZero(endDay - startDay + 1), nameOf, dayStart);
    forall k | 0 <= k < |days|
      ensures days[k].data == startDay + k && days[k].totalItens == |active|
      ensures days[k].itensConcluidos <= days[k].totalItens && 0 <= days[k].percentual <= 100
      ensures days[k].percentual == Percent(days[k].itensConcluidos, days[k].totalItens)
    {
      DiaSummary(active, registros, startDay + k, nameOf, dayStart);
    }
    days
  }

  /** One `Dia` per calendar day, `n` days from `startDay`. */
  function ReportDays(active: seq<ChecklistItem>, registros: seq<ChecklistRegistro>, startDay: Day, n: nat,
                      nameOf: Id -> string, dayStart: Timestamp -> Timestamp): (r: seq<RelatorioDia>)
    ensures |r| == n
    ensures forall k :: 0 <= k < n ==> r[k] == Dia(active, registros, startDay + k, nameOf, dayStart)
  {
    seq(n, k => Dia(active, registros, startDay + k, nameOf, dayStart))
  }

  /** A day's header: its date, the number of active items, and the percentage
      of those done. */
  lemma DiaSummary(active: seq<ChecklistItem>, registros: seq<ChecklistRegistro>, day: Day,
                   nameOf: Id -> string, dayStart: Timestamp -> Timestamp)
    ensures var d := Dia(active, registros, day, nameOf, dayStart);
      && d.data == day && d.totalItens == |active| && d.itensConcluidos <= d.totalItens
      && 0 <= d.percentual <= 100 && d.percentual == Percent(d.itensConcluidos, d.totalItens)
  {
  }

  /** The report names whoever last touched an item's registro, also when the
      item was unmarked again, unlike today's view. */
  lemma ReportNamesUnmarker(item: ChecklistItem, g: ChecklistRegistro, nameOf: Id -> string,
                            dayStart: Timestamp -> Timestamp, now: Timestamp)
    requires g.itemId == item.id && !g.feito
    ensures ToItemRelatorio(item, Some(g), nameOf, dayStart).feitoPor == Some(nameOf(g.userId))
    ensures ToItemHoje(item, Some(g), now, dayStart).feitoPor.None?
  {
  }
}

=== FILE: entities.dfy ===
/** The persisted rows of the application, as immutable values. Timestamps are
    milliseconds since the epoch; a calendar day (a `@db.Date` column) is a day
    number. */
module Entities {
  import opened Wrappers

  type Id = string
  type Timestamp = int
  type Day = int

  datatype Role = ADMIN | EMPLOYEE

  datatype User = User(
    id: Id,
    name: string,
    email: string,
    password: string,
    role: Role,
    avatarColor: string,
    initials: string,
    active: bool)

  /** One time-clock record per user and day, with four optional punches. */
  datatype Ponto = Ponto(
    id: Id,
    userId: Id,
    date: Day,
    entrada: Option<Timestamp>,
    almoco: Option<Timestamp>,
    retorno: Option<Timestamp>,
    saida: Option<Timestamp>,
    encerramentoAutomatico: bool)

  datatype ChecklistItem = ChecklistItem(
    id: Id,
    titulo: string,
    descricao: Option<string>,
    horarioLimite: Option<string>,
    ordem: int,
    ativo: bool)

  /** Whether a checklist item was done on a given day, and by whom. */
  datatype ChecklistRegistro = ChecklistRegistro(
    id: Id,
    itemId: Id,
    userId: Id,
    data: Day,
    feito: bool,
    feitoEm: Option<Timestamp>)

  datatype ArteStatus = TODO | DOING | REVIEW | DONE
  datatype Urgencia = LOW | NORMAL | HIGH
  datatype Produto = AZULEJO | BANNER | ADESIVO | PLACA | FAIXA | OUTRO

  /** A print order on the Kanban board. */
  datatype Arte = Arte(
    id: Id,
    codigo: string,
    clienteNome: string,
    clienteNumero: string,
    orcamentoNum: string,
    produto: Produto,
    quantidade: int,
    largura: real,
    altura: real,
    responsavelId: Id,
    status: ArteStatus,
    urgencia: Urgencia,
    prazo: Option<Timestamp>,
    observacoes: Option<string>,
    createdAt: Timestamp)

  /** A reference file attached to an arte. */
  datatype Arquivo = Arquivo(
    id: Id,
    arteId: Id,
    nomeOriginal: string,
    nomeStorage: string,
    tipo: string,
    tamanho: int,
    url: string)

  /** The whole database. */
  datatype Db = Db(
    users: seq<User>,
    pontos: seq<Ponto>,
    itens: seq<ChecklistItem>,
    registros: seq<ChecklistRegistro>,
    artes: seq<Arte>,
    arquivos: seq<Arquivo>)

  /** Every foreign key resolves to an existing row. */
  ghost predicate ReferencesResolve(db: Db) {
    && (forall i :: 0 <= i < |db.pontos| ==> UserExists(db, db.pontos[i].userId))
    && (forall i :: 0 <= i < |db.registros| ==> UserExists(db, db.registros[i].userId))
    && (forall i :: 0 <= i < |db.artes| ==> UserExists(db, db.artes[i].responsavelId))
    && (forall i :: 0 <= i < |db.arquivos| ==> ArteExists(db, db.arquivos[i].arteId))
  }

  ghost predicate UserExists(db: Db, id: Id) {
    exists j :: 0 <= j < |db.users| && db.users[j].id == id
  }

  ghost predicate ArteExists(db: Db, id: Id) {
    exists j :: 0 <= j < |db.artes| && db.artes[j].id == id
  }
}

=== FILE: error_handler.dfy ===
/** The errors services throw and the global Express error middleware that
    turns them into HTTP responses (apps/api/src/middlewares/errorHandler.ts). */
module ErrorHandler {
  import opened Wrappers

  /** An `Error` with the optional `statusCode` the services attach and the
      optional `code` the data-access layer sets. */
  datatype AppError = AppError(message: string, statusCode: Option<int>, code: Option<string>)

  datatype Response = Response(status: int, message: string)

  const DuplicateMessage: string := "Registro duplicado. Este dado já existe no sistema."
  const NotFoundMessage: string := "Registro não encontrado."
  const InternalMessage: string := "Erro interno do servidor"

  /** `Object.assign(new Error(message), { statusCode })` */
  function HttpError(message: string, statusCode: int): AppError {
    AppError(message, Some(statusCode), None)
  }

  /** The opening words of the data-access layer's unique-constraint message. */
  const UniqueConstraintFailed: string := "Unique" + " constraint failed on the fields: (`"

  /** The data-access layer's unique-constraint violation on `field`. */
  function UniqueViolation(field: string): AppError {
    AppError(UniqueConstraintFailed + field + "`)", None, Some("P2002"))
  }

  /** The data-access layer's "record to update/delete not found". */
  function RecordNotFound(): AppError {
    AppError("Record to update not found.", None, Some("P2025"))
  }

  /** A request-schema failure: it carries neither a status nor a code. */
  function ValidationError(message: string): AppError {
    AppError(message, None, None)
  }

  /** The response the middleware sends for `err`. */
  function Handle(err: AppError): (r: Response)
    ensures err.code == Some("P2002") ==> r == Response(409, DuplicateMessage)
    ensures err.code == Some("P2025") ==> r == Response(404, NotFoundMessage)
    ensures err.code != Some("P2002") && err.code != Some("P2025") ==>
      r.status == err.statusCode.GetOr(500)
    ensures r.status == 500 ==> r.message == InternalMessage
    ensures r.status != 500 && err.code != Some("P2002") && err.code != Some("P2025") ==>
      r.message == err.message
  {
    if err.code == Some("P2002") then Response(409, DuplicateMessage)
    else if err.code == Some("P2025") then Response(404, NotFoundMessage)
    else
      var statusCode := err.statusCode.GetOr(500);
      Response(statusCode, if statusCode == 500 then InternalMessage else err.message)
  }

  /** What a controller sends: a success status with its JSON body, or the
      response of an error (the middleware's, or one the controller writes
      itself). */
  datatype Reply<T> = Ok(status: int, body: T) | Err(response: Response)

  /** A controller's effect on the stored rows together with its reply. */
  datatype Handled<S, T> = Handled(state: S, reply: Reply<T>)

  /** The reply to a request whose schema rejected `field`. */
  function Invalid<T>(field: string): (r: Reply<T>)
    ensures r == Err(Response(500, InternalMessage))
  {
    UnclassifiedIsInternal(ValidationError(field));
    Err(Handle(ValidationError(field)))
  }

  /** The reply for a service result: `status` on success, else what the
      middleware makes of the error. */
  function FromService<T>(r: Result<T, AppError>, status: int): (reply: Reply<T>)
    ensures r.Success? ==> reply == Ok(status, r.value)
    ensures r.Failure? ==> reply == Err(Handle(r.error))
  {
    match r
    case Success(v) => Ok(status, v)
    case Failure(e) => Err(Handle(e))
  }

  /** Every error that reaches the middleware without a status becomes a
      generic 500, whatever its message says. */
  lemma UnclassifiedIsInternal(err: AppError)
    requires err.statusCode.None? && err.code.None?
    ensures Handle(err) == Response(500, InternalMessage)
  {
  }
}

=== FILE: funcionarios.dfy ===
/** The employees page (apps/web/src/pages/Funcionarios.tsx): each employee's
    time-clock badge for today, their count of open artes, and the stat cards. */
module Funcionarios {
  import opened Wrappers
  import opened Entities
  import opened JsMath
  import Seqs
  import GestaoPontos

  type StatusLabel = GestaoPontos.StatusLabel

  /** Today's records. Whether a record's date is today is the browser's
      `toDateString` comparison, which depends on its timezone, so it is a
      parameter. */
  function PontosHoje(all: seq<Ponto>, isToday: Day -> bool): (r: seq<Ponto>)
    ensures forall i :: 0 <= i < |r| ==> isToday(r[i].date) && r[i] in all
    ensures forall i :: 0 <= i < |all| && isToday(all[i].date) ==> all[i] in r
  {
    Seqs.Filter(all, OnDay(isToday))
  }

  function OnDay(isToday: Day -> bool): Ponto -> bool {
    (p: Ponto) => isToday(p.date)
  }

  function OwnedBy(userId: Id): Ponto -> bool {
    (p: Ponto) => p.userId == userId
  }

  /** The badge of one record: without entrada the employee is absent, even
      when later punches are set. */
  function Classify(f: Ponto): (r: StatusLabel)
    ensures r == GestaoPontos.Ausente <==> f.entrada.None?
    ensures r == GestaoPontos.Completo <==> f.entrada.Some? && f.saida.Some?
    ensures r == GestaoPontos.Almoco <==> f.entrada.Some? && f.saida.None? && f.almoco.Some? && f.retorno.None?
  {
    if f.entrada.None? then GestaoPontos.Ausente
    else if f.saida.Some? then GestaoPontos.Completo
    else if f.almoco.Some? && f.retorno.None? then GestaoPontos.Almoco
    else GestaoPontos.Trabalhando
  }

  /** `getUserPontoStatus(userId)`: the badge of the user's first record today,
      absent when there is none. */
  function GetUserPontoStatus(hoje: seq<Ponto>, userId: Id): (r: StatusLabel)
    ensures Seqs.FindIndex(hoje, OwnedBy(userId)).None? ==> r == GestaoPontos.Ausente
    ensures Seqs.FindIndex(hoje, OwnedBy(userId)).Some? ==> r == Classify(hoje[Seqs.FindIndex(hoje, OwnedBy(userId)).value])
    ensures (forall i :: 0 <= i < |hoje| && hoje[i].userId == userId ==> hoje[i].entrada.None?) ==> r == GestaoPontos.Ausente
  {
    match Seqs.FindIndex(hoje, OwnedBy(userId))
    case None => GestaoPontos.Ausente
    case Some(i) => Classify(hoje[i])
  }

  /** The employees page and the overview give a record the same badge exactly
      when it has an entrada or no punch at all. */
  lemma ClassifiersAgree(f: Ponto)
    ensures Classify(f) == GestaoPontos.GetStatusLabel(f) <==>
      f.entrada.Some? || (f.almoco.None? && f.retorno.None? && f.saida.None?)
  {
  }

  predicate IsAtiva(a: Arte) { a.status != DONE }

  function OwnedArte(userId: Id): Arte -> bool {
    (a: Arte) => a.responsavelId == userId
  }

  /** `artesAtivas.filter(a => a.responsavelId === userId).length` */
  function GetUserArtesAtivas(artes: seq<Arte>, userId: Id): nat {
    Seqs.Count(Seqs.Filter(artes, IsAtiva), OwnedArte(userId))
  }

  /** Reference definition: the artes that are not done and belong to `u`. */
  function OpenArtesOf(artes: seq<Arte>, u: Id): nat
    decreases |artes|
  {
    if |artes| == 0 then 0
    else (if artes[0].status != DONE && artes[0].responsavelId == u then 1 else 0) + OpenArtesOf(artes[1..], u)
  }

  /** The badge count is the number of the user's artes not yet done. */
  lemma {:induction false} UserArtesAtivasCounts(artes: seq<Arte>, u: Id)
    ensures GetUserArtesAtivas(artes, u) == OpenArtesOf(artes, u)
    ensures GetUserArtesAtivas(artes, u) <= |Seqs.Filter(artes, IsAtiva)|
    decreases |artes|
  {
    if |artes| > 0 {
      UserArtesAtivasCounts(artes[1..], u);
      var head := if IsAtiva(artes[0]) then [artes[0]] else [];
      assert Seqs.Filter(artes, IsAtiva) == head + Seqs.Filter(artes[1..], IsAtiva);
      Seqs.FilterAppend(head, Seqs.Filter(artes[1..], IsAtiva), OwnedArte(u));
    }
  }

  datatype Stats = Stats(totalCount: nat, activeCount: nat, presentesToday: nat,
                         artesAtivasTotal: nat, ausentesHoje: int)

  predicate IsActive(u: User) { u.active }
  predicate HasEntrada(p: Ponto) { p.entrada.Some? }

  /** The stat cards: all users, the active ones, today's records with an
      entrada, the artes not done, and the active users without an entrada
      (which may be negative before display). */
  function GetStats(users: seq<User>, allPontos: seq<Ponto>, artes: seq<Arte>, isToday: Day -> bool): (r: Stats)
    ensures r.totalCount == |users| && r.activeCount <= r.totalCount
    ensures r.activeCount == |set i: nat | i < |users| && users[i].active|
    ensures r.presentesToday == |set i: nat | i < |allPontos| && isToday(allPontos[i].date) && allPontos[i].entrada.Some?|
    ensures r.presentesToday <= |PontosHoje(allPontos, isToday)|
    ensures r.ausentesHoje == r.activeCount - r.presentesToday
    ensures r.artesAtivasTotal == |set i: nat | i < |artes| && artes[i].status != DONE|
    ensures r.artesAtivasTotal <= |artes|
  {
    var activeCount := Seqs.Count(users, IsActive);
    var presentes := Seqs.Count(PontosHoje(allPontos, isToday), HasEntrada);
    ActiveCount(users);
    PresentesCount(allPontos, isToday);
    AtivasCount(artes);
    Stats(|users|, activeCount, presentes, Seqs.Count(artes, IsAtiva), activeCount - presentes)
  }

  lemma ActiveCount(users: seq<User>)
    ensures Seqs.Count(users, IsActive) == |set i: nat | i < |users| && users[i].active|
  {
    Seqs.CountIsPositions(users, IsActive);
    assert Seqs.Positions(users, IsActive) == set i: nat | i < |users| && users[i].active;
  }

  lemma PresentesCount(allPontos: seq<Ponto>, isToday: Day -> bool)
    ensures Seqs.Count(PontosHoje(allPontos, isToday), HasEntrada)
      == |set i: nat | i < |allPontos| && isToday(allPontos[i].date) && allPontos[i].entrada.Some?|
  {
    var f := OnDay(isToday);
    var g: Ponto -> bool := HasEntrada;
    Seqs.CountOfFiltered(allPontos, f, g);
    assert PontosHoje(allPontos, isToday) == Seqs.Filter(allPontos, f);
    var direct := set i: nat | i < |allPontos| && isToday(allPontos[i].date) && allPontos[i].entrada.Some?;
    forall i: nat
      ensures i in Seqs.PositionsBoth(allPontos, f, g) <==> i in direct
    {
      if i < |allPontos| {
        assert f(allPontos[i]) == isToday(allPontos[i].date) && g(allPontos[i]) == allPontos[i].entrada.Some?;
      }
    }
    assert Seqs.PositionsBoth(allPontos, f, g) == direct;
  }

  lemma AtivasCount(artes: seq<Arte>)
    ensures Seqs.Count(artes, IsAtiva) == |set i: nat | i < |artes| && artes[i].status != DONE|
  {
    Seqs.CountIsPositions(artes, IsAtiva);
    assert Seqs.Positions(artes, IsAtiva) == set i: nat | i < |artes| && artes[i].status != DONE;
  }

  /** The "Ausentes hoje" card: the difference, never below zero. */
  function AusentesShown(users: seq<User>, allPontos: seq<Ponto>, artes: seq<Arte>, isToday: Day -> bool): (r: nat)
    ensures var s := GetStats(users, allPontos, artes, isToday);
      && r <= s.activeCount
      && (s.presentesToday <= s.activeCount ==> r + s.presentesToday == s.activeCount)
      && (s.presentesToday >= s.activeCount ==> r == 0)
  {
    var s := GetStats(users, allPontos, artes, isToday);
    if s.ausentesHoje > 0 then s.ausentesHoje else 0
  }

  /** A day without any entrada shows every active employee as absent, both
      on the card and on each badge. */
  lemma NobodyInMeansAllAbsent(users: seq<User>, allPontos: seq<Ponto>, artes: seq<Arte>, isToday: Day -> bool)
    requires forall i :: 0 <= i < |allPontos| ==> allPontos[i].entrada.None?
    ensures AusentesShown(users, allPontos, artes, isToday) == Seqs.Count(users, IsActive)
    ensures forall u :: GetUserPontoStatus(PontosHoje(allPontos, isToday), u) == GestaoPontos.Ausente
  {
    var hoje := PontosHoje(allPontos, isToday);
    NoneHasEntrada(hoje);
  }

  lemma {:induction false} NoneHasEntrada(s: seq<Ponto>)
    requires forall i :: 0 <= i < |s| ==> s[i].entrada.None?
    ensures Seqs.Count(s, HasEntrada) == 0
    decreases |s|
  {
    if |s| > 0 {
      NoneHasEntrada(s[1..]);
    }
  }
}

=== FILE: gestao_pontos.dfy ===
/** The administrator's time-clock overview (apps/web/src/pages/GestaoPontos.tsx):
    the five-way status label, the CSV export and the stat cards. The page's
    `calcularHoras` and `fmtTime` are the time-clock page's, copied verbatim. */
module GestaoPontos {
  import opened Wrappers
  import opened Entities
  import opened JsMath
  import opened JsText
  import Seqs
  import PontoPage
  import PontoService

  datatype StatusLabel = Completo | Trabalhando | Almoco | Ausente

  /** `getStatusLabel(p)`: the latest punch set decides, by the priority
      saida, retorno, almoco, entrada. */
  function GetStatusLabel(p: Ponto): (r: StatusLabel)
    ensures r == Completo <==> p.saida.Some?
    ensures r == Almoco <==> p.saida.None? && p.retorno.None? && p.almoco.Some?
    ensures r == Ausente <==> p.entrada.None? && p.almoco.None? && p.retorno.None? && p.saida.None?
  {
    if p.saida.Some? then Completo
    else if p.retorno.Some? then Trabalhando
    else if p.almoco.Some? then Almoco
    else if p.entrada.Some? then Trabalhando
    else Ausente
  }

  function StatusText(l: StatusLabel): string {
    match l
    case Completo => "Completo"
    case Trabalhando => "Trabalhando"
    case Almoco => "Almoço"
    case Ausente => "Ausente"
  }

  // ----- CSV export -----

  const Header: string := "Funcionário,Cargo,Data,Entrada,Almoço,Retorno,Saída,Horas,Status\n"
  const Dash: string := "—"

  /** The role column, the same for every row. */
  const RoleText: string := "Funcionário"

  /** Text that cannot break the row apart: no comma, line feed or quote. */
  predicate Clean(s: string) {
    forall i :: 0 <= i < |s| ==> s[i] != ',' && s[i] != '\n' && s[i] != '"'
  }

  /** The hours text is digits, signs and the letters h and m, at least
      three characters long: never the dash and never unclean. */
  lemma HoursTextIsClean(p: Ponto)
    ensures PontoPage.CalcularHoras(p).Some? ==>
      var t := PontoPage.CalcularHoras(p).value; Clean(t) && t != Dash
  {
    PontoPage.CalcularHorasMatchesServer(p);
    if PontoService.WorkedMs(p).Some? {
      FormatHorasClean(PontoService.WorkedMs(p).value);
    }
  }

  lemma FormatHorasClean(totalMs: int)
    ensures Clean(PontoService.FormatHoras(totalMs)) && PontoService.FormatHoras(totalMs) != Dash
  {
    var totalMinutes := totalMs / 60000;
    var hs := IntToString(totalMinutes / 60);
    var ms := PadStart(IntToString(JsRem(totalMinutes, 60)), 2, '0');
    NumberTextClean(totalMinutes / 60);
    NumberTextClean(JsRem(totalMinutes, 60));
    PaddedClean(IntToString(JsRem(totalMinutes, 60)));
    ConcatClean(hs, "h");
    ConcatClean(hs + "h", ms);
    ConcatClean(hs + "h" + ms, "m");
    var t := hs + "h" + ms + "m";
    assert PontoService.FormatHoras(totalMs) == t;
    assert |t| >= 3;
  }

  lemma NumberTextClean(n: int)
    ensures Clean(IntToString(n))
  {
    var s := NatToString(if n >= 0 then n else -n);
    assert AllDigits(s);
  }

  lemma PaddedClean(s: string)
    requires Clean(s)
    ensures Clean(PadStart(s, 2, '0'))
  {
    if |s| < 2 {
      var r := PadStart(s, 2, '0');
      forall i | 0 <= i < |r|
        ensures r[i] != ',' && r[i] != '\n' && r[i] != '"'
      {
        if i >= 2 - |s| {
          assert r[i] == r[2 - |s|..][i - (2 - |s|)];
        }
      }
    }
  }

  lemma ConcatClean(a: string, b: string)
    requires Clean(a) && Clean(b)
    ensures Clean(a + b)
  {
    forall i | 0 <= i < |a + b|
      ensures (a + b)[i] != ',' && (a + b)[i] != '\n' && (a + b)[i] != '"'
    {
      if i >= |a| {
        assert (a + b)[i] == b[i - |a|];
      }
    }
  }

  /** The nine values of a row before quoting: the name, the fixed role text,
      the date, the four punches, the hours and the status. `fmtDate` and
      `hhmm` are the browser's date-fns renderings. */
  function Fields(p: Ponto, name: string, fmtDate: Day -> string, hhmm: Timestamp -> string): (r: seq<string>)
    ensures |r| == 9 && r[0] == name && r[1] == RoleText && r[2] == fmtDate(p.date)
    ensures r[3] == PontoPage.FmtTime(p.entrada, hhmm) && r[4] == PontoPage.FmtTime(p.almoco, hhmm)
    ensures r[5] == PontoPage.FmtTime(p.retorno, hhmm) && r[6] == PontoPage.FmtTime(p.saida, hhmm)
    ensures r[7] == Dash <==> p.entrada.None? || p.saida.None?
    ensures p.entrada.Some? && p.saida.Some? ==> r[7] == PontoPage.CalcularHoras(p).value
    ensures r[8] == StatusText(GetStatusLabel(p))
  {
    [name, RoleText, fmtDate(p.date), PontoPage.FmtTime(p.entrada, hhmm), PontoPage.FmtTime(p.almoco, hhmm),
     PontoPage.FmtTime(p.retorno, hhmm), PontoPage.FmtTime(p.saida, hhmm), HoursField(p),
     StatusText(GetStatusLabel(p))]
  }

  /** `calcularHoras(p) ?? '—'` */
  function HoursField(p: Ponto): (r: string)
    ensures r == Dash <==> p.entrada.None? || p.saida.None?
    ensures p.entrada.Some? && p.saida.Some? ==> r == PontoPage.CalcularHoras(p).value
  {
    HoursTextIsClean(p);
    PontoPage.CalcularHoras(p).GetOr(Dash)
  }

  /** Each field between double quotes, with nothing escaped. */
  function Quoted(fields: seq<string>): (r: seq<string>)
    ensures |r| == |fields|
    ensures forall i :: 0 <= i < |r| ==> r[i] == "\"" + fields[i] + "\""
  {
    seq(|fields|, i requires 0 <= i < |fields| => "\"" + fields[i] + "\"")
  }

  function Row(p: Ponto, name: string, fmtDate: Day -> string, hhmm: Timestamp -> string): string {
    Join(Quoted(Fields(p, name, fmtDate, hhmm)), ',')
  }

  /** `exportCSV(pontos)`: the header, then the rows joined by line feeds. */
  function ExportCsv(pontos: seq<Ponto>, nameOf: Id -> string, fmtDate: Day -> string,
                     hhmm: Timestamp -> string): (r: string)
    ensures |r| >= 1 + |Header| && r[0] == ByteOrderMark && r[1..1 + |Header|] == Header
  {
    var rows := seq(|pontos|, i requires 0 <= i < |pontos| => Row(pontos[i], nameOf(pontos[i].userId), fmtDate, hhmm));
    [ByteOrderMark] + Header + Join(rows, '\n')
  }

  /** The rows as the export writes them, one per record. */
  function Rows(pontos: seq<Ponto>, nameOf: Id -> string, fmtDate: Day -> string,
                hhmm: Timestamp -> string): (r: seq<string>)
    ensures |r| == |pontos|
    ensures forall i :: 0 <= i < |pontos| ==> r[i] == Row(pontos[i], nameOf(pontos[i].userId), fmtDate, hhmm)
  {
    seq(|pontos|, i requires 0 <= i < |pontos| => Row(pontos[i], nameOf(pontos[i].userId), fmtDate, hhmm))
  }

  predicate CleanRenderings(p: Ponto, name: string, fmtDate: Day -> string, hhmm: Timestamp -> string) {
    && Clean(name) && Clean(fmtDate(p.date))
    && (p.entrada.Some? ==> Clean(hhmm(p.entrada.value))) && (p.almoco.Some? ==> Clean(hhmm(p.almoco.value)))
    && (p.retorno.Some? ==> Clean(hhmm(p.retorno.value))) && (p.saida.Some? ==> Clean(hhmm(p.saida.value)))
  }

  lemma FixedTextsClean()
    ensures Clean(RoleText) && Clean(Dash)
    ensures forall l :: Clean(StatusText(l))
  {
    forall l ensures Clean(StatusText(l)) {
      match l
      case Completo =>
      case Trabalhando =>
      case Almoco =>
      case Ausente =>
    }
  }

  /** With clean names and renderings every field is clean. */
  lemma FieldsClean(p: Ponto, name: string, fmtDate: Day -> string, hhmm: Timestamp -> string)
    requires CleanRenderings(p, name, fmtDate, hhmm)
    ensures forall i :: 0 <= i < 9 ==> Clean(Fields(p, name, fmtDate, hhmm)[i])
  {
    FixedTextsClean();
    HoursTextIsClean(p);
  }

  /** A row splits at its commas into the nine quoted fields. */
  lemma RowHasNineFields(p: Ponto, name: string, fmtDate: Day -> string, hhmm: Timestamp -> string)
    requires CleanRenderings(p, name, fmtDate, hhmm)
    ensures var parts := Split(Row(p, name, fmtDate, hhmm), ',');
      && |parts| == 9
      && forall i :: 0 <= i < 9 ==> parts[i] == "\"" + Fields(p, name, fmtDate, hhmm)[i] + "\""
  {
    var fields := Fields(p, name, fmtDate, hhmm);
    FieldsClean(p, name, fmtDate, hhmm);
    QuotedHaveNoComma(fields);
    SplitJoin(Quoted(fields), ',');
  }

  /** Clean fields stay free of commas once quoted. */
  lemma QuotedHaveNoComma(fields: seq<string>)
    requires forall i :: 0 <= i < |fields| ==> Clean(fields[i])
    ensures forall i :: 0 <= i < |fields| ==> ',' !in Quoted(fields)[i]
  {
    var q := Quoted(fields);
    forall i | 0 <= i < |q|
      ensures ',' !in q[i]
    {
      var f := fields[i];
      assert q[i] == "\"" + f + "\"";
      assert forall k :: 0 <= k < |f| ==> q[i][k + 1] == f[k];
    }
  }

  /** The name is written as it is: a quote inside it is not doubled. */
  lemma NameIsNotEscaped(p: Ponto, name: string, fmtDate: Day -> string, hhmm: Timestamp -> string)
    ensures var row := Row(p, name, fmtDate, hhmm);
      |row| > |name| + 2 && row[..|name| + 3] == "\"" + name + "\","
  {
    var q := Quoted(Fields(p, name, fmtDate, hhmm));
    assert Join(q, ',') == q[0] + [','] + Join(q[1..], ',');
    assert q[0] == "\"" + name + "\"";
    var row := Join(q, ',');
    assert row[..|name| + 3] == q[0] + [','];
  }

  /** With clean renderings and at least one record, the text after the
      header splits at its line feeds into exactly one row per record, in
      order. */
  lemma OneLinePerRecord(pontos: seq<Ponto>, nameOf: Id -> string, fmtDate: Day -> string,
                         hhmm: Timestamp -> string)
    requires |pontos| >= 1
    requires forall i :: 0 <= i < |pontos| ==> CleanRenderings(pontos[i], nameOf(pontos[i].userId), fmtDate, hhmm)
    ensures var csv := ExportCsv(pontos, nameOf, fmtDate, hhmm);
      Split(csv[1 + |Header|..], '\n') == Rows(pontos, nameOf, fmtDate, hhmm)
  {
    var rows := Rows(pontos, nameOf, fmtDate, hhmm);
    forall i | 0 <= i < |rows|
      ensures '\n' !in rows[i]
    {
      var p := pontos[i];
      var name := nameOf(p.userId);
      var fs := Fields(p, name, fmtDate, hhmm);
      var q := Quoted(fs);
      FieldsClean(p, name, fmtDate, hhmm);
      JoinAvoids(q, ',', '\n');
    }
    SplitJoin(rows, '\n');
    var csv := ExportCsv(pontos, nameOf, fmtDate, hhmm);
    assert csv == [ByteOrderMark] + Header + Join(rows, '\n');
    assert csv[1 + |Header|..] == Join(rows, '\n');
  }

  /** Joining pieces free of `x` with a separator other than `x` leaves no `x`. */
  lemma {:induction false} JoinAvoids(parts: seq<string>, c: char, x: char)
    requires c != x
    requires forall i :: 0 <= i < |parts| ==> x !in parts[i]
    ensures x !in Join(parts, c)
    decreases |parts|
  {
    if |parts| > 1 {
      JoinAvoids(parts[1..], c, x);
      assert Join(parts, c) == parts[0] + [c] + Join(parts[1..], c);
    }
  }

  // ----- stat cards -----

  datatype Stats = Stats(totalRegistros: nat, completos: nat, trabalhando: nat, ausentes: nat)

  predicate IsCompleto(p: Ponto) { p.saida.Some? }
  predicate IsTrabalhando(p: Ponto) { p.entrada.Some? && p.saida.None? }
  predicate IsActive(u: User) { u.active }

  /** The four stat cards over the day's report and the user list: the
      records, those closed, those open, and the active users beyond the
      number of records. */
  function GetStats(relatorio: seq<Ponto>, users: seq<User>): (r: Stats)
    ensures r.totalRegistros == |relatorio|
    ensures r.completos == |set i: nat | i < |relatorio| && relatorio[i].saida.Some?|
    ensures r.trabalhando == |set i: nat | i < |relatorio| && relatorio[i].entrada.Some? && relatorio[i].saida.None?|
    ensures r.completos + r.trabalhando <= r.totalRegistros
    ensures var ativos := |set i: nat | i < |users| && users[i].active|;
      && r.ausentes == ClampZero(ativos - |relatorio|)
      && r.ausentes + r.totalRegistros >= ativos
  {
    Seqs.DisjointCounts(relatorio, IsCompleto, IsTrabalhando);
    Seqs.CountIsPositions(relatorio, IsCompleto);
    Seqs.CountIsPositions(relatorio, IsTrabalhando);
    Seqs.CountIsPositions(users, IsActive);
    assert Seqs.Positions(relatorio, IsCompleto) == set i: nat | i < |relatorio| && relatorio[i].saida.Some?;
    assert Seqs.Positions(relatorio, IsTrabalhando)
      == set i: nat | i < |relatorio| && relatorio[i].entrada.Some? && relatorio[i].saida.None?;
    assert Seqs.Positions(users, IsActive) == set i: nat | i < |users| && users[i].active;
    Stats(|relatorio|, Seqs.Count(relatorio, IsCompleto), Seqs.Count(relatorio, IsTrabalhando),
          ClampZero(Seqs.Count(users, IsActive) - |relatorio|))
  }
}

=== FILE: horario.dfy ===
/** Reading a checklist deadline "HH:MM" the way the application does:
    `horarioLimite.split(':').map(Number)`, then a local date-time at that
    hour and minute. Host-local midnight is the parameter `dayStart`. */
module Horario {
  import opened Wrappers
  import opened JsText

  const HourMs: int := 3600000
  const MinuteMs: int := 60000

  /** `Number(s)` for the pieces of a deadline: a run of digits reads as its
      value and the empty string as 0. Every other piece is read as NaN.
      `Number` itself also accepts surrounding white space, a sign, a
      fraction or an exponent (" 8" is 8, "8.5" is 8.5); the request schema
      only lets "HH:MM" deadlines through, whose pieces are digit runs. */
  datatype Num = NaN | Num(n: nat)

  function JsNumber(s: string): (r: Num)
    ensures AllDigits(s) ==> r == Num(DigitsValue(s))
  {
    if AllDigits(s) then Num(DigitsValue(s)) else NaN
  }

  /** The hour and the (possibly missing) minute component of a deadline. */
  datatype Parts = Parts(h: Num, m: Option<Num>)

  function SplitDeadline(horario: string): Parts {
    var pieces := Split(horario, ':');
    Parts(JsNumber(pieces[0]), if |pieces| >= 2 then Some(JsNumber(pieces[1])) else None)
  }

  /** The offset from local midnight of `new Date(y, mo, d, h, m)` on the
      server, or None for an Invalid Date (a NaN or missing component). */
  function ServerOffset(horario: string): Option<int> {
    var parts := SplitDeadline(horario);
    if parts.h.NaN? || parts.m.None? || parts.m.value.NaN? then None
    else Some(parts.h.n * HourMs + parts.m.value.n * MinuteMs)
  }

  /** The offset from local midnight of `setHours(h ?? 0, m ?? 0, 0, 0)` in the
      browser: a missing minute reads as 0, a NaN one gives an Invalid Date. */
  function ClientOffset(horario: string): Option<int> {
    var parts := SplitDeadline(horario);
    if parts.h.NaN? then None
    else if parts.m.Some? && parts.m.value.NaN? then None
    else Some(parts.h.n * HourMs + (if parts.m.Some? then parts.m.value.n else 0) * MinuteMs)
  }

  /** The shape the request schema enforces: two digits, ':' and two digits. */
  predicate IsHHMM(s: string) {
    |s| == 5 && IsDigit(s[0]) && IsDigit(s[1]) && s[2] == ':' && IsDigit(s[3]) && IsDigit(s[4])
  }

  /** A deadline of the enforced shape splits into its hour and minute digits. */
  lemma SplitHHMM(s: string)
    requires IsHHMM(s)
    ensures Split(s, ':') == [s[..2], s[3..]]
  {
    assert s == s[..2] + [':'] + s[3..];
    SplitAtSeparator(s[..2], ':', s[3..]);
    SplitNoSeparator(s[3..], ':');
  }

  /** On the enforced shape both readings agree: hour times an hour plus minute
      times a minute, read straight from the digits ("99:99" included). */
  lemma OffsetOfHHMM(s: string)
    requires IsHHMM(s)
    ensures ServerOffset(s) == ClientOffset(s)
      == Some(DigitsValue(s[..2]) * HourMs + DigitsValue(s[3..]) * MinuteMs)
  {
    SplitHHMM(s);
  }

  /** A deadline without ':' is an Invalid Date on the server but midnight plus
      the hour in the browser. */
  lemma HourOnlyDisagrees()
    ensures ServerOffset("8") == None
    ensures ClientOffset("8") == Some(8 * HourMs)
  {
    assert Split("8", ':') == ["8"] by {
      SplitNoSeparator("8", ':');
    }
    assert DigitsValue("8") == 8 by {
      assert "8"[..0] == "";
    }
  }
}

=== FILE: js_math.dfy ===
/** Integer counterparts of the JavaScript arithmetic the application uses. */
module JsMath {

  /** Truncating integer division, the quotient JavaScript's `%` is based on. */
  function TruncDiv(a: int, b: int): int
    requires b > 0
  {
    if a >= 0 then a / b else -((-a) / b)
  }

  /** JavaScript `a % b` for a positive divisor: the remainder takes the sign of
      the dividend (truncating division), unlike Dafny's Euclidean `%`. */
  function JsRem(a: int, b: int): (r: int)
    requires b > 0
    ensures a >= 0 ==> 0 <= r < b
    ensures a < 0 ==> -b < r <= 0
    ensures a == b * TruncDiv(a, b) + r
  {
    if a >= 0 then a % b
    else
      var q := (-a) / b;
      var m := (-a) % b;
      assert -a == b * q + m;
      assert b * (-q) == -(b * q) by { NegMul(b, q); }
      -m
  }

  lemma NegMul(x: int, y: int)
    ensures x * (-y) == -(x * y)
  {
  }

  lemma MulLeq(x: int, y: int, z: int)
    requires x <= y && z >= 0
    ensures x * z <= y * z
  {
  }

  /** `Math.round(n / d)` for integers and a positive divisor: the nearest
      integer, halves rounding up. */
  function RoundDiv(n: int, d: int): (r: int)
    requires d > 0
    ensures 2 * d * r <= 2 * n + d < 2 * d * r + 2 * d
  {
    (2 * n + d) / (2 * d)
  }

  /** The rounding bounds determine the rounded value. */
  lemma RoundDivUnique(n: int, d: int, q: int)
    requires d > 0 && 2 * d * q <= 2 * n + d < 2 * d * q + 2 * d
    ensures RoundDiv(n, d) == q
  {
    var r := RoundDiv(n, d);
    if r < q {
      MulLeq(r + 1, q, 2 * d);
      assert false;
    } else if r > q {
      MulLeq(q + 1, r, 2 * d);
      assert false;
    }
  }

  /** A numerator between 0 and `hi` times the divisor rounds into [0, hi]. */
  lemma RoundDivInRange(n: int, d: int, hi: int)
    requires d > 0
    ensures 0 <= n <= hi * d ==> 0 <= RoundDiv(n, d) <= hi
  {
    var r := RoundDiv(n, d);
    if 0 <= n <= hi * d {
      if r < 0 {
        MulLeq(r, -1, 2 * d);
        assert false;
      }
      if r > hi {
        MulLeq(hi + 1, r, 2 * d);
        assert false;
      }
    }
  }

  /** `total > 0 ? Math.round((part / total) * 100) : 0` */
  function Percent(part: nat, total: nat): (r: int)
    ensures total == 0 ==> r == 0
    ensures part <= total ==> 0 <= r <= 100
    ensures part == total && total > 0 ==> r == 100
    ensures total > 0 ==> 2 * total * r <= 200 * part + total < 2 * total * r + 2 * total
  {
    if total > 0 then
      PercentBounds(part, total);
      RoundDiv(100 * part, total)
    else 0
  }

  lemma PercentBounds(part: nat, total: nat)
    requires total > 0
    ensures RoundDiv(100 * part, total) >= 0
    ensures part <= total ==> RoundDiv(100 * part, total) <= 100
    ensures part == total ==> RoundDiv(100 * part, total) == 100
  {
    var d := 2 * total;
    var n := 2 * (100 * part) + total;
    var r := RoundDiv(100 * part, total);
    assert d * r <= n < d * r + d;
    if r < 0 {
      MulLeq(r, -1, d);
      assert false;
    }
    if part <= total && r > 100 {
      MulLeq(101, r, d);
      assert false;
    }
    if part == total && r < 100 {
      MulLeq(r, 99, d);
      assert false;
    }
  }

  function Max(a: int, b: int): (r: int)
    ensures r >= a && r >= b && (r == a || r == b)
  {
    if a >= b then a else b
  }

  /** `n > 0 ? n : 0`, the clamp the dashboards apply to absence counts. */
  function ClampZero(n: int): (r: nat)
    ensures n >= 0 ==> r == n
    ensures n < 0 ==> r == 0
  {
    if n > 0 then n else 0
  }
}

=== FILE: js_text.dfy ===
/** The JavaScript string operations the application relies on, over
    `string` = `seq<char>` (one char per Unicode scalar value). */
module JsText {

  predicate IsDigit(c: char) {
    '0' <= c <= '9'
  }

  predicate AllDigits(s: string) {
    forall i :: 0 <= i < |s| ==> IsDigit(s[i])
  }

  function DigitChar(d: nat): (c: char)
    requires d < 10
    ensures IsDigit(c)
  {
    ['0', '1', '2', '3', '4', '5', '6', '7', '8', '9'][d]
  }

  function DigitValue(c: char): (d: nat)
    requires IsDigit(c)
    ensures d < 10 && DigitChar(d) == c
  {
    (c as int - '0' as int) as nat
  }

  /** Decimal rendering of a natural number, as `n.toString()`. */
  function NatToString(n: nat): (s: string)
    ensures |s| >= 1 && AllDigits(s)
    ensures n < 10 <==> |s| == 1
    decreases n
  {
    if n < 10 then [DigitChar(n)] else NatToString(n / 10) + [DigitChar(n % 10)]
  }

  /** The value of a string of decimal digits, as `parseInt(s, 10)` reads it. */
  function DigitsValue(s: string): nat
    requires AllDigits(s)
  {
    if |s| == 0 then 0 else 10 * DigitsValue(s[..|s| - 1]) + DigitValue(s[|s| - 1])
  }

  /** Reading back a rendered number gives the number. */
  lemma {:induction false} NatToStringRoundTrip(n: nat)
    ensures DigitsValue(NatToString(n)) == n
    decreases n
  {
    var s := NatToString(n);
    if n >= 10 {
      NatToStringRoundTrip(n / 10);
      assert s[..|s| - 1] == NatToString(n / 10);
    }
  }

  /** Different numbers render differently. */
  lemma NatToStringInjective(a: nat, b: nat)
    requires NatToString(a) == NatToString(b)
    ensures a == b
  {
    NatToStringRoundTrip(a);
    NatToStringRoundTrip(b);
  }

  /** `n.toString()` for an integer. */
  function IntToString(n: int): (s: string)
    ensures n >= 0 ==> s == NatToString(n)
    ensures n < 0 ==> s == "-" + NatToString(-n)
  {
    if n >= 0 then NatToString(n) else "-" + NatToString(-n)
  }

  function Repeat(c: char, k: nat): (s: string)
    ensures |s| == k
    ensures forall i :: 0 <= i < k ==> s[i] == c
  {
    if k == 0 then "" else [c] + Repeat(c, k - 1)
  }

  /** `s.padStart(width, c)` with a one-character fill. */
  function PadStart(s: string, width: nat, c: char): (r: string)
    ensures |s| >= width ==> r == s
    ensures |s| < width ==> |r| == width && r[width - |s|..] == s
    ensures forall i :: 0 <= i < |r| - |s| ==> r[i] == c
  {
    if |s| >= width then s else Repeat(c, width - |s|) + s
  }

  /** Two-digit zero padding of a value below 100 keeps its value. */
  lemma PadTwoDigits(m: nat)
    requires m < 100
    ensures |PadStart(NatToString(m), 2, '0')| == 2
    ensures AllDigits(PadStart(NatToString(m), 2, '0'))
    ensures DigitsValue(PadStart(NatToString(m), 2, '0')) == m
  {
    NatToStringRoundTrip(m);
    var s := NatToString(m);
    var p := PadStart(s, 2, '0');
    if m < 10 {
      assert p == ['0'] + s;
      assert p[..1] == ['0'];
    }
  }

  /** The JavaScript `WhiteSpace` and `LineTerminator` code points that
      `String.prototype.trim` removes. */
  predicate IsJsWhitespace(c: char) {
    c == ' ' || c == '\t' || c == '\n' || c == '\r' || c == '\U{000B}' || c == '\U{000C}'
    || c == '\U{00A0}' || c == '\U{1680}' || ('\U{2000}' <= c <= '\U{200A}')
    || c == '\U{2028}' || c == '\U{2029}' || c == '\U{202F}' || c == '\U{205F}'
    || c == '\U{3000}' || c == '\U{FEFF}'
  }

  function TrimStart(s: string): (r: string)
    ensures |r| <= |s| && r == s[|s| - |r|..]
    ensures |r| > 0 ==> !IsJsWhitespace(r[0])
  {
    if |s| > 0 && IsJsWhitespace(s[0]) then TrimStart(s[1..]) else s
  }

  function TrimEnd(s: string): (r: string)
    ensures |r| <= |s| && r == s[..|r|]
    ensures |r| > 0 ==> !IsJsWhitespace(r[|r| - 1])
  {
    if |s| > 0 && IsJsWhitespace(s[|s| - 1]) then TrimEnd(s[..|s| - 1]) else s
  }

  /** `s.trim()` */
  function Trim(s: string): (r: string)
    ensures |r| > 0 ==> !IsJsWhitespace(r[0]) && !IsJsWhitespace(r[|r| - 1])
  {
    TrimEnd(TrimStart(s))
  }

  /** `s.split(c)` for a one-character separator: the pieces between
      separators, empty pieces included. */
  function Split(s: string, c: char): (r: seq<string>)
    ensures |r| >= 1
    ensures forall i :: 0 <= i < |r| ==> c !in r[i]
  {
    if |s| == 0 then [""]
    else if s[0] == c then [""] + Split(s[1..], c)
    else
      var rest := Split(s[1..], c);
      [[s[0]] + rest[0]] + rest[1..]
  }

  /** U+FEFF, which a spreadsheet reads as "this text is UTF-8" when it
      opens a file. */
  const ByteOrderMark: char := '\U{FEFF}'

  /** `parts.join(c)` for a one-character separator. */
  function Join(parts: seq<string>, c: char): string
  {
    if |parts| == 0 then ""
    else if |parts| == 1 then parts[0]
    else parts[0] + [c] + Join(parts[1..], c)
  }

  lemma {:induction false} SplitNoSeparator(p: string, c: char)
    requires c !in p
    ensures Split(p, c) == [p]
    decreases |p|
  {
    if |p| > 0 {
      SplitNoSeparator(p[1..], c);
      assert [p[0]] + p[1..] == p;
    }
  }

  lemma {:induction false} SplitAtSeparator(p: string, c: char, rest: string)
    requires c !in p
    ensures Split(p + [c] + rest, c) == [p] + Split(rest, c)
    decreases |p|
  {
    var s := p + [c] + rest;
    if |p| == 0 {
      assert s == [c] + rest;
      assert s[1..] == rest;
    } else {
      assert s[0] == p[0];
      assert s[1..] == p[1..] + [c] + rest;
      SplitAtSeparator(p[1..], c, rest);
      assert [p[0]] + p[1..] == p;
    }
  }

  /** Splitting a join on its separator gives back the pieces, provided no
      piece contains the separator. */
  lemma {:induction false} SplitJoin(parts: seq<string>, c: char)
    requires |parts| >= 1
    requires forall i :: 0 <= i < |parts| ==> c !in parts[i]
    ensures Split(Join(parts, c), c) == parts
    decreases |parts|
  {
    if |parts| == 1 {
      SplitNoSeparator(parts[0], c);
    } else {
      SplitJoin(parts[1..], c);
      SplitAtSeparator(parts[0], c, Join(parts[1..], c));
      assert [parts[0]] + parts[1..] == parts;
    }
  }

  /** Joining the pieces of a split on the same separator gives back the
      string. */
  lemma {:induction false} JoinSplit(s: string, c: char)
    ensures Join(Split(s, c), c) == s
    decreases |s|
  {
    if |s| > 0 {
      JoinSplit(s[1..], c);
      var rest := Split(s[1..], c);
      if s[0] == c {
        assert Split(s, c) == [""] + rest;
        assert ([""] + rest)[1..] == rest;
        assert [s[0]] + s[1..] == s;
      } else if |rest| == 1 {
        assert [s[0]] + s[1..] == s;
      } else {
        var parts := Split(s, c);
        assert parts[1..] == rest[1..];
        assert Join(rest, c) == rest[0] + [c] + Join(rest[1..], c);
        assert [s[0]] + s[1..] == s;
      }
    }
  }

  /** A string not starting with the separator has a first piece starting
      with the string's first character. */
  lemma SplitFirstPiece(s: string, c: char)
    requires |s| > 0 && s[0] != c
    ensures |Split(s, c)[0]| > 0 && Split(s, c)[0][0] == s[0]
  {
  }

  /** A string not ending with the separator has a non-empty last piece. */
  lemma {:induction false} SplitLastPiece(s: string, c: char)
    requires |s| > 0 && s[|s| - 1] != c
    ensures |Split(s, c)[|Split(s, c)| - 1]| > 0
    decreases |s|
  {
    if |s| > 1 {
      assert s[1..][|s[1..]| - 1] == s[|s| - 1];
      SplitLastPiece(s[1..], c);
    }
  }

  /** `s.startsWith(p)` */
  predicate StartsWith(s: string, p: string) {
    |p| <= |s| && s[..|p|] == p
  }

  /** `sub` occurs in `s` starting at index `i`. */
  predicate OccursAt(s: string, sub: string, i: int) {
    0 <= i <= |s| - |sub| && s[i..i + |sub|] == sub
  }

  /** `s.includes(sub)` */
  ghost predicate Includes(s: string, sub: string) {
    exists i :: OccursAt(s, sub, i)
  }

  /** The first occurrence of `sub` in `s` at or after `from`, or -1. */
  function IndexOf(s: string, sub: string, from: nat): (r: int)
    requires from <= |s|
    ensures r == -1 || (from <= r && OccursAt(s, sub, r))
    ensures r == -1 <==> forall i :: from <= i ==> !OccursAt(s, sub, i)
    decreases |s| - from
  {
    if |s| - from < |sub| then -1
    else if s[from..from + |sub|] == sub then from
    else if from == |s| then -1
    else IndexOf(s, sub, from + 1)
  }

  /** Executable `s.includes(sub)`. */
  function Contains(s: string, sub: string): (b: bool)
    ensures b <==> Includes(s, sub)
  {
    IndexOf(s, sub, 0) != -1
  }

  /** `c.toLowerCase()` for ASCII and Latin-1 letters. */
  function LowerChar(c: char): char {
    if 'A' <= c <= 'Z' || ('\U{00C0}' <= c <= '\U{00DE}' && c != '\U{00D7}') then
      (c as int + 32) as char
    else c
  }

  /** `c.toUpperCase()` for ASCII and Latin-1 letters. The two Latin-1
      letters whose capital lies outside Latin-1 map there: ÿ to Ÿ (U+0178)
      and µ to Greek capital mu (U+039C). ß, which upper-cases to the two
      letters "SS", stays as it is. */
  function UpperChar(c: char): char {
    if 'a' <= c <= 'z' || ('\U{00E0}' <= c <= '\U{00FE}' && c != '\U{00F7}') then
      (c as int - 32) as char
    else if c == '\U{00FF}' then '\U{0178}'
    else if c == '\U{00B5}' then '\U{039C}'
    else c
  }

  function ToLower(s: string): (r: string)
    ensures |r| == |s| && forall i :: 0 <= i < |s| ==> r[i] == LowerChar(s[i])
  {
    if |s| == 0 then "" else [LowerChar(s[0])] + ToLower(s[1..])
  }

  function ToUpper(s: string): (r: string)
    ensures |r| == |s| && forall i :: 0 <= i < |s| ==> r[i] == UpperChar(s[i])
  {
    if |s| == 0 then "" else [UpperChar(s[0])] + ToUpper(s[1..])
  }

  /** `s.length`: UTF-16 code units, two for a code point above U+FFFF. */
  function Utf16Length(s: string): (n: nat)
    ensures |s| <= n <= 2 * |s|
  {
    if |s| == 0 then 0
    else (if s[0] as int >= 0x10000 then 2 else 1) + Utf16Length(s[1..])
  }
}

=== FILE: ponto_analytics.dfy ===
/** The administrator's analytics page (apps/web/src/pages/PontoAnalytics.tsx):
    the hours-per-employee chart data built from the period's records. The
    page's `calcularHoras` and `getStatusLabel` are textual copies of the
    time-clock page's and the overview's (PontoPage, GestaoPontos). */
module PontoAnalytics {
  import opened Entities
  import opened JsMath
  import opened JsText
  import PontoService
  import Sorting

  /** A record counts only when it has both entrada and saida. */
  predicate Kept(p: Ponto) {
    p.entrada.Some? && p.saida.Some?
  }

  /** Whole minutes worked on a kept record, never negative. */
  function Minutes(p: Ponto): (r: nat)
    requires Kept(p)
    ensures r == ClampZero(PontoService.WorkedMs(p).value / 60000)
  {
    var ms := p.saida.value - p.entrada.value
      - (if p.almoco.Some? && p.retorno.Some? then p.retorno.value - p.almoco.value else 0);
    if ms / 60000 > 0 then ms / 60000 else 0
  }

  /** What a record adds to `u`'s total. */
  function Contribution(p: Ponto, u: Id): nat {
    if Kept(p) && p.userId == u then Minutes(p) else 0
  }

  /** Reference definition: the minutes of `u` over all of `s`. */
  function SumMinutes(s: seq<Ponto>, u: Id): nat
    decreases |s|
  {
    if |s| == 0 then 0 else SumMinutes(s[..|s| - 1], u) + Contribution(s[|s| - 1], u)
  }

  /** `name.split(' ')[0]` */
  function FirstName(name: string): string {
    Split(name, ' ')[0]
  }

  datatype Bucket = Bucket(userId: Id, nome: string, minutos: nat)

  function BucketOf(buckets: seq<Bucket>, u: Id): (r: int)
    ensures -1 <= r < |buckets|
    ensures r >= 0 ==> buckets[r].userId == u
    ensures r == -1 <==> forall i :: 0 <= i < |buckets| ==> buckets[i].userId != u
    decreases |buckets|
  {
    if |buckets| == 0 then -1
    else if buckets[|buckets| - 1].userId == u then |buckets| - 1
    else BucketOf(buckets[..|buckets| - 1], u)
  }

  predicate HasBucket(buckets: seq<Bucket>, u: Id) {
    BucketOf(buckets, u) >= 0
  }

  /** Some record of `s` for `u` has both entrada and saida. */
  predicate HasKept(s: seq<Ponto>, u: Id) {
    exists k :: 0 <= k < |s| && Kept(s[k]) && s[k].userId == u
  }

  predicate DistinctUsers(buckets: seq<Bucket>) {
    forall i, j :: 0 <= i < j < |buckets| ==> buckets[i].userId != buckets[j].userId
  }

  /** Changing a bucket but not its user moves no lookup. */
  lemma {:induction false} BucketOfUpdate(buckets: seq<Bucket>, i: nat, b: Bucket, u: Id)
    requires i < |buckets| && b.userId == buckets[i].userId
    ensures BucketOf(buckets[i := b], u) == BucketOf(buckets, u)
    decreases |buckets|
  {
    var n := |buckets|;
    assert buckets[i := b][n - 1].userId == buckets[n - 1].userId;
    if buckets[n - 1].userId != u {
      if i < n - 1 {
        UpdateBeforeLast(buckets, i, b);
        BucketOfUpdate(buckets[..n - 1], i, b, u);
      } else {
        assert buckets[i := b][..n - 1] == buckets[..n - 1];
      }
    }
  }

  /** Updating a bucket before the last one updates the front. */
  lemma UpdateBeforeLast(buckets: seq<Bucket>, i: nat, b: Bucket)
    requires i < |buckets| - 1
    ensures buckets[i := b][..|buckets| - 1] == buckets[..|buckets| - 1][i := b]
  {
  }

  /** A bucket appended at the end is found only for its own user and only
      when no earlier one is. */
  lemma BucketOfAppend(buckets: seq<Bucket>, b: Bucket, u: Id)
    ensures HasBucket(buckets + [b], u) <==> HasBucket(buckets, u) || b.userId == u
  {
    assert (buckets + [b])[..|buckets|] == buckets;
  }

  /** One turn of the loop: skip, add to the user's bucket, or open one. */
  function AddRecord(buckets: seq<Bucket>, p: Ponto, nameOf: Id -> string): (r: seq<Bucket>)
    ensures forall u :: HasBucket(r, u) <==> HasBucket(buckets, u) || (Kept(p) && p.userId == u)
    ensures |buckets| <= |r| <= |buckets| + 1
    ensures forall i :: 0 <= i < |buckets| ==> r[i].userId == buckets[i].userId && r[i].nome == buckets[i].nome
    ensures |r| > |buckets| ==> Kept(p) && !HasBucket(buckets, p.userId)
    ensures |r| > |buckets| ==> r[|buckets|] == Bucket(p.userId, FirstName(nameOf(p.userId)), Minutes(p))
    ensures DistinctUsers(buckets) ==> DistinctUsers(r)
    ensures DistinctUsers(buckets) ==>
      forall i :: 0 <= i < |buckets| ==> r[i].minutos == buckets[i].minutos + Contribution(p, r[i].userId)
  {
    if !Kept(p) then buckets
    else
      var i := BucketOf(buckets, p.userId);
      if i >= 0 then
        var b := buckets[i].(minutos := buckets[i].minutos + Minutes(p));
        forall u ensures BucketOf(buckets[i := b], u) == BucketOf(buckets, u) {
          BucketOfUpdate(buckets, i, b, u);
        }
        buckets[i := b]
      else
        var b := Bucket(p.userId, FirstName(nameOf(p.userId)), Minutes(p));
        forall u ensures HasBucket(buckets + [b], u) <==> HasBucket(buckets, u) || b.userId == u {
          BucketOfAppend(buckets, b, u);
        }
        buckets + [b]
  }

  /** Appending a record adds its contribution to every total. */
  lemma SumStep(front: seq<Ponto>, p: Ponto, u: Id)
    ensures SumMinutes(front + [p], u) == SumMinutes(front, u) + Contribution(p, u)
  {
    assert (front + [p])[..|front|] == front;
  }

  lemma HasKeptStep(front: seq<Ponto>, p: Ponto, u: Id)
    ensures HasKept(front + [p], u) <==> HasKept(front, u) || (Kept(p) && p.userId == u)
  {
    var s := front + [p];
    if HasKept(front, u) {
      var k :| 0 <= k < |front| && Kept(front[k]) && front[k].userId == u;
      assert s[k] == front[k];
    }
    if Kept(p) && p.userId == u {
      assert s[|front|] == p;
    }
    if HasKept(s, u) {
      var k :| 0 <= k < |s| && Kept(s[k]) && s[k].userId == u;
      if k < |front| { assert s[k] == front[k]; }
    }
  }

  /** The map after the loop, in insertion order: one bucket per user with a
      kept record, carrying the user's first name and the sum of their
      minutes. */
  function Group(pontos: seq<Ponto>, nameOf: Id -> string): (r: seq<Bucket>)
    ensures DistinctUsers(r)
    ensures forall i :: 0 <= i < |r| ==> r[i].minutos == SumMinutes(pontos, r[i].userId)
    ensures forall i :: 0 <= i < |r| ==> r[i].nome == FirstName(nameOf(r[i].userId))
    ensures forall u :: HasBucket(r, u) <==> HasKept(pontos, u)
    decreases |pontos|
  {
    if |pontos| == 0 then []
    else
      var front := pontos[..|pontos| - 1];
      var p := pontos[|pontos| - 1];
      assert pontos == front + [p];
      var g := Group(front, nameOf);
      GroupStep(g, front, p, nameOf);
      AddRecord(g, p, nameOf)
  }

  /** What `Group` promises about `r` for the records `pontos`. */
  ghost predicate Grouped(r: seq<Bucket>, pontos: seq<Ponto>, nameOf: Id -> string) {
    && DistinctUsers(r)
    && (forall i :: 0 <= i < |r| ==> r[i].minutos == SumMinutes(pontos, r[i].userId))
    && (forall i :: 0 <= i < |r| ==> r[i].nome == FirstName(nameOf(r[i].userId)))
    && (forall u :: HasBucket(r, u) <==> HasKept(pontos, u))
  }

  /** One turn of the loop keeps the buckets right for one more record. */
  lemma GroupStep(g: seq<Bucket>, front: seq<Ponto>, p: Ponto, nameOf: Id -> string)
    requires Grouped(g, front, nameOf)
    ensures Grouped(AddRecord(g, p, nameOf), front + [p], nameOf)
  {
    GroupStepMinutes(g, front, p, nameOf);
    GroupStepCover(g, front, p, nameOf);
  }

  lemma GroupStepMinutes(g: seq<Bucket>, front: seq<Ponto>, p: Ponto, nameOf: Id -> string)
    requires Grouped(g, front, nameOf)
    ensures var r := AddRecord(g, p, nameOf);
      forall i :: 0 <= i < |r| ==> r[i].minutos == SumMinutes(front + [p], r[i].userId)
  {
    forall u ensures SumMinutes(front + [p], u) == SumMinutes(front, u) + Contribution(p, u) {
      SumStep(front, p, u);
    }
    NoKeptNoMinutes(front, p.userId);
  }

  lemma GroupStepCover(g: seq<Bucket>, front: seq<Ponto>, p: Ponto, nameOf: Id -> string)
    requires Grouped(g, front, nameOf)
    ensures forall u :: HasBucket(AddRecord(g, p, nameOf), u) <==> HasKept(front + [p], u)
  {
    forall u ensures HasKept(front + [p], u) <==> HasKept(front, u) || (Kept(p) && p.userId == u) {
      HasKeptStep(front, p, u);
    }
  }

  /** A bar of the chart: the first name and the hours in tenths. */
  datatype Bar = Bar(nome: string, decimos: int)

  function ToBar(b: Bucket): Bar {
    Bar(b.nome, RoundDiv(b.minutos, 6))
  }

  function NegDecimos(b: Bar): int {
    -b.decimos
  }

  function Bars(g: seq<Bucket>): (r: seq<Bar>)
    ensures |r| == |g| && forall i :: 0 <= i < |g| ==> r[i] == ToBar(g[i])
  {
    seq(|g|, i requires 0 <= i < |g| => ToBar(g[i]))
  }

  /** `horasPorFunc`: the buckets as bars, most hours first. */
  function HorasPorFunc(pontos: seq<Ponto>, nameOf: Id -> string): (r: seq<Bar>)
    ensures forall i, j :: 0 <= i < j < |r| ==> r[i].decimos >= r[j].decimos
    ensures multiset(r) == multiset(Bars(Group(pontos, nameOf)))
  {
    var r := Sorting.SortBy(Bars(Group(pontos, nameOf)), NegDecimos);
    assert forall i, j :: 0 <= i < j < |r| ==> NegDecimos(r[i]) <= NegDecimos(r[j]);
    r
  }

  /** A bar is its minutes rounded to the nearest tenth of an hour (six
      minutes), halves up. */
  lemma BarRoundsToTenths(b: Bucket)
    ensures 6 * ToBar(b).decimos - 3 <= b.minutos < 6 * ToBar(b).decimos + 3
  {
  }

  /** A user without a kept record has no minutes. */
  lemma {:induction false} NoKeptNoMinutes(s: seq<Ponto>, u: Id)
    ensures !HasKept(s, u) ==> SumMinutes(s, u) == 0
    decreases |s|
  {
    if |s| > 0 && !HasKept(s, u) {
      var front := s[..|s| - 1];
      assert s == front + [s[|s| - 1]];
      HasKeptStep(front, s[|s| - 1], u);
      NoKeptNoMinutes(front, u);
    }
  }
}

=== FILE: ponto_page.dfy ===
/** The employee's time-clock page (apps/web/src/pages/Ponto.tsx): its copy of
    the worked-hours formula, the record status, the punch button and the
    "working now" badge. */
module PontoPage {
  import opened Wrappers
  import opened Entities
  import opened JsMath
  import opened JsText
  import opened PontoService

  /** The page's own `calcularHoras(ponto)`. */
  function CalcularHoras(p: Ponto): (r: Option<string>)
    ensures r.None? <==> p.entrada.None? || p.saida.None?
  {
    if p.entrada.None? || p.saida.None? then None
    else
      var lunch := if p.almoco.Some? && p.retorno.Some? then p.retorno.value - p.almoco.value else 0;
      var totalMinutes := (p.saida.value - p.entrada.value - lunch) / 60000;
      Some(IntToString(totalMinutes / 60) + "h" + PadStart(IntToString(JsRem(totalMinutes, 60)), 2, '0') + "m")
  }

  /** The page and the server report the same hours for every record. */
  lemma CalcularHorasMatchesServer(p: Ponto)
    ensures CalcularHoras(p) == PontoService.CalcularHoras(p)
  {
    if p.entrada.Some? && p.saida.Some? {
      var lunch := if p.almoco.Some? && p.retorno.Some? then p.retorno.value - p.almoco.value else 0;
      var ms := p.saida.value - p.entrada.value - lunch;
      assert WorkedMs(p).value == ms;
      assert CalcularHoras(p) == Some(FormatHoras(ms));
    }
  }

  datatype PontoStatus = Completo | Parcial | Falta

  /** `getPontoStatusLabel(p)` */
  function GetPontoStatusLabel(p: Ponto): (r: PontoStatus)
    ensures r == Completo <==> p.saida.Some?
    ensures r == Parcial <==> p.entrada.Some? && p.saida.None?
    ensures r == Falta <==> p.entrada.None? && p.saida.None?
  {
    if p.saida.Some? then Completo
    else if p.entrada.Some? then Parcial
    else Falta
  }

  /** On a record whose punches form a prefix, "Completo" is a full day and
      "Falta" an empty one. */
  lemma StatusOnPrefixRecords(p: Ponto)
    requires PrefixFilled(p)
    ensures GetPontoStatusLabel(p) == Completo <==> AllFilled(p)
    ensures GetPontoStatusLabel(p) == Falta <==> FilledCount(p) == 0
  {
  }

  /** The button text for the punch that fills `s`. */
  function SlotButtonLabel(s: Slot): string {
    match s
    case Entrada => "Registrar Entrada"
    case Almoco => "Saída para Almoço"
    case Retorno => "Retorno do Almoço"
    case Saida => "Registrar Saída"
  }

  const ExpedienteEncerrado: string := "Expediente Encerrado"

  datatype ButtonState = ButtonState(text: string, disabled: bool)

  /** `getButtonState(pontoHoje)`: the button announces the slot the next punch
      fills, in the server's order, and is disabled once all four are set. */
  function GetButtonState(hoje: Option<Ponto>): (r: ButtonState)
    ensures hoje.None? ==> r == ButtonState(SlotButtonLabel(Entrada), false)
    ensures hoje.Some? ==> (r.disabled <==> AllFilled(hoje.value))
    ensures hoje.Some? && NextSlot(hoje.value).Some? ==> r.text == SlotButtonLabel(NextSlot(hoje.value).value)
    ensures hoje.Some? && AllFilled(hoje.value) ==> r.text == ExpedienteEncerrado
  {
    if hoje.None? || hoje.value.entrada.None? then ButtonState("Registrar Entrada", false)
    else if hoje.value.almoco.None? then ButtonState("Saída para Almoço", false)
    else if hoje.value.retorno.None? then ButtonState("Retorno do Almoço", false)
    else if hoje.value.saida.None? then ButtonState("Registrar Saída", false)
    else ButtonState(ExpedienteEncerrado, true)
  }

  /** The button announces exactly the punch the server then records. */
  lemma ButtonAnnouncesNextPunch(store: seq<Ponto>, userId: Id, today: Day, now: Timestamp, freshId: Id)
    requires FindDaily(store, userId, today).Some?
    requires !GetButtonState(Some(store[FindDaily(store, userId, today).value])).disabled
    ensures var before := store[FindDaily(store, userId, today).value];
      var r := BaterPonto(store, userId, today, now, freshId);
      && r.result.Success?
      && exists s :: SlotButtonLabel(s) == GetButtonState(Some(before)).text
                     && SlotValue(before, s).None? && SlotValue(r.result.value, s) == Some(now)
  {
    var before := store[FindDaily(store, userId, today).value];
    var s := NextSlot(before).value;
    assert SlotButtonLabel(s) == GetButtonState(Some(before)).text;
  }

  datatype WorkingStatus = Encerrado | Trabalhando | NoAlmoco

  /** `getWorkingStatus(pontoHoje)` */
  function GetWorkingStatus(hoje: Option<Ponto>): (r: Option<WorkingStatus>)
    ensures r.None? <==> hoje.None? || hoje.value.entrada.None?
    ensures r == Some(Encerrado) <==> hoje.Some? && hoje.value.entrada.Some? && hoje.value.saida.Some?
    ensures r == Some(NoAlmoco) <==>
      hoje.Some? && hoje.value.entrada.Some? && hoje.value.saida.None?
      && hoje.value.retorno.None? && hoje.value.almoco.Some?
  {
    if hoje.None? || hoje.value.entrada.None? then None
    else if hoje.value.saida.Some? then Some(Encerrado)
    else if hoje.value.retorno.Some? then Some(Trabalhando)
    else if hoje.value.almoco.Some? then Some(NoAlmoco)
    else Some(Trabalhando)
  }

  /** `fmtTime(dateStr)`; `hhmm` is the browser's local "HH:mm" rendering. */
  function FmtTime(t: Option<Timestamp>, hhmm: Timestamp -> string): (r: string)
    ensures t.None? ==> r == "—"
    ensures t.Some? ==> r == hhmm(t.value)
  {
    match t
    case None => "—"
    case Some(v) => hhmm(v)
  }
}

=== FILE: ponto_service.dfy ===
/** The time-clock service (apps/api/src/services/ponto.service.ts): the
    four-punch state machine, the worked-hours formula and the report. The
    clock and "today" are parameters; the table of records is a sequence. */
module PontoService {
  import opened Wrappers
  import opened Entities
  import opened ErrorHandler
  import opened JsMath
  import opened JsText
  import Seqs
  import Sorting

  /** The four punches of a day, in the order they are taken. */
  datatype Slot = Entrada | Almoco | Retorno | Saida

  function SlotIndex(s: Slot): nat {
    match s
    case Entrada => 0
    case Almoco => 1
    case Retorno => 2
    case Saida => 3
  }

  function SlotValue(p: Ponto, s: Slot): Option<Timestamp> {
    match s
    case Entrada => p.entrada
    case Almoco => p.almoco
    case Retorno => p.retorno
    case Saida => p.saida
  }

  /** Same row, same owner, same day, same auto-close flag. */
  predicate SameIdentity(a: Ponto, b: Ponto) {
    a.id == b.id && a.userId == b.userId && a.date == b.date
    && a.encerramentoAutomatico == b.encerramentoAutomatico
  }

  function SetSlot(p: Ponto, s: Slot, t: Timestamp): (q: Ponto)
    ensures SlotValue(q, s) == Some(t)
    ensures forall o :: o != s ==> SlotValue(q, o) == SlotValue(p, o)
    ensures SameIdentity(p, q)
  {
    match s
    case Entrada => p.(entrada := Some(t))
    case Almoco => p.(almoco := Some(t))
    case Retorno => p.(retorno := Some(t))
    case Saida => p.(saida := Some(t))
  }

  /** The slot the next punch fills: the first empty one in the fixed order. */
  function NextSlot(p: Ponto): (r: Option<Slot>)
    ensures r.None? <==> AllFilled(p)
    ensures r.Some? ==> SlotValue(p, r.value).None?
    ensures r.Some? ==> forall s :: SlotIndex(s) < SlotIndex(r.value) ==> SlotValue(p, s).Some?
  {
    if p.entrada.None? then Some(Entrada)
    else if p.almoco.None? then Some(Almoco)
    else if p.retorno.None? then Some(Retorno)
    else if p.saida.None? then Some(Saida)
    else None
  }

  predicate AllFilled(p: Ponto) {
    p.entrada.Some? && p.almoco.Some? && p.retorno.Some? && p.saida.Some?
  }

  /** The filled punches form a prefix of entrada, almoco, retorno, saida. */
  predicate PrefixFilled(p: Ponto) {
    (p.almoco.Some? ==> p.entrada.Some?)
    && (p.retorno.Some? ==> p.almoco.Some?)
    && (p.saida.Some? ==> p.retorno.Some?)
  }

  function FilledCount(p: Ponto): nat {
    (if p.entrada.Some? then 1 else 0) + (if p.almoco.Some? then 1 else 0)
    + (if p.retorno.Some? then 1 else 0) + (if p.saida.Some? then 1 else 0)
  }

  predicate IsDaily(p: Ponto, userId: Id, day: Day) {
    p.userId == userId && p.date == day
  }

  /** At most one record per user and day (the `userId_date` unique key). */
  ghost predicate UniqueDaily(store: seq<Ponto>) {
    forall i, j :: 0 <= i < j < |store| ==>
      !IsDaily(store[j], store[i].userId, store[i].date)
  }

  /** `findUnique({ userId_date })`: the position of the user's record for the day. */
  function FindDaily(store: seq<Ponto>, userId: Id, day: Day): (r: Option<nat>)
    ensures r.Some? ==> r.value < |store| && IsDaily(store[r.value], userId, day)
    ensures r.None? <==> forall i :: 0 <= i < |store| ==> !IsDaily(store[i], userId, day)
  {
    FindDailyFrom(store, userId, day, 0)
  }

  function FindDailyFrom(store: seq<Ponto>, userId: Id, day: Day, from: nat): (r: Option<nat>)
    requires from <= |store|
    ensures r.Some? ==> from <= r.value < |store| && IsDaily(store[r.value], userId, day)
    ensures r.None? <==> forall i :: from <= i < |store| ==> !IsDaily(store[i], userId, day)
    decreases |store| - from
  {
    if from == |store| then None
    else if IsDaily(store[from], userId, day) then Some(from)
    else FindDailyFrom(store, userId, day, from + 1)
  }

  const JornadaEncerrada: string := "Jornada do dia já encerrada"

  /** The table after a punch, and the record returned or the error thrown. */
  datatype Punch = Punch(store: seq<Ponto>, result: Result<Ponto, AppError>)

  /** The first punch of the day: a new record holding only `entrada`. */
  function FirstPunch(freshId: Id, userId: Id, today: Day, now: Timestamp): Ponto {
    Ponto(freshId, userId, today, Some(now), None, None, None, false)
  }

  /** `baterPonto(userId)` at time `now` on civil day `today`; `freshId` is the
      id the data-access layer gives a newly created record. */
  function BaterPonto(store: seq<Ponto>, userId: Id, today: Day, now: Timestamp, freshId: Id): (r: Punch)
    ensures FindDaily(store, userId, today).None? ==>
      && r.result.Success?
      && r.store == store + [r.result.value]
      && r.result.value.entrada == Some(now)
      && r.result.value.almoco.None? && r.result.value.retorno.None? && r.result.value.saida.None?
      && IsDaily(r.result.value, userId, today)
    ensures r.result.Failure? ==>
      && r.store == store
      && r.result.error == HttpError(JornadaEncerrada, 400)
    ensures FindDaily(store, userId, today).Some? ==>
      var i := FindDaily(store, userId, today).value;
      && (r.result.Failure? <==> NextSlot(store[i]).None?)
      && (r.result.Success? ==>
            && |r.store| == |store|
            && r.store[i] == r.result.value
            && (forall j :: 0 <= j < |store| && j != i ==> r.store[j] == store[j])
            && FillsFirstEmpty(store[i], r.result.value, now))
  {
    match FindDaily(store, userId, today)
    case None =>
      var p := FirstPunch(freshId, userId, today, now);
      Punch(store + [p], Success(p))
    case Some(i) =>
      match NextSlot(store[i])
      case None => Punch(store, Failure(HttpError(JornadaEncerrada, 400)))
      case Some(s) =>
        var p := SetSlot(store[i], s, now);
        Punch(store[i := p], Success(p))
  }

  /** `after` is `before` with exactly its first empty punch set to `now`. */
  predicate FillsFirstEmpty(before: Ponto, after: Ponto, now: Timestamp) {
    && NextSlot(before).Some?
    && SlotValue(after, NextSlot(before).value) == Some(now)
    && (forall o :: o != NextSlot(before).value ==> SlotValue(after, o) == SlotValue(before, o))
    && SameIdentity(before, after)
  }

  /** A punch never creates a second record for the same user and day. */
  lemma BaterPontoKeepsUniqueDaily(store: seq<Ponto>, userId: Id, today: Day, now: Timestamp, freshId: Id)
    requires UniqueDaily(store)
    ensures UniqueDaily(BaterPonto(store, userId, today, now, freshId).store)
  {
    var r := BaterPonto(store, userId, today, now, freshId);
    if FindDaily(store, userId, today).None? {
      forall i, j | 0 <= i < j < |r.store|
        ensures !IsDaily(r.store[j], r.store[i].userId, r.store[i].date)
      {
        if j == |store| {
          assert !IsDaily(store[i], userId, today);
        }
      }
    }
  }

  /** On a record whose punches form a prefix, a punch adds the next one, so
      the prefix shape is kept and one more slot is filled. */
  lemma BaterPontoKeepsPrefix(store: seq<Ponto>, userId: Id, today: Day, now: Timestamp, freshId: Id)
    requires forall i :: 0 <= i < |store| ==> PrefixFilled(store[i])
    ensures var r := BaterPonto(store, userId, today, now, freshId);
      && (forall i :: 0 <= i < |r.store| ==> PrefixFilled(r.store[i]))
      && (r.result.Success? && FindDaily(store, userId, today).Some? ==>
            FilledCount(r.result.value) == FilledCount(store[FindDaily(store, userId, today).value]) + 1)
  {
  }

  // ----- worked hours -----

  /** `saida − entrada − (retorno − almoco)`, the lunch break counted only when
      both of its punches exist; absent without `entrada` and `saida`. */
  function WorkedMs(p: Ponto): (r: Option<int>)
    ensures r.None? <==> p.entrada.None? || p.saida.None?
    ensures r.Some? && (p.almoco.None? || p.retorno.None?) ==>
      r.value == p.saida.value - p.entrada.value
    ensures r.Some? && p.almoco.Some? && p.retorno.Some? ==>
      r.value == (p.saida.value - p.entrada.value) - (p.retorno.value - p.almoco.value)
  {
    if p.entrada.None? || p.saida.None? then None
    else
      var total := p.saida.value - p.entrada.value;
      if p.almoco.Some? && p.retorno.Some? then Some(total - (p.retorno.value - p.almoco.value))
      else Some(total)
  }

  /** `${Math.floor(totalMinutes / 60)}h${(totalMinutes % 60).padStart(2, '0')}m`
      with `totalMinutes = Math.floor(totalMs / 60000)`. */
  function FormatHoras(totalMs: int): string {
    var totalMinutes := totalMs / 60000;
    var hours := totalMinutes / 60;
    var minutes := JsRem(totalMinutes, 60);
    IntToString(hours) + "h" + PadStart(IntToString(minutes), 2, '0') + "m"
  }

  /** `calcularHoras(ponto)` */
  function CalcularHoras(p: Ponto): (r: Option<string>)
    ensures r.None? <==> p.entrada.None? || p.saida.None?
  {
    match WorkedMs(p)
    case None => None
    case Some(ms) => Some(FormatHoras(ms))
  }

  /** For a non-negative duration the text reads back as whole hours `h`, the
      letter h, two digits `m` and the letter m, with `h * 60 + m` the whole
      minutes worked and `m` below 60. */
  lemma FormatHorasReadsBack(totalMs: int)
    requires totalMs >= 0
    ensures var s := FormatHoras(totalMs);
      var k := |s| - 4;
      && k >= 1 && AllDigits(s[..k]) && s[k] == 'h'
      && AllDigits(s[k + 1..k + 3]) && s[k + 3] == 'm'
      && DigitsValue(s[k + 1..k + 3]) < 60
      && DigitsValue(s[..k]) * 60 + DigitsValue(s[k + 1..k + 3]) == totalMs / 60000
  {
    var totalMinutes := totalMs / 60000;
    var hours := totalMinutes / 60;
    var minutes := JsRem(totalMinutes, 60);
    assert minutes == totalMinutes % 60;
    var hs := NatToString(hours);
    var ms := PadStart(IntToString(minutes), 2, '0');
    PadTwoDigits(minutes);
    NatToStringRoundTrip(hours);
    assert FormatHoras(totalMs) == hs + "h" + ms + "m";
    HoursMinutesParts(hs, ms);
  }

  /** Where the hours and the minutes sit in "<hours>h<mm>m". */
  lemma HoursMinutesParts(hs: string, ms: string)
    requires |hs| >= 1 && |ms| == 2
    ensures var s := hs + "h" + ms + "m";
      var k := |s| - 4;
      k == |hs| && s[..k] == hs && s[k] == 'h' && s[k + 1..k + 3] == ms && s[k + 3] == 'm'
  {
  }

  /** For a negative duration the minute part keeps the sign of the total:
      thirty minutes of clock skew reads "-1h-30m". */
  lemma NegativeHalfHour()
    ensures FormatHoras(-30 * 60000) == "-1h-30m"
  {
    var totalMinutes := -30 * 60000 / 60000;
    assert totalMinutes == -30;
    assert totalMinutes / 60 == -1;
    assert JsRem(-30, 60) == -30;
    assert NatToString(3) == "3";
    assert NatToString(30) == NatToString(3) + "0";
    assert IntToString(-30) == "-30";
    assert PadStart("-30", 2, '0') == "-30";
    assert NatToString(1) == "1";
    assert IntToString(-1) == "-1";
  }

  /** The worked example: 08:00, 12:00, 13:00 and 17:30 give "8h30m"; without
      the lunch punches the same day gives "9h30m". */
  lemma WorkedDayExample(p: Ponto)
    requires p.entrada == Some(8 * 3600000) && p.almoco == Some(12 * 3600000)
    requires p.retorno == Some(13 * 3600000) && p.saida == Some(17 * 3600000 + 30 * 60000)
    ensures CalcularHoras(p) == Some("8h30m")
    ensures CalcularHoras(p.(almoco := None, retorno := None)) == Some("9h30m")
  {
    assert WorkedMs(p) == Some(510 * 60000);
    EightHoursThirty();
    assert WorkedMs(p.(almoco := None, retorno := None)) == Some(570 * 60000);
    NineHoursThirty();
  }

  lemma EightHoursThirty()
    ensures FormatHoras(510 * 60000) == "8h30m"
  {
    assert 510 * 60000 / 60000 == 510;
    ThirtyMinutesText();
    assert JsRem(510, 60) == 30;
    assert IntToString(8) == "8" by { assert NatToString(8) == "8"; }
  }

  lemma NineHoursThirty()
    ensures FormatHoras(570 * 60000) == "9h30m"
  {
    assert 570 * 60000 / 60000 == 570;
    ThirtyMinutesText();
    assert JsRem(570, 60) == 30;
    assert IntToString(9) == "9" by { assert NatToString(9) == "9"; }
  }

  lemma ThirtyMinutesText()
    ensures PadStart(IntToString(30), 2, '0') == "30"
  {
    assert NatToString(3) == "3";
    assert NatToString(30) == NatToString(3) + "0";
    assert PadStart("30", 2, '0') == "30";
  }

  // ----- report -----

  /** The user a report is restricted to: an ADMIN gets the requested user (or
      everyone), anybody else only themselves. */
  function ReportScope(role: Role, requestUserId: Id, userId: Option<Id>): (r: Option<Id>)
    ensures role != ADMIN ==> r == Some(requestUserId)
    ensures role == ADMIN ==> r == userId
  {
    if role == ADMIN then userId else Some(requestUserId)
  }

  predicate InReport(p: Ponto, scope: Option<Id>, startDay: Day, endDay: Day) {
    (scope.None? || p.userId == scope.value) && startDay <= p.date <= endDay
  }

  datatype RelatorioRow = RelatorioRow(ponto: Ponto, horasTrabalhadas: Option<string>)

  function DateKey(p: Ponto): int {
    p.date
  }

  /** The records in the scope and the day range, by ascending date. */
  function ReportRecords(store: seq<Ponto>, scope: Option<Id>, startDay: Day, endDay: Day): (r: seq<Ponto>)
    ensures forall i :: 0 <= i < |r| ==> InReport(r[i], scope, startDay, endDay)
    ensures forall i, j :: 0 <= i < j < |r| ==> r[i].date <= r[j].date
    ensures multiset(r) == multiset(Seqs.Filter(store, p => InReport(p, scope, startDay, endDay)))
  {
    var found := Seqs.Filter(store, p => InReport(p, scope, startDay, endDay));
    var sorted := Sorting.SortBy(found, DateKey);
    forall i | 0 <= i < |sorted|
      ensures InReport(sorted[i], scope, startDay, endDay)
    {
      assert sorted[i] in multiset(found);
    }
    assert Sorting.SortedBy(sorted, DateKey);
    sorted
  }

  /** `getRelatorio`: the records in the scope and the day range, by ascending
      date, each with its worked hours. */
  function GetRelatorio(store: seq<Ponto>, userId: Option<Id>, startDay: Day, endDay: Day,
                        requestUserId: Id, role: Role): (r: seq<RelatorioRow>)
    ensures forall i :: 0 <= i < |r| ==> r[i].horasTrabalhadas == CalcularHoras(r[i].ponto)
    ensures forall i :: 0 <= i < |r| ==> startDay <= r[i].ponto.date <= endDay
    ensures role != ADMIN ==> forall i :: 0 <= i < |r| ==> r[i].ponto.userId == requestUserId
    ensures role == ADMIN && userId.Some? ==> forall i :: 0 <= i < |r| ==> r[i].ponto.userId == userId.value
    ensures forall i, j :: 0 <= i < j < |r| ==> r[i].ponto.date <= r[j].ponto.date
    ensures RowPontos(r) == ReportRecords(store, ReportScope(role, requestUserId, userId), startDay, endDay)
  {
    var records := ReportRecords(store, ReportScope(role, requestUserId, userId), startDay, endDay);
    var r := WithHoras(records);
    assert RowPontos(r) == records;
    r
  }

  /** Each record with its worked hours. */
  function WithHoras(records: seq<Ponto>): (r: seq<RelatorioRow>)
    ensures |r| == |records|
    ensures forall i :: 0 <= i < |r| ==> r[i] == RelatorioRow(records[i], CalcularHoras(records[i]))
  {
    seq(|records|, i requires 0 <= i < |records| => RelatorioRow(records[i], CalcularHoras(records[i])))
  }

  function RowPontos(rows: seq<RelatorioRow>): (ps: seq<Ponto>)
    ensures |ps| == |rows| && forall i :: 0 <= i < |rows| ==> ps[i] == rows[i].ponto
  {
    seq(|rows|, i requires 0 <= i < |rows| => rows[i].ponto)
  }
}

=== FILE: seqs.dfy ===
/** `Array.prototype.filter` and the counting built on it. */
module Seqs {
  import opened Wrappers

  /** `s.filter(f)` */
  function Filter<T(==)>(s: seq<T>, f: T -> bool): (r: seq<T>)
    ensures |r| <= |s|
    ensures forall i :: 0 <= i < |r| ==> f(r[i]) && r[i] in s
    ensures forall i :: 0 <= i < |s| && f(s[i]) ==> s[i] in r
    decreases |s|
  {
    if |s| == 0 then []
    else (if f(s[0]) then [s[0]] else []) + Filter(s[1..], f)
  }

  /** `s.findIndex(f)`, with `None` for -1: the first position passing `f`. */
  function FindIndex<T>(s: seq<T>, f: T -> bool): (r: Option<nat>)
    ensures r.Some? ==> r.value < |s| && f(s[r.value])
    ensures r.Some? ==> forall j :: 0 <= j < r.value ==> !f(s[j])
    ensures r.None? <==> forall i :: 0 <= i < |s| ==> !f(s[i])
  {
    if |s| == 0 then None
    else if f(s[0]) then Some(0)
    else match FindIndex(s[1..], f)
      case None => None
      case Some(k) => Some(k + 1)
  }

  /** `s.filter(f).length` */
  function Count<T(==)>(s: seq<T>, f: T -> bool): nat {
    |Filter(s, f)|
  }

  /** The positions of `s` holding an element that passes `f`. */
  function Positions<T>(s: seq<T>, f: T -> bool): (r: set<nat>)
    ensures forall i: nat :: i in r <==> i < |s| && f(s[i])
  {
    set i: nat | i < |s| && f(s[i])
  }

  /** `s.filter(f).length` is the number of positions that pass `f`. */
  lemma {:induction false} CountIsPositions<T>(s: seq<T>, f: T -> bool)
    ensures Count(s, f) == |Positions(s, f)|
    decreases |s|
  {
    if |s| > 0 {
      var n := |s| - 1;
      var init := s[..n];
      CountIsPositions(init, f);
      assert s == init + [s[n]];
      FilterSnoc(init, s[n], f);
      PositionsSnoc(init, s[n], f);
    }
  }

  /** One more element adds its own position when it passes `f`. */
  lemma PositionsSnoc<T>(init: seq<T>, x: T, f: T -> bool)
    ensures |Positions(init + [x], f)| == |Positions(init, f)| + (if f(x) then 1 else 0)
  {
    var s := init + [x];
    var n := |init|;
    var before := Positions(init, f);
    var last: set<nat> := if f(x) then {n} else {};
    forall i: nat
      ensures i in Positions(s, f) <==> i in before + last
    {
      if i < n {
        assert s[i] == init[i];
      }
    }
    assert Positions(s, f) == before + last;
    assert before !! last;
  }

  /** Counting `g` among the elements that pass `f` counts the positions
      passing both. */
  lemma {:induction false} CountOfFiltered<T>(s: seq<T>, f: T -> bool, g: T -> bool)
    ensures Count(Filter(s, f), g) == |PositionsBoth(s, f, g)|
    decreases |s|
  {
    if |s| > 0 {
      var n := |s| - 1;
      var init := s[..n];
      CountOfFiltered(init, f, g);
      assert s == init + [s[n]];
      FilterSnoc(init, s[n], f);
      FilterAppend(Filter(init, f), if f(s[n]) then [s[n]] else [], g);
      if f(s[n]) {
        FilterSnoc([], s[n], g);
        assert [] + [s[n]] == [s[n]];
      }
      BothSnoc(init, s[n], f, g);
    }
  }

  lemma FilterSnoc<T>(init: seq<T>, x: T, f: T -> bool)
    ensures Filter(init + [x], f) == Filter(init, f) + (if f(x) then [x] else [])
  {
    FilterAppend(init, [x], f);
    assert [x][1..] == [];
    assert Filter([x], f) == (if f(x) then [x] else []) + Filter([x][1..], f);
  }

  /** The positions of `s` holding an element that passes both `f` and `g`. */
  function PositionsBoth<T>(s: seq<T>, f: T -> bool, g: T -> bool): (r: set<nat>)
    ensures forall i: nat :: i in r <==> i < |s| && f(s[i]) && g(s[i])
  {
    set i: nat | i < |s| && f(s[i]) && g(s[i])
  }

  /** One more element adds its own position when it passes both tests. */
  lemma BothSnoc<T>(init: seq<T>, x: T, f: T -> bool, g: T -> bool)
    ensures |PositionsBoth(init + [x], f, g)| == |PositionsBoth(init, f, g)| + (if f(x) && g(x) then 1 else 0)
  {
    var s := init + [x];
    var n := |init|;
    var before := PositionsBoth(init, f, g);
    var last: set<nat> := if f(x) && g(x) then {n} else {};
    forall i: nat
      ensures i in PositionsBoth(s, f, g) <==> i in before + last
    {
      if i < n {
        assert s[i] == init[i];
      }
    }
    assert PositionsBoth(s, f, g) == before + last;
    assert before !! last;
  }

  lemma {:induction false} FilterAppend<T>(a: seq<T>, b: seq<T>, f: T -> bool)
    ensures Filter(a + b, f) == Filter(a, f) + Filter(b, f)
    decreases |a|
  {
    if |a| == 0 {
      assert a + b == b;
    } else {
      var t := a[1..];
      var head := if f(a[0]) then [a[0]] else [];
      calc {
        Filter(a + b, f);
        { assert a + b == [a[0]] + (t + b);
          FilterCons(a[0], t + b, f); }
        head + Filter(t + b, f);
        { FilterAppend(t, b, f); }
        head + (Filter(t, f) + Filter(b, f));
        (head + Filter(t, f)) + Filter(b, f);
        { assert a == [a[0]] + t;
          FilterCons(a[0], t, f); }
        Filter(a, f) + Filter(b, f);
      }
    }
  }

  lemma FilterCons<T>(x: T, s: seq<T>, f: T -> bool)
    ensures Filter([x] + s, f) == (if f(x) then [x] else []) + Filter(s, f)
  {
    assert ([x] + s)[0] == x;
    assert ([x] + s)[1..] == s;
  }

  /** Filtering keeps every element that passes, so filters compose. */
  lemma {:induction false} FilterFilter<T>(s: seq<T>, f: T -> bool, g: T -> bool)
    ensures Filter(Filter(s, f), g) == Filter(s, x => f(x) && g(x))
    decreases |s|
  {
    if |s| > 0 {
      FilterFilter(s[1..], f, g);
      var head := if f(s[0]) then [s[0]] else [];
      FilterAppend(head, Filter(s[1..], f), g);
    }
  }

  /** Filtering by an always-true test changes nothing. */
  lemma {:induction false} FilterAll<T>(s: seq<T>, f: T -> bool)
    requires forall i :: 0 <= i < |s| ==> f(s[i])
    ensures Filter(s, f) == s
    decreases |s|
  {
    if |s| > 0 {
      FilterAll(s[1..], f);
    }
  }

  /** `a` is `b` with some elements removed and the rest in order. */
  predicate Subsequence<T(==)>(a: seq<T>, b: seq<T>)
    decreases |b|
  {
    if |b| == 0 then |a| == 0
    else (|a| > 0 && a[0] == b[0] && Subsequence(a[1..], b[1..])) || Subsequence(a, b[1..])
  }

  /** A filter keeps the order of what it keeps. */
  lemma {:induction false} FilterIsSubsequence<T>(s: seq<T>, f: T -> bool)
    ensures Subsequence(Filter(s, f), s)
    decreases |s|
  {
    if |s| > 0 {
      FilterIsSubsequence(s[1..], f);
      if f(s[0]) {
        var r := Filter(s, f);
        assert r == [s[0]] + Filter(s[1..], f);
        assert r[0] == s[0];
        assert r[1..] == Filter(s[1..], f);
      } else {
        assert Filter(s, f) == Filter(s[1..], f);
      }
    }
  }

  /** What a test keeps and what it drops add up to the whole. */
  lemma {:induction false} CountSplit<T>(s: seq<T>, f: T -> bool, g: T -> bool)
    requires forall x :: g(x) == !f(x)
    ensures Count(s, f) + Count(s, g) == |s|
    decreases |s|
  {
    if |s| > 0 {
      CountSplit(s[1..], f, g);
    }
  }

  /** Two tests that never hold together select at most the whole sequence. */
  lemma {:induction false} DisjointCounts<T>(s: seq<T>, f: T -> bool, g: T -> bool)
    requires forall x :: !(f(x) && g(x))
    ensures Count(s, f) + Count(s, g) <= |s|
    decreases |s|
  {
    if |s| > 0 {
      DisjointCounts(s[1..], f, g);
    }
  }
}

=== FILE: sorting.dfy ===
/** Stable ordering by an integer key: the `orderBy` of the data-access layer
    and JavaScript's (stable) `Array.prototype.sort` with a numeric comparator. */
module Sorting {

  ghost predicate SortedBy<T>(s: seq<T>, key: T -> int) {
    forall i, j :: 0 <= i < j < |s| ==> key(s[i]) <= key(s[j])
  }

  /** Inserts `x` after every element whose key is not larger, so that among
      equal keys the earlier input stays first. */
  function Insert<T>(x: T, s: seq<T>, key: T -> int): (r: seq<T>)
    requires SortedBy(s, key)
    ensures SortedBy(r, key)
    ensures multiset(r) == multiset(s) + multiset{x}
    ensures |r| == |s| + 1
    ensures forall i :: 0 <= i < |r| ==> r[i] == x || r[i] in s
    decreases |s|
  {
    if |s| == 0 then [x]
    else if key(s[|s| - 1]) <= key(x) then s + [x]
    else
      var r0 := Insert(x, s[..|s| - 1], key);
      InsertStep(x, s, r0, key);
      r0 + [s[|s| - 1]]
  }

  /** `x` inserted into all but the last element of `s`, followed by that
      last element, is `x` inserted into `s`. */
  lemma InsertStep<T>(x: T, s: seq<T>, r0: seq<T>, key: T -> int)
    requires |s| > 0 && SortedBy(s, key) && key(x) < key(s[|s| - 1])
    requires SortedBy(r0, key) && multiset(r0) == multiset(s[..|s| - 1]) + multiset{x} && |r0| == |s|
    requires forall i :: 0 <= i < |r0| ==> r0[i] == x || r0[i] in s[..|s| - 1]
    ensures var r := r0 + [s[|s| - 1]];
      && SortedBy(r, key) && multiset(r) == multiset(s) + multiset{x} && |r| == |s| + 1
      && forall i :: 0 <= i < |r| ==> r[i] == x || r[i] in s
  {
    var last := s[|s| - 1];
    var front := s[..|s| - 1];
    assert s == front + [last];
    InsertedBelow(x, s, r0, key);
  }

  /** Every element drawn from `x` and the front of `s` has a key not above
      the last element's, when `x`'s key is below it. */
  lemma InsertedBelow<T>(x: T, s: seq<T>, r0: seq<T>, key: T -> int)
    requires |s| > 0 && SortedBy(s, key) && key(x) < key(s[|s| - 1])
    requires forall i :: 0 <= i < |r0| ==> r0[i] == x || r0[i] in s[..|s| - 1]
    ensures forall i :: 0 <= i < |r0| ==> key(r0[i]) <= key(s[|s| - 1])
  {
    var front := s[..|s| - 1];
    forall i | 0 <= i < |r0|
      ensures key(r0[i]) <= key(s[|s| - 1])
    {
      if r0[i] != x {
        var j :| 0 <= j < |front| && front[j] == r0[i];
        assert s[j] == front[j];
      }
    }
  }

  /** `s` ordered by ascending key, ties in input order. */
  function SortBy<T>(s: seq<T>, key: T -> int): (r: seq<T>)
    ensures SortedBy(r, key)
    ensures multiset(r) == multiset(s)
    ensures |r| == |s|
    decreases |s|
  {
    if |s| == 0 then []
    else
      assert s == s[..|s| - 1] + [s[|s| - 1]];
      Insert(s[|s| - 1], SortBy(s[..|s| - 1], key), key)
  }
}

=== FILE: sweep_gap.dfy ===
/** The 22:00 sweep against the punch state machine. The sweep sets `saida` on
    a record whose lunch punches may still be empty
    (apps/api/src/jobs/fecharPontos.ts), while `baterPonto`
    (apps/api/src/services/ponto.service.ts) fills the first empty slot
    without looking at `saida`. A punch taken between 22:00 and midnight on a
    swept record therefore records a lunch break after the exit. This module
    states that behaviour as written and a corrected punch that treats a
    record with `saida` as closed. */
module SweepGap {
  import opened Wrappers
  import opened Entities
  import opened ErrorHandler
  import opened PontoService
  import opened AutoClose
  import PontoPage
  import UsePonto

  // ----- the sweep keeps identities, so lookups do not move -----

  lemma {:induction false} FindDailyFromSameKeys(a: seq<Ponto>, b: seq<Ponto>, userId: Id, day: Day, from: nat)
    requires |a| == |b| && from <= |a|
    requires forall i :: 0 <= i < |a| ==> a[i].userId == b[i].userId && a[i].date == b[i].date
    ensures FindDailyFrom(a, userId, day, from) == FindDailyFrom(b, userId, day, from)
    decreases |a| - from
  {
    if from < |a| {
      FindDailyFromSameKeys(a, b, userId, day, from + 1);
    }
  }

  /** The sweep finds every user's record where it was. */
  lemma SweepKeepsLookup(store: seq<Ponto>, today: Day, cutoff: Timestamp, nameOf: Id -> string, userId: Id, day: Day)
    ensures FindDaily(FecharPontosAbertos(store, today, cutoff, nameOf).store, userId, day) == FindDaily(store, userId, day)
  {
    FindDailyFromSameKeys(FecharPontosAbertos(store, today, cutoff, nameOf).store, store, userId, day, 0);
  }

  // ----- as written -----

  /** An open record whose lunch was not taken leaves the sweep closed but with
      a gap: the prefix shape `baterPonto` keeps is broken. */
  lemma SweepBreaksPrefix(store: seq<Ponto>, today: Day, cutoff: Timestamp, nameOf: Id -> string, i: nat)
    requires i < |store| && IsOpen(store[i], today) && store[i].almoco.None?
    ensures var swept := FecharPontosAbertos(store, today, cutoff, nameOf).store;
      swept[i].saida == Some(cutoff) && !PrefixFilled(swept[i])
  {
  }

  /** As written: after the sweep closed a record without lunch, the owner's
      next punch that day is accepted and writes `almoco` later than `saida`,
      leaving `saida` in place. */
  lemma PunchAfterSweepWritesLunchAfterExit(store: seq<Ponto>, today: Day, cutoff: Timestamp, nameOf: Id -> string,
                                            userId: Id, now: Timestamp, freshId: Id)
    requires FindDaily(store, userId, today).Some?
    requires IsOpen(store[FindDaily(store, userId, today).value], today)
    requires store[FindDaily(store, userId, today).value].almoco.None?
    requires now > cutoff
    ensures var swept := FecharPontosAbertos(store, today, cutoff, nameOf).store;
      var r := BaterPonto(swept, userId, today, now, freshId);
      && r.result.Success?
      && r.result.value.saida == Some(cutoff)
      && r.result.value.almoco == Some(now)
      && r.result.value.almoco.value > r.result.value.saida.value
  {
    SweepKeepsLookup(store, today, cutoff, nameOf, userId, today);
  }

  /** The worked example: clocked in at 09:00, swept at 22:00, punched again at
      22:30. The server records lunch at 22:30, the page's button offered
      "Saída para Almoço", and the toast then reports an exit. */
  lemma SweptDayExample()
    ensures var hour := 3600000;
      var p := Ponto("p1", "u1", 0, Some(9 * hour), None, None, None, false);
      var swept := FecharPontosAbertos([p], 0, 22 * hour, (u: Id) => "Ana").store;
      var r := BaterPonto(swept, "u1", 0, 22 * hour + hour / 2, "p2");
      && swept[0].saida == Some(22 * hour) && swept[0].encerramentoAutomatico
      && PontoPage.GetButtonState(Some(swept[0])) == PontoPage.ButtonState("Saída para Almoço", false)
      && r.result.Success?
      && r.result.value.almoco == Some(22 * hour + hour / 2)
      && r.result.value.saida == Some(22 * hour)
      && UsePonto.DetectBatidaLabel(r.result.value, "22:30") == "Saída registrada às 22:30"
  {
    var hour := 3600000;
    var p := Ponto("p1", "u1", 0, Some(9 * hour), None, None, None, false);
    var swept := FecharPontosAbertos([p], 0, 22 * hour, (u: Id) => "Ana").store;
    assert IsOpen(p, 0);
    assert swept[0] == p.(saida := Some(22 * hour), encerramentoAutomatico := true);
    assert FindDaily(swept, "u1", 0) == Some(0);
  }

  // ----- corrected -----

  /** The punch with the evidently intended guard: a record whose `saida` is
      set, by the employee or by the sweep, ends the day. */
  function BaterPontoFixed(store: seq<Ponto>, userId: Id, today: Day, now: Timestamp, freshId: Id): (r: Punch)
    ensures FindDaily(store, userId, today).Some? && store[FindDaily(store, userId, today).value].saida.Some? ==>
      r == Punch(store, Failure(HttpError(JornadaEncerrada, 400)))
    ensures FindDaily(store, userId, today).None? || store[FindDaily(store, userId, today).value].saida.None? ==>
      r == BaterPonto(store, userId, today, now, freshId)
  {
    match FindDaily(store, userId, today)
    case Some(i) =>
      if store[i].saida.Some? then Punch(store, Failure(HttpError(JornadaEncerrada, 400)))
      else BaterPonto(store, userId, today, now, freshId)
    case None => BaterPonto(store, userId, today, now, freshId)
  }

  /** Where the records keep their prefix shape, which every run of punches
      alone guarantees, the corrected punch is the original one. */
  lemma FixedAgreesOnPrefixRecords(store: seq<Ponto>, userId: Id, today: Day, now: Timestamp, freshId: Id)
    requires forall i :: 0 <= i < |store| ==> PrefixFilled(store[i])
    ensures BaterPontoFixed(store, userId, today, now, freshId) == BaterPonto(store, userId, today, now, freshId)
  {
  }

  /** With the correction a closed record is final: no punch changes a record
      whose `saida` is set, so no punch lands after the exit. */
  lemma FixedKeepsClosedRecords(store: seq<Ponto>, userId: Id, today: Day, now: Timestamp, freshId: Id)
    ensures var r := BaterPontoFixed(store, userId, today, now, freshId);
      && |store| <= |r.store|
      && forall i :: 0 <= i < |store| && store[i].saida.Some? ==> r.store[i] == store[i]
  {
  }

  /** The swept day of the example is refused with the corrected punch, and
      the record keeps its automatic exit. */
  lemma FixedRefusesAfterSweep(store: seq<Ponto>, today: Day, cutoff: Timestamp, nameOf: Id -> string,
                               userId: Id, now: Timestamp, freshId: Id)
    requires FindDaily(store, userId, today).Some?
    requires IsOpen(store[FindDaily(store, userId, today).value], today)
    ensures var swept := FecharPontosAbertos(store, today, cutoff, nameOf).store;
      var r := BaterPontoFixed(swept, userId, today, now, freshId);
      && r.result == Failure(HttpError(JornadaEncerrada, 400))
      && r.store == swept
  {
    SweepKeepsLookup(store, today, cutoff, nameOf, userId, today);
  }
}

=== FILE: toast_store.dfy ===
/** The toast store (apps/web/src/stores/toastStore.ts): the list of
    notifications on screen and the module-level counter that names them.
    `Date.now()` is the parameter `now`; the auto-dismiss timers are the two
    transitions `MarkRemoving` then `RemoveToast`. */
module ToastStore {
  import opened Wrappers
  import opened Entities
  import opened JsText
  import Seqs

  datatype Toast = Toast(id: string, icon: string, title: string, message: Option<string>, removing: bool)

  datatype ToastState = ToastState(toasts: seq<Toast>, counter: nat)

  const Initial: ToastState := ToastState([], 0)

  /** `toast-${n}-${Date.now()}` */
  function ToastId(n: nat, now: Timestamp): string {
    "toast-" + NatToString(n) + "-" + IntToString(now)
  }

  /** The counter part of an id of that form, read back. */
  function CounterOf(id: string): Option<nat> {
    var pieces := Split(id, '-');
    if |pieces| >= 2 && pieces[0] == "toast" && AllDigits(pieces[1]) && |pieces[1]| > 0 then Some(DigitsValue(pieces[1]))
    else None
  }

  /** Every id reads back the counter value it was made from, so ids made
      from different counter values differ whatever the clock says. */
  lemma CounterOfToastId(n: nat, now: Timestamp)
    ensures CounterOf(ToastId(n, now)) == Some(n)
  {
    var digits := NatToString(n);
    var rest := IntToString(now);
    assert '-' !in digits by {
      assert AllDigits(digits);
    }
    assert ToastId(n, now) == "toast" + ['-'] + (digits + ['-'] + rest);
    SplitAtSeparator("toast", '-', digits + ['-'] + rest);
    SplitAtSeparator(digits, '-', rest);
    NatToStringRoundTrip(n);
  }

  predicate DistinctIds(ts: seq<Toast>) {
    forall i, j :: 0 <= i < j < |ts| ==> ts[i].id != ts[j].id
  }

  /** What the counter guarantees: every toast on screen carries a counter
      value already handed out, and no two share an id. */
  predicate Valid(s: ToastState) {
    && DistinctIds(s.toasts)
    && forall i :: 0 <= i < |s.toasts| ==> CounterOf(s.toasts[i].id).Some? && CounterOf(s.toasts[i].id).value <= s.counter
  }

  /** `addToast(toast)`: bumps the counter and appends one toast, not yet
      removing, at the end. */
  function AddToast(s: ToastState, icon: string, title: string, message: Option<string>, now: Timestamp): (r: ToastState)
    ensures r.counter == s.counter + 1
    ensures |r.toasts| == |s.toasts| + 1 && r.toasts[..|s.toasts|] == s.toasts
    ensures var t := r.toasts[|s.toasts|];
      t.icon == icon && t.title == title && t.message == message && !t.removing
      && CounterOf(t.id) == Some(r.counter)
    ensures Valid(s) ==> Valid(r)
  {
    var t := Toast(ToastId(s.counter + 1, now), icon, title, message, false);
    var r := ToastState(s.toasts + [t], s.counter + 1);
    CounterOfToastId(s.counter + 1, now);
    assert r.toasts[..|s.toasts|] == s.toasts;
    r
  }

  function OtherId(id: string): Toast -> bool {
    (t: Toast) => t.id != id
  }

  /** `removeToast(id)`: drops the toasts with that id, keeps the rest in
      order. */
  function RemoveToast(s: ToastState, id: string): (r: ToastState)
    ensures r.counter == s.counter
    ensures forall i :: 0 <= i < |r.toasts| ==> r.toasts[i].id != id && r.toasts[i] in s.toasts
    ensures forall i :: 0 <= i < |s.toasts| && s.toasts[i].id != id ==> s.toasts[i] in r.toasts
    ensures Seqs.Subsequence(r.toasts, s.toasts)
  {
    Seqs.FilterIsSubsequence(s.toasts, OtherId(id));
    ToastState(Seqs.Filter(s.toasts, OtherId(id)), s.counter)
  }

  /** Removing an id that is not on screen changes nothing. */
  lemma RemoveUnknownIsNoop(s: ToastState, id: string)
    requires forall i :: 0 <= i < |s.toasts| ==> s.toasts[i].id != id
    ensures RemoveToast(s, id) == s
  {
    Seqs.FilterAll(s.toasts, OtherId(id));
  }

  /** A subsequence of distinct ids has distinct ids. */
  lemma {:induction false} SubsequenceDistinct(a: seq<Toast>, b: seq<Toast>)
    requires Seqs.Subsequence(a, b) && DistinctIds(b)
    ensures DistinctIds(a)
    decreases |b|
  {
    if |b| > 0 {
      assert DistinctIds(b[1..]) by {
        forall i, j | 0 <= i < j < |b[1..]| ensures b[1..][i].id != b[1..][j].id {
          assert b[1..][i] == b[i + 1] && b[1..][j] == b[j + 1];
        }
      }
      if |a| > 0 && a[0] == b[0] && Seqs.Subsequence(a[1..], b[1..]) {
        SubsequenceDistinct(a[1..], b[1..]);
        SubsequenceMembers(a[1..], b[1..]);
        forall j | 0 < j < |a| ensures a[0].id != a[j].id {
          assert a[j] == a[1..][j - 1];
          var k :| 0 <= k < |b[1..]| && b[1..][k] == a[j];
          assert b[k + 1] == a[j];
        }
      } else {
        SubsequenceDistinct(a, b[1..]);
      }
    }
  }

  lemma {:induction false} SubsequenceMembers(a: seq<Toast>, b: seq<Toast>)
    requires Seqs.Subsequence(a, b)
    ensures forall i :: 0 <= i < |a| ==> exists k :: 0 <= k < |b| && b[k] == a[i]
    decreases |b|
  {
    if |b| > 0 {
      if |a| > 0 && a[0] == b[0] && Seqs.Subsequence(a[1..], b[1..]) {
        SubsequenceMembers(a[1..], b[1..]);
        forall i | 0 <= i < |a| ensures exists k :: 0 <= k < |b| && b[k] == a[i] {
          if i == 0 {
            assert b[0] == a[0];
          } else {
            assert a[i] == a[1..][i - 1];
            var k :| 0 <= k < |b[1..]| && b[1..][k] == a[1..][i - 1];
            assert b[k + 1] == a[i];
          }
        }
      } else {
        SubsequenceMembers(a, b[1..]);
        forall i | 0 <= i < |a| ensures exists k :: 0 <= k < |b| && b[k] == a[i] {
          var k :| 0 <= k < |b[1..]| && b[1..][k] == a[i];
          assert b[k + 1] == a[i];
        }
      }
    }
  }

  /** Removing keeps the store valid. */
  lemma RemoveKeepsValid(s: ToastState, id: string)
    ensures Valid(s) ==> Valid(RemoveToast(s, id))
  {
    if Valid(s) {
      var r := RemoveToast(s, id);
      SubsequenceDistinct(r.toasts, s.toasts);
    }
  }

  /** `markRemoving(id)`: flags the toasts with that id; nothing else moves. */
  function MarkRemoving(s: ToastState, id: string): (r: ToastState)
    ensures r.counter == s.counter && |r.toasts| == |s.toasts|
    ensures forall i :: 0 <= i < |s.toasts| ==>
      && r.toasts[i].id == s.toasts[i].id
      && (r.toasts[i].removing <==> s.toasts[i].removing || s.toasts[i].id == id)
      && r.toasts[i].(removing := s.toasts[i].removing) == s.toasts[i]
    ensures Valid(s) ==> Valid(r)
  {
    ToastState(seq(|s.toasts|, i requires 0 <= i < |s.toasts| =>
      if s.toasts[i].id == id then s.toasts[i].(removing := true) else s.toasts[i]), s.counter)
  }

  /** The auto-dismiss (flag, then remove) ends where an immediate removal
      does. */
  lemma DismissIsRemove(s: ToastState, id: string)
    ensures RemoveToast(MarkRemoving(s, id), id) == RemoveToast(s, id)
  {
    MarkThenFilter(s.toasts, id);
  }

  lemma {:induction false} MarkThenFilter(ts: seq<Toast>, id: string)
    ensures Seqs.Filter(MarkRemoving(ToastState(ts, 0), id).toasts, OtherId(id)) == Seqs.Filter(ts, OtherId(id))
    decreases |ts|
  {
    if |ts| > 0 {
      MarkThenFilter(ts[1..], id);
      var m := MarkRemoving(ToastState(ts, 0), id).toasts;
      var m1 := MarkRemoving(ToastState(ts[1..], 0), id).toasts;
      assert m[1..] == m1;
    }
  }

  /** One call into the store. */
  datatype Op = Add(icon: string, title: string, message: Option<string>, now: Timestamp)
              | Remove(id: string)
              | Mark(id: string)

  function Apply(s: ToastState, op: Op): ToastState {
    match op
    case Add(icon, title, message, now) => AddToast(s, icon, title, message, now)
    case Remove(id) => RemoveToast(s, id)
    case Mark(id) => MarkRemoving(s, id)
  }

  /** A run of calls from a state; starting from the empty store, every run
      leaves the toast ids on screen unique, even when two toasts are
      added within the same millisecond. */
  function Run(s: ToastState, ops: seq<Op>): (r: ToastState)
    ensures Valid(s) ==> Valid(r)
    ensures r.counter == s.counter + Seqs.Count(ops, IsAdd)
    decreases |ops|
  {
    if |ops| == 0 then s
    else
      RemoveKeepsValid(s, if ops[0].Remove? then ops[0].id else "");
      Run(Apply(s, ops[0]), ops[1..])
  }

  predicate IsAdd(op: Op) { op.Add? }

  lemma RunFromInitial(ops: seq<Op>)
    ensures Valid(Run(Initial, ops))
  {
  }
}

=== FILE: use_checklist.dfy ===
/** The mark mutation of the checklist hooks (apps/web/src/hooks/useChecklist.ts):
    the cached list is flipped optimistically before the request, replaced by
    the server's list on success, and rolled back with a toast on error. The
    query cache entry `['checklist', 'hoje']` is the value `Cache`; react-query's
    scheduling is not modelled. */
module UseChecklist {
  import opened Wrappers
  import opened Entities
  import opened ChecklistService
  import ToastStore
  import Seqs

  /** The cache entry: absent until the first fetch. */
  type Cache = Option<seq<ItemHoje>>

  /** One entry as the optimistic update leaves it. */
  function Flip(item: ItemHoje, itemId: Id): ItemHoje {
    if item.id == itemId then item.(feito := !item.feito, atrasado := false) else item
  }

  /** The `setQueryData` updater of `onMutate`: the entries of `itemId` are
      flipped and lose their late flag; the others, and an absent cache, stay
      as they are. */
  function OptimisticUpdate(cached: Cache, itemId: Id): (r: Cache)
    ensures r.Some? <==> cached.Some?
    ensures cached.Some? ==> |r.value| == |cached.value|
    ensures cached.Some? ==> forall i :: 0 <= i < |cached.value| ==>
      && r.value[i].id == cached.value[i].id
      && (r.value[i].feito <==> (cached.value[i].feito <==> cached.value[i].id != itemId))
      && (cached.value[i].id == itemId ==> !r.value[i].atrasado)
      && (cached.value[i].id != itemId ==> r.value[i] == cached.value[i])
  {
    match cached
    case None => None
    case Some(items) => Some(seq(|items|, i requires 0 <= i < |items| => Flip(items[i], itemId)))
  }

  /** What `onMutate` hands to `onError`. */
  datatype Context = Context(anterior: Cache)

  datatype Mutated = Mutated(cache: Cache, context: Context)

  /** `onMutate(itemId)`: snapshot the cache, then update it in place. */
  function OnMutate(cache: Cache, itemId: Id): (r: Mutated)
    ensures r.context.anterior == cache
    ensures r.cache.Some? <==> cache.Some?
  {
    Mutated(OptimisticUpdate(cache, itemId), Context(cache))
  }

  /** `onSuccess(data)`: the server's list replaces whatever was cached. */
  function OnSuccess(data: seq<ItemHoje>): Cache {
    Some(data)
  }

  datatype Settled = Settled(cache: Cache, toasts: ToastStore.ToastState)

  const ErrorIcon: string := "❌"
  const ErrorTitle: string := "Erro ao atualizar checklist"

  /** `onError(_, _, context)` with `current` in the cache: the snapshot goes
      back, and an error toast is added at `now`. `setQueryData` with
      `undefined`, which is what a missing context or an empty snapshot
      hands it, leaves the entry as it is. */
  function OnError(current: Cache, context: Option<Context>, toasts: ToastStore.ToastState, now: Timestamp)
    : (r: Settled)
    ensures context.Some? && context.value.anterior.Some? ==> r.cache == context.value.anterior
    ensures context.None? || context.value.anterior.None? ==> r.cache == current
    ensures |r.toasts.toasts| == |toasts.toasts| + 1 && r.toasts.toasts[..|toasts.toasts|] == toasts.toasts
    ensures var t := r.toasts.toasts[|toasts.toasts|];
      t.icon == ErrorIcon && t.title == ErrorTitle && t.message.None? && !t.removing
    ensures ToastStore.Valid(toasts) ==> ToastStore.Valid(r.toasts)
  {
    Settled(if context.Some? && context.value.anterior.Some? then context.value.anterior else current,
            ToastStore.AddToast(toasts, ErrorIcon, ErrorTitle, None, now))
  }

  /** A failed mark leaves the cache as it was before the click: the snapshot
      comes back, and a cache that was empty at the click stays as the
      optimistic update left it, which is empty. */
  lemma ErrorRollsBack(cache: Cache, itemId: Id, toasts: ToastStore.ToastState, now: Timestamp)
    ensures var m := OnMutate(cache, itemId);
      OnError(m.cache, Some(m.context), toasts, now).cache == cache
  {
  }

  /** A list fetched while an empty-cache mark was in flight survives its
      failure: there was no snapshot to restore. */
  lemma ErrorKeepsLaterFetch(itemId: Id, fetched: seq<ItemHoje>, toasts: ToastStore.ToastState, now: Timestamp)
    ensures var m := OnMutate(None, itemId);
      OnError(Some(fetched), Some(m.context), toasts, now).cache == Some(fetched)
  {
  }

  /** Two optimistic flips of the same item restore every entry except that
      the item stays not late. */
  lemma FlipTwice(cache: Cache, itemId: Id)
    ensures var r := OptimisticUpdate(OptimisticUpdate(cache, itemId), itemId);
      && (r.Some? <==> cache.Some?)
      && (cache.Some? ==> |r.value| == |cache.value| && forall i :: 0 <= i < |cache.value| ==>
            r.value[i] == cache.value[i].(atrasado := cache.value[i].atrasado && cache.value[i].id != itemId))
  {
  }

  // ----- the optimistic flip against the server's answer -----

  /** The `@@unique([itemId, data])` key of the registros table. */
  predicate UniqueKey(regs: seq<ChecklistRegistro>) {
    forall i, j :: 0 <= i < j < |regs| ==> !(regs[i].itemId == regs[j].itemId && regs[i].data == regs[j].data)
  }

  /** Whether today's checklist shows `id` done. */
  function ShownDone(regs: seq<ChecklistRegistro>, today: Day, id: Id): bool {
    var g := LastRegistro(OnDay(regs, today), id);
    g.Some? && g.value.feito
  }

  /** Two tables that differ only in rows of item `x`, without moving a row
      to another day. */
  predicate AgreeOff(a: seq<ChecklistRegistro>, b: seq<ChecklistRegistro>, x: Id) {
    && |a| == |b|
    && forall i :: 0 <= i < |a| ==>
         a[i] == b[i] || (a[i].itemId == x && b[i].itemId == x && a[i].data == b[i].data)
  }

  lemma {:induction false} OnDayAgreeOff(a: seq<ChecklistRegistro>, b: seq<ChecklistRegistro>, x: Id, d: Day)
    requires AgreeOff(a, b, x)
    ensures AgreeOff(OnDay(a, d), OnDay(b, d), x)
    decreases |a|
  {
    if |a| > 0 {
      assert AgreeOff(a[1..], b[1..], x) by {
        forall i | 0 <= i < |a| - 1 ensures a[1..][i] == a[i + 1] && b[1..][i] == b[i + 1] {
        }
      }
      OnDayAgreeOff(a[1..], b[1..], x, d);
      var ta, tb := OnDay(a[1..], d), OnDay(b[1..], d);
      assert a[0].data == b[0].data;
      assert OnDay(a, d) == (if a[0].data == d then [a[0]] else []) + ta;
      assert OnDay(b, d) == (if b[0].data == d then [b[0]] else []) + tb;
      if a[0].data == d {
        ConsAgreeOff(a[0], b[0], ta, tb, x);
      }
    }
  }

  lemma ConsAgreeOff(p: ChecklistRegistro, q: ChecklistRegistro, a: seq<ChecklistRegistro>,
                     b: seq<ChecklistRegistro>, x: Id)
    requires AgreeOff(a, b, x)
    requires p == q || (p.itemId == x && q.itemId == x && p.data == q.data)
    ensures AgreeOff([p] + a, [q] + b, x)
  {
    forall i | 1 <= i < |a| + 1 ensures ([p] + a)[i] == a[i - 1] && ([q] + b)[i] == b[i - 1] {
    }
  }

  lemma {:induction false} LastRegistroAgreeOff(a: seq<ChecklistRegistro>, b: seq<ChecklistRegistro>, x: Id, y: Id)
    requires AgreeOff(a, b, x) && y != x
    ensures LastRegistro(a, y) == LastRegistro(b, y)
    decreases |a|
  {
    if |a| > 0 {
      var n := |a| - 1;
      AgreeOffSplit(a, b, x);
      LastRegistroAgreeOff(a[..n], b[..n], x, y);
      LastRegistroStep(a, b, x, y);
    }
  }

  /** Rows that agree off `x` agree off `x` before the last row, and the last
      rows are equal or both rows of `x`. */
  lemma AgreeOffSplit(a: seq<ChecklistRegistro>, b: seq<ChecklistRegistro>, x: Id)
    requires AgreeOff(a, b, x) && |a| > 0
    ensures AgreeOff(a[..|a| - 1], b[..|b| - 1], x)
    ensures a[|a| - 1] == b[|b| - 1] || (a[|a| - 1].itemId == x && b[|b| - 1].itemId == x)
  {
    AgreeOffPrefix(a, b, x, |a| - 1);
  }

  /** The last row of `y` is decided by the final rows and the earlier ones. */
  lemma LastRegistroStep(a: seq<ChecklistRegistro>, b: seq<ChecklistRegistro>, x: Id, y: Id)
    requires |a| == |b| > 0 && x != y
    requires LastRegistro(a[..|a| - 1], y) == LastRegistro(b[..|b| - 1], y)
    requires a[|a| - 1] == b[|b| - 1] || (a[|a| - 1].itemId == x && b[|b| - 1].itemId == x)
    ensures LastRegistro(a, y) == LastRegistro(b, y)
  {
  }

  lemma AgreeOffPrefix(a: seq<ChecklistRegistro>, b: seq<ChecklistRegistro>, x: Id, n: nat)
    requires AgreeOff(a, b, x) && n <= |a|
    ensures AgreeOff(a[..n], b[..n], x)
  {
    forall i | 0 <= i < n ensures a[..n][i] == a[i] && b[..n][i] == b[i] {
    }
  }

  /** Only row of its key: then it is the row today's checklist reads. */
  lemma OnlyRowIsRead(regs: seq<ChecklistRegistro>, k: nat, today: Day)
    requires UniqueKey(regs) && k < |regs| && regs[k].data == today
    ensures LastRegistro(OnDay(regs, today), regs[k].itemId) == Some(regs[k])
  {
    var g := LastRegistro(OnDay(regs, today), regs[k].itemId);
    assert regs[k] in OnDay(regs, today);
    assert forall j :: 0 <= j < |regs| && regs[j].itemId == regs[k].itemId && regs[j].data == today ==> j == k;
    var j :| 0 <= j < |regs| && regs[j] == g.value;
  }

  /** Rows of other items decide the same thing after a mark of `itemId`. */
  lemma OthersUnchanged(registros: seq<ChecklistRegistro>, updated: seq<ChecklistRegistro>,
                        itemId: Id, today: Day, y: Id)
    requires AgreeOff(registros, updated, itemId) && y != itemId
    ensures ShownDone(updated, today, y) == ShownDone(registros, today, y)
  {
    OnDayAgreeOff(registros, updated, itemId, today);
    LastRegistroAgreeOff(OnDay(registros, today), OnDay(updated, today), itemId, y);
  }

  /** Flipping today's only row of an item flips what the checklist shows for
      that item and for no other. */
  lemma ToggleRow(regs: seq<ChecklistRegistro>, after: seq<ChecklistRegistro>, k: nat, today: Day, y: Id)
    requires UniqueKey(regs) && k < |regs| && regs[k].data == today && |after| == |regs|
    requires forall i :: 0 <= i < |regs| ==> after[i].itemId == regs[i].itemId && after[i].data == regs[i].data
    requires forall i :: 0 <= i < |regs| && i != k ==> after[i] == regs[i]
    requires after[k].feito == !regs[k].feito
    ensures ShownDone(after, today, y) <==> (ShownDone(regs, today, y) <==> y != regs[k].itemId)
  {
    var x := regs[k].itemId;
    if y == x {
      OnlyRowIsRead(regs, k, today);
      assert UniqueKey(after) by {
        forall i, j | 0 <= i < j < |after|
          ensures !(after[i].itemId == after[j].itemId && after[i].data == after[j].data)
        {
          assert after[i].itemId == regs[i].itemId && after[i].data == regs[i].data;
          assert after[j].itemId == regs[j].itemId && after[j].data == regs[j].data;
        }
      }
      OnlyRowIsRead(after, k, today);
    } else {
      assert AgreeOff(regs, after, x);
      OthersUnchanged(regs, after, x, today, y);
    }
  }

  /** Appending today's first row of an item, marked done, shows that item
      done and changes nothing for the others. */
  lemma NewRow(regs: seq<ChecklistRegistro>, g: ChecklistRegistro, today: Day, y: Id)
    requires g.data == today && g.feito
    requires forall i :: 0 <= i < |regs| ==> !(regs[i].itemId == g.itemId && regs[i].data == today)
    ensures ShownDone(regs + [g], today, y) <==> (ShownDone(regs, today, y) <==> y != g.itemId)
  {
    if y == g.itemId {
      NoRowYet(regs, g.itemId, today);
      AppendedRowIsRead(regs, g, today);
    } else {
      AppendOthersUnchanged(regs, g, today, y);
    }
  }

  lemma NoRowYet(regs: seq<ChecklistRegistro>, x: Id, today: Day)
    requires forall i :: 0 <= i < |regs| ==> !(regs[i].itemId == x && regs[i].data == today)
    ensures LastRegistro(OnDay(regs, today), x).None?
  {
    forall i | 0 <= i < |OnDay(regs, today)|
      ensures OnDay(regs, today)[i].itemId != x
    {
      var e := OnDay(regs, today)[i];
      var j :| 0 <= j < |regs| && regs[j] == e;
      assert e.data == today;
    }
  }

  /** Appending a row of `itemId` changes nothing for other items. */
  lemma AppendOthersUnchanged(registros: seq<ChecklistRegistro>, g: ChecklistRegistro, today: Day, y: Id)
    requires g.itemId != y
    ensures ShownDone(registros + [g], today, y) == ShownDone(registros, today, y)
  {
    Seqs.FilterAppend(registros, [g], SameDay(today));
    var s := OnDay(registros, today);
    if g.data == today {
      assert OnDay(registros + [g], today) == s + [g];
      assert (s + [g])[..|s|] == s;
    } else {
      assert OnDay(registros + [g], today) == s;
    }
  }

  /** What the table shows for every item after `marcarItem`, when the item
      exists: its own entries flip and nothing else moves. */
  lemma MarkFlipsOnlyItem(itens: seq<ChecklistItem>, registros: seq<ChecklistRegistro>, itemId: Id, userId: Id,
                          today: Day, now: Timestamp, freshId: Id, dayStart: Timestamp -> Timestamp, y: Id)
    requires FindItem(itens, itemId).Some? && UniqueKey(registros)
    ensures var after := MarcarItem(itens, registros, itemId, userId, today, now, freshId, dayStart).registros;
      ShownDone(after, today, y) <==> (ShownDone(registros, today, y) <==> y != itemId)
  {
    var after := MarcarItem(itens, registros, itemId, userId, today, now, freshId, dayStart).registros;
    match FindRegistro(registros, itemId, today)
    case Some(k) =>
      ToggleRow(registros, after, k, today, y);
    case None =>
      NewRow(registros, ChecklistRegistro(freshId, itemId, userId, today, true, Some(now)), today, y);
  }

  /** The optimistic flip shows what the server will answer: for every entry
      of today's checklist, the done flag the click predicts is the one the
      successful mark returns, and an entry predicted done is not late in
      either. A mark of an unknown item fails and is rolled back instead. */
  lemma OptimisticPredictsServer(itens: seq<ChecklistItem>, registros: seq<ChecklistRegistro>, itemId: Id,
                                 userId: Id, today: Day, t0: Timestamp, now: Timestamp, freshId: Id,
                                 dayStart: Timestamp -> Timestamp)
    requires UniqueKey(registros)
    ensures var before := GetChecklistHoje(itens, registros, today, t0, dayStart);
      var predicted := OptimisticUpdate(Some(before), itemId).value;
      var m := MarcarItem(itens, registros, itemId, userId, today, now, freshId, dayStart);
      && (FindItem(itens, itemId).None? ==> m.result.Failure?)
      && (FindItem(itens, itemId).Some? ==>
            && m.result.Success? && |m.result.value| == |predicted|
            && forall i :: 0 <= i < |predicted| ==>
                 && m.result.value[i].id == predicted[i].id
                 && m.result.value[i].feito == predicted[i].feito
                 && (predicted[i].feito ==> !predicted[i].atrasado && !m.result.value[i].atrasado))
  {
    var before := GetChecklistHoje(itens, registros, today, t0, dayStart);
    var predicted := OptimisticUpdate(Some(before), itemId).value;
    var m := MarcarItem(itens, registros, itemId, userId, today, now, freshId, dayStart);
    if FindItem(itens, itemId).Some? {
      ServedFlipsOnlyItem(itens, registros, itemId, userId, today, t0, now, freshId, dayStart);
      PredictionAgrees(before, predicted, m.result.value, itemId);
    }
  }

  /** Entry by entry, the list a mark returns flips the done flag of exactly
      the marked item. */
  lemma ServedFlipsOnlyItem(itens: seq<ChecklistItem>, registros: seq<ChecklistRegistro>, itemId: Id,
                            userId: Id, today: Day, t0: Timestamp, now: Timestamp, freshId: Id,
                            dayStart: Timestamp -> Timestamp)
    requires FindItem(itens, itemId).Some? && UniqueKey(registros)
    ensures var before := GetChecklistHoje(itens, registros, today, t0, dayStart);
      var served := MarcarItem(itens, registros, itemId, userId, today, now, freshId, dayStart).result.value;
      && |served| == |before|
      && forall i :: 0 <= i < |before| ==>
           served[i].id == before[i].id && (served[i].feito <==> (before[i].feito <==> before[i].id != itemId))
  {
    var before := GetChecklistHoje(itens, registros, today, t0, dayStart);
    var m := MarcarItem(itens, registros, itemId, userId, today, now, freshId, dayStart);
    var active := ActiveItems(itens);
    forall i | 0 <= i < |before|
      ensures m.result.value[i].feito <==> (before[i].feito <==> before[i].id != itemId)
    {
      var y := active[i].id;
      MarkFlipsOnlyItem(itens, registros, itemId, userId, today, now, freshId, dayStart, y);
      assert before[i].feito == ShownDone(registros, today, y);
      assert m.result.value[i].feito == ShownDone(m.registros, today, y);
    }
  }

  /** A prediction that flips the marked entry and clears its late flag agrees
      with a served list that flips the same entry, where done entries are
      never late. */
  lemma PredictionAgrees(before: seq<ItemHoje>, predicted: seq<ItemHoje>, served: seq<ItemHoje>, itemId: Id)
    requires |predicted| == |before| == |served|
    requires forall i :: 0 <= i < |before| ==>
      && predicted[i].id == before[i].id
      && (predicted[i].feito <==> (before[i].feito <==> before[i].id != itemId))
      && (before[i].id == itemId ==> !predicted[i].atrasado)
      && (before[i].id != itemId ==> predicted[i] == before[i])
    requires forall i :: 0 <= i < |before| ==>
      served[i].id == before[i].id && (served[i].feito <==> (before[i].feito <==> before[i].id != itemId))
    requires forall i :: 0 <= i < |before| ==> before[i].feito ==> !before[i].atrasado
    requires forall i :: 0 <= i < |served| ==> served[i].feito ==> !served[i].atrasado
    ensures forall i :: 0 <= i < |predicted| ==>
      && served[i].id == predicted[i].id
      && served[i].feito == predicted[i].feito
      && (predicted[i].feito ==> !predicted[i].atrasado && !served[i].atrasado)
  {
  }
}

=== FILE: use_ponto.dfy ===
/** The time-clock hooks (apps/web/src/hooks/usePonto.ts): the toast text
    after a punch and when the report query may run. */
module UsePonto {
  import opened Wrappers
  import opened Entities
  import opened PontoService

  /** The punch `detectBatidaLabel` reports, read from the returned record:
      the latest slot in the fixed order that is set. */
  function Batida(p: Ponto): (r: Slot)
    ensures SlotValue(p, r).Some? || r == Entrada
    ensures forall s :: SlotIndex(s) > SlotIndex(r) ==> SlotValue(p, s).None?
  {
    if p.saida.Some? then Saida
    else if p.retorno.Some? then Retorno
    else if p.almoco.Some? then Almoco
    else Entrada
  }

  function BatidaText(s: Slot): string {
    match s
    case Entrada => "Entrada registrada às "
    case Almoco => "Almoço registrado às "
    case Retorno => "Retorno registrado às "
    case Saida => "Saída registrada às "
  }

  /** `detectBatidaLabel(ponto)` at local time `hora`. */
  function DetectBatidaLabel(p: Ponto, hora: string): (r: string)
    ensures r == BatidaText(Batida(p)) + hora
  {
    if p.saida.Some? then "Saída registrada às " + hora
    else if p.retorno.Some? then "Retorno registrado às " + hora
    else if p.almoco.Some? then "Almoço registrado às " + hora
    else "Entrada registrada às " + hora
  }

  /** On a record whose punches form a prefix, the toast names the punch just
      taken. */
  lemma DetectNamesPunchedSlot(before: Ponto, after: Ponto, now: Timestamp)
    requires PrefixFilled(before) && FillsFirstEmpty(before, after, now)
    ensures Batida(after) == NextSlot(before).value
  {
  }

  /** The first punch of the day is reported as the entrada. */
  lemma FirstPunchIsEntrada(freshId: Id, userId: Id, today: Day, now: Timestamp)
    ensures Batida(FirstPunch(freshId, userId, today, now)) == Entrada
  {
  }

  /** `enabled: !!startDate && !!endDate` */
  function RelatorioEnabled(startDate: string, endDate: string): (r: bool)
    ensures r <==> startDate != "" && endDate != ""
  {
    |startDate| > 0 && |endDate| > 0
  }
}

=== FILE: user_service.dfy ===
/** Staff administration (apps/api/src/services/user.service.ts): initials,
    creation defaults, partial update, soft delete and the hard-delete
    cascade. Password hashing is a parameter. */
module UserService {
  import opened Wrappers
  import opened Entities
  import opened ErrorHandler
  import opened JsText
  import Seqs

  /** `getInitials(name)` */
  function GetInitials(name: string): (r: string)
    ensures var t := Trim(name); var parts := Split(t, ' ');
      |parts| == 1 ==> r == ToUpper(t[..if |t| < 2 then |t| else 2])
    ensures var t := Trim(name); var parts := Split(t, ' ');
      |parts| > 1 ==> (|r| == 2 && r[0] == UpperChar(t[0])
                       && |parts[|parts| - 1]| > 0 && r[1] == UpperChar(parts[|parts| - 1][0]))
  {
    var t := Trim(name);
    var parts := Split(t, ' ');
    JoinSplit(t, ' ');
    assert |t| == 0 ==> |parts| == 1;
    if |parts| == 1 then
      var first := parts[0];
      ToUpper(first[..if |first| < 2 then |first| else 2])
    else
      SplitFirstPiece(t, ' ');
      SplitLastPiece(t, ' ');
      ToUpper([parts[0][0], parts[|parts| - 1][0]])
  }

  /** A string that starts and ends with a non-blank character trims to itself. */
  lemma TrimmedAlready(s: string)
    requires |s| > 0 && !IsJsWhitespace(s[0]) && !IsJsWhitespace(s[|s| - 1])
    ensures Trim(s) == s
  {
    assert TrimStart(s) == s;
  }

  /** Two words joined by one space: the first letter of each, upper-cased. */
  lemma InitialsOfTwoWords(first: string, last: string)
    requires |first| > 0 && |last| > 0 && ' ' !in first && ' ' !in last
    requires !IsJsWhitespace(first[0]) && !IsJsWhitespace(last[|last| - 1])
    ensures GetInitials(first + [' '] + last) == [UpperChar(first[0]), UpperChar(last[0])]
  {
    var name := first + [' '] + last;
    assert name[0] == first[0] && name[|name| - 1] == last[|last| - 1];
    TrimmedAlready(name);
    SplitAtSeparator(first, ' ', last);
    SplitNoSeparator(last, ' ');
    assert Split(name, ' ') == [first, last];
  }

  /** A single word: its first two letters upper-cased, or its only letter. */
  lemma InitialsOfOneWord(w: string)
    requires |w| > 0 && ' ' !in w && !IsJsWhitespace(w[0]) && !IsJsWhitespace(w[|w| - 1])
    ensures |w| >= 2 ==> GetInitials(w) == [UpperChar(w[0]), UpperChar(w[1])]
    ensures |w| == 1 ==> GetInitials(w) == [UpperChar(w[0])]
  {
    TrimmedAlready(w);
    SplitNoSeparator(w, ' ');
  }

  const DefaultAvatarColor: string := "#6c63ff"

  /** The validated body of a create request. */
  datatype NovoUsuario = NovoUsuario(name: string, email: string, password: string,
                                     role: Option<Role>, avatarColor: Option<string>)

  predicate EmailTaken(users: seq<User>, email: string, except: Option<Id>) {
    exists i :: 0 <= i < |users| && users[i].email == email && Some(users[i].id) != except
  }

  function FindUser(users: seq<User>, id: Id): (r: Option<nat>)
    ensures r.Some? ==> r.value < |users| && users[r.value].id == id
    ensures r.None? <==> forall i :: 0 <= i < |users| ==> users[i].id != id
  {
    Seqs.FindIndex(users, (u: User) => u.id == id)
  }

  /** `createUser(data)`: role EMPLOYEE and the default colour unless given;
      the password is stored hashed; an e-mail in use violates its unique key. */
  function CreateUser(users: seq<User>, data: NovoUsuario, hash: string -> string, freshId: Id)
    : (r: Result<seq<User>, AppError>)
    ensures EmailTaken(users, data.email, None) <==> r.Failure?
    ensures r.Failure? ==> r.error == UniqueViolation("email")
    ensures r.Success? ==> |r.value| == |users| + 1 && r.value[..|users|] == users
    ensures r.Success? ==> var u := r.value[|users|];
      && u.id == freshId && u.name == data.name && u.email == data.email
      && u.password == hash(data.password)
      && u.role == data.role.GetOr(EMPLOYEE) && u.avatarColor == data.avatarColor.GetOr(DefaultAvatarColor)
      && u.initials == GetInitials(data.name) && u.active
  {
    if Seqs.FindIndex(users, (u: User) => u.email == data.email).Some? then Failure(UniqueViolation("email"))
    else Success(users + [User(freshId, data.name, data.email, hash(data.password),
                                data.role.GetOr(EMPLOYEE), data.avatarColor.GetOr(DefaultAvatarColor),
                                GetInitials(data.name), true)])
  }

  /** The validated body of an update; every field optional. */
  datatype EdicaoUsuario = EdicaoUsuario(name: Option<string>, email: Option<string>, password: Option<string>,
                                         role: Option<Role>, avatarColor: Option<string>, active: Option<bool>)

  /** A JavaScript truthy string: present and non-empty. */
  predicate Truthy(s: Option<string>) {
    s.Some? && |s.value| > 0
  }

  function ApplyEdicao(u: User, data: EdicaoUsuario, hash: string -> string): (r: User)
    ensures r.id == u.id
    ensures Truthy(data.name) ==> r.name == data.name.value && r.initials == GetInitials(data.name.value)
    ensures !Truthy(data.name) ==> r.name == u.name && r.initials == u.initials
    ensures r.email == (if Truthy(data.email) then data.email.value else u.email)
    ensures r.avatarColor == (if Truthy(data.avatarColor) then data.avatarColor.value else u.avatarColor)
    ensures r.role == data.role.GetOr(u.role)
    ensures r.active == data.active.GetOr(u.active)
    ensures r.password == (if Truthy(data.password) then hash(data.password.value) else u.password)
  {
    u.(name := if Truthy(data.name) then data.name.value else u.name,
       initials := if Truthy(data.name) then GetInitials(data.name.value) else u.initials,
       email := if Truthy(data.email) then data.email.value else u.email,
       role := data.role.GetOr(u.role),
       avatarColor := if Truthy(data.avatarColor) then data.avatarColor.value else u.avatarColor,
       active := data.active.GetOr(u.active),
       password := if Truthy(data.password) then hash(data.password.value) else u.password)
  }

  /** `updateUser(id, data)` */
  function UpdateUser(users: seq<User>, id: Id, data: EdicaoUsuario, hash: string -> string)
    : (r: Result<seq<User>, AppError>)
    ensures FindUser(users, id).None? ==> r == Failure(RecordNotFound())
    ensures FindUser(users, id).Some? && Truthy(data.email) && EmailTaken(users, data.email.value, Some(id)) ==>
      r == Failure(UniqueViolation("email"))
    ensures r.Success? <==> FindUser(users, id).Some? && !(Truthy(data.email) && EmailTaken(users, data.email.value, Some(id)))
    ensures r.Success? ==> |r.value| == |users| && var k := FindUser(users, id).value;
      && r.value[k] == ApplyEdicao(users[k], data, hash)
      && forall j :: 0 <= j < |users| && j != k ==> r.value[j] == users[j]
  {
    match FindUser(users, id)
    case None => Failure(RecordNotFound())
    case Some(k) =>
      if Truthy(data.email)
         && Seqs.FindIndex(users, (u: User) => u.email == data.email.value && u.id != id).Some? then
        Failure(UniqueViolation("email"))
      else Success(users[k := ApplyEdicao(users[k], data, hash)])
  }

  /** An empty name is ignored while `active: false` is applied: the update
      tests names for truthiness but `active` only for presence. */
  lemma FalsyNameKeptFalseActiveApplied(u: User, hash: string -> string)
    requires u.active
    ensures var r := ApplyEdicao(u, EdicaoUsuario(Some(""), None, None, None, None, Some(false)), hash);
      r.name == u.name && r.initials == u.initials && !r.active
  {
  }

  /** `deleteUser(id)`: a soft delete that only clears `active`. */
  function DeleteUser(users: seq<User>, id: Id): (r: Result<seq<User>, AppError>)
    ensures FindUser(users, id).None? <==> r.Failure?
    ensures r.Failure? ==> r.error == RecordNotFound()
    ensures r.Success? ==> |r.value| == |users| && var k := FindUser(users, id).value;
      && r.value[k] == users[k].(active := false)
      && forall j :: 0 <= j < |users| && j != k ==> r.value[j] == users[j]
  {
    match FindUser(users, id)
    case None => Failure(RecordNotFound())
    case Some(k) => Success(users[k := users[k].(active := false)])
  }

  /** Soft-deleting twice is the same as once. */
  lemma DeleteUserIdempotent(users: seq<User>, id: Id)
    requires DeleteUser(users, id).Success?
    ensures DeleteUser(DeleteUser(users, id).value, id) == DeleteUser(users, id)
  {
    var once := DeleteUser(users, id).value;
    var k := FindUser(users, id).value;
    assert FindUser(once, id) == Some(k) by {
      assert Seqs.FindIndex(users, (u: User) => u.id == id) == Some(k);
      SameIds(users, once, id);
    }
    assert once[k := once[k].(active := false)] == once;
  }

  /** `FindUser` depends only on the ids. */
  lemma {:induction false} SameIds(a: seq<User>, b: seq<User>, id: Id)
    requires |a| == |b| && forall i :: 0 <= i < |a| ==> a[i].id == b[i].id
    ensures FindUser(a, id) == FindUser(b, id)
    decreases |a|
  {
    if |a| > 0 {
      SameIds(a[1..], b[1..], id);
    }
  }

  /** The database after a hard delete, and the error of its last step. */
  datatype HardDeletion = HardDeletion(db: Db, error: Option<AppError>)

  predicate ArteIdIn(arteId: Id, artes: seq<Arte>) {
    exists i :: 0 <= i < |artes| && artes[i].id == arteId
  }

  function OwnArtes(artes: seq<Arte>, id: Id): (r: seq<Arte>)
    ensures forall i :: 0 <= i < |artes| && artes[i].responsavelId == id ==> ArteIdIn(artes[i].id, r)
  {
    var own := Seqs.Filter(artes, (a: Arte) => a.responsavelId == id);
    forall i | 0 <= i < |artes| && artes[i].responsavelId == id
      ensures ArteIdIn(artes[i].id, own)
    {
      assert artes[i] in own;
      var n :| 0 <= n < |own| && own[n] == artes[i];
    }
    own
  }

  /** `hardDeleteUser(id)`: the user's checklist registros, time-clock records,
      the files of the user's artes and those artes go first, then the user;
      the last step fails on an unknown id after the others have run. */
  function HardDeleteUser(db: Db, id: Id): (r: HardDeletion)
    ensures r.error.None? <==> FindUser(db.users, id).Some?
    ensures r.error.Some? ==> r.error.value == RecordNotFound()
    ensures forall i :: 0 <= i < |r.db.users| ==> r.db.users[i].id != id
    ensures forall i :: 0 <= i < |r.db.registros| ==> r.db.registros[i].userId != id
    ensures forall i :: 0 <= i < |r.db.pontos| ==> r.db.pontos[i].userId != id
    ensures forall i :: 0 <= i < |r.db.artes| ==> r.db.artes[i].responsavelId != id
    ensures forall i :: 0 <= i < |r.db.arquivos| ==>
      (r.db.arquivos[i] in db.arquivos && !ArteIdIn(r.db.arquivos[i].arteId, OwnArtes(db.artes, id)))
    ensures forall i :: 0 <= i < |db.users| && db.users[i].id != id ==> db.users[i] in r.db.users
    ensures forall i :: 0 <= i < |db.registros| && db.registros[i].userId != id ==> db.registros[i] in r.db.registros
    ensures forall i :: 0 <= i < |db.pontos| && db.pontos[i].userId != id ==> db.pontos[i] in r.db.pontos
    ensures forall i :: 0 <= i < |db.artes| && db.artes[i].responsavelId != id ==> db.artes[i] in r.db.artes
    ensures forall i :: 0 <= i < |db.arquivos| && !ArteIdIn(db.arquivos[i].arteId, OwnArtes(db.artes, id)) ==>
      db.arquivos[i] in r.db.arquivos
    ensures r.db.itens == db.itens
  {
    var own := OwnArtes(db.artes, id);
    var db1 := db.(registros := Seqs.Filter(db.registros, (g: ChecklistRegistro) => g.userId != id),
                   pontos := Seqs.Filter(db.pontos, (p: Ponto) => p.userId != id),
                   arquivos := Seqs.Filter(db.arquivos, (f: Arquivo) => !ArteIdIn(f.arteId, own)),
                   artes := Seqs.Filter(db.artes, (a: Arte) => a.responsavelId != id));
    match FindUser(db.users, id)
    case None => HardDeletion(db1, Some(RecordNotFound()))
    case Some(_) => HardDeletion(db1.(users := Seqs.Filter(db.users, (u: User) => u.id != id)), None)
  }

  /** A user other than the deleted one that existed still exists. */
  lemma KeptUserExists(db: Db, id: Id, other: Id)
    requires other != id && UserExists(db, other)
    ensures UserExists(HardDeleteUser(db, id).db, other)
  {
    var d := HardDeleteUser(db, id).db;
    var j :| 0 <= j < |db.users| && db.users[j].id == other;
    assert db.users[j] in d.users;
    var n :| 0 <= n < |d.users| && d.users[n] == db.users[j];
  }

  /** A file that survives the cascade still points at an existing arte. */
  lemma KeptArquivoResolves(db: Db, id: Id, f: Arquivo)
    requires ReferencesResolve(db)
    requires f in HardDeleteUser(db, id).db.arquivos
    ensures ArteExists(HardDeleteUser(db, id).db, f.arteId)
  {
    var d := HardDeleteUser(db, id).db;
    var k :| 0 <= k < |d.arquivos| && d.arquivos[k] == f;
    ArquivoResolvesIn(db, id, d, f);
  }

  /** A file of `db` whose arte is not the deleted user's still resolves in
      any `d` that keeps every arte of the other users. */
  lemma ArquivoResolvesIn(db: Db, id: Id, d: Db, f: Arquivo)
    requires ReferencesResolve(db)
    requires f in db.arquivos && !ArteIdIn(f.arteId, OwnArtes(db.artes, id))
    requires forall i :: 0 <= i < |db.artes| && db.artes[i].responsavelId != id ==> db.artes[i] in d.artes
    ensures ArteExists(d, f.arteId)
  {
    var m :| 0 <= m < |db.arquivos| && db.arquivos[m] == f;
    assert ArteExists(db, f.arteId);
    var j :| 0 <= j < |db.artes| && db.artes[j].id == f.arteId;
    assert db.artes[j].responsavelId != id;
    assert db.artes[j] in d.artes;
    var n :| 0 <= n < |d.artes| && d.artes[n] == db.artes[j];
  }

  /** On a database whose references resolve, the cascade leaves no dangling
      reference. */
  lemma HardDeleteKeepsReferences(db: Db, id: Id)
    requires ReferencesResolve(db)
    ensures ReferencesResolve(HardDeleteUser(db, id).db)
  {
    var d := HardDeleteUser(db, id).db;
    forall i | 0 <= i < |d.pontos|
      ensures UserExists(d, d.pontos[i].userId)
    {
      assert d.pontos[i] in db.pontos;
      KeptUserExists(db, id, d.pontos[i].userId);
    }
    forall i | 0 <= i < |d.registros|
      ensures UserExists(d, d.registros[i].userId)
    {
      assert d.registros[i] in db.registros;
      KeptUserExists(db, id, d.registros[i].userId);
    }
    forall i | 0 <= i < |d.artes|
      ensures UserExists(d, d.artes[i].responsavelId)
    {
      assert d.artes[i] in db.artes;
      KeptUserExists(db, id, d.artes[i].responsavelId);
    }
    forall i | 0 <= i < |d.arquivos|
      ensures ArteExists(d, d.arquivos[i].arteId)
    {
      KeptArquivoResolves(db, id, d.arquivos[i]);
    }
  }
}

=== FILE: wrappers.dfy ===
/** Failure-compatible wrappers shared by every module of the model. */
module Wrappers {

  /** A JavaScript value that may be `null`/`undefined`. */
  datatype Option<+T> = None | Some(value: T) {

    predicate IsFailure() {
      None?
    }

    function PropagateFailure<U>(): Option<U>
      requires None?
    {
      None
    }

    function Extract(): T
      requires Some?
    {
      value
    }

    /** `x ?? d` */
    function GetOr(default: T): T {
      match this
      case Some(v) => v
      case None => default
    }
  }

  /** The outcome of a service call: a value, or the error the service throws. */
  datatype Result<+R, +E> = Success(value: R) | Failure(error: E) {

    predicate IsFailure() {
      Failure?
    }

    function PropagateFailure<U>(): Result<U, E>
      requires Failure?
    {
      Failure(error)
    }

    function Extract(): R
      requires Success?
    {
      value
    }
  }
}

=== FILE: zod.dfy ===
/** The part of the zod schema library the request schemas use, applied to
    parsed JSON request bodies and query strings. A failed parse names the
    key whose check failed ("" for a body that is not an object). */
module Zod {
  import opened Wrappers
  import opened JsText

  /** A parsed JSON value. Numbers are reals: JSON has no NaN or infinities. */
  datatype Json = JNull | JBool(b: bool) | JNum(n: real) | JStr(s: string)
                | JArr(items: seq<Json>) | JObj(fields: map<string, Json>)

  /** `body[key]`, with `None` for `undefined`: an absent key, or a body that
      is not an object. */
  function Get(body: Json, key: string): (r: Option<Json>)
    ensures r.Some? <==> body.JObj? && key in body.fields
    ensures r.Some? ==> r.value == body.fields[key]
  {
    if body.JObj? && key in body.fields then Some(body.fields[key]) else None
  }

  /** `Number.isInteger(n)` */
  predicate IsInteger(n: real) {
    n.Floor as real == n
  }

  /** `z.string().min(lo).max(hi)`, with `hi` None for no maximum; zod counts
      UTF-16 code units. */
  function Str(v: Json, lo: nat, hi: Option<nat>): (r: Option<string>)
    ensures r.Some? ==> v.JStr? && r.value == v.s
  {
    if v.JStr? && lo <= Utf16Length(v.s) && (hi.None? || Utf16Length(v.s) <= hi.value) then Some(v.s)
    else None
  }

  /** `z.string().regex(re)`, where `shape` is the language of `re`. */
  function Matching(v: Json, shape: string -> bool): (r: Option<string>)
    ensures r.Some? ==> v.JStr? && r.value == v.s
  {
    if v.JStr? && shape(v.s) then Some(v.s) else None
  }

  /** `z.number().int().min(lo)` */
  function Int(v: Json, lo: int): (r: Option<int>)
    ensures r.Some? ==> v.JNum? && r.value as real == v.n
  {
    if v.JNum? && IsInteger(v.n) && v.n >= lo as real then Some(v.n.Floor) else None
  }

  /** `z.number().positive()` */
  function Positive(v: Json): (r: Option<real>)
    ensures r.Some? ==> v.JNum? && r.value == v.n
  {
    if v.JNum? && v.n > 0.0 then Some(v.n) else None
  }

  /** `z.enum([...])`, where `of` maps each listed string to its value. */
  function Enum<T>(v: Json, of: string -> Option<T>): (r: Option<T>)
    ensures r.Some? ==> v.JStr? && r == of(v.s)
  {
    if v.JStr? then of(v.s) else None
  }

  /** A required key. */
  function Req<T>(body: Json, key: string, check: Json -> Option<T>): (r: Result<T, string>)
    ensures r.Success? <==> Get(body, key).Some? && check(Get(body, key).value).Some?
    ensures r.Success? ==> r.value == check(Get(body, key).value).value
    ensures r.Failure? ==> r.error == key
  {
    match Get(body, key)
    case None => Failure(key)
    case Some(v) => if check(v).Some? then Success(check(v).value) else Failure(key)
  }

  /** `.optional()`: an absent key is `undefined`; `null` is still checked
      (and fails every check used here). */
  function Opt<T>(body: Json, key: string, check: Json -> Option<T>): (r: Result<Option<T>, string>)
    ensures r.Success? <==> Get(body, key).None? || check(Get(body, key).value).Some?
    ensures r.Success? && Get(body, key).None? ==> r.value.None?
    ensures r.Success? && Get(body, key).Some? ==> r.value == check(Get(body, key).value)
    ensures r.Failure? ==> r.error == key
  {
    match Get(body, key)
    case None => Success(None)
    case Some(v) => if check(v).Some? then Success(check(v)) else Failure(key)
  }

  /** `.nullable().optional()`: `None` is `undefined`, `Some(None)` is `null`. */
  function Nullable<T>(body: Json, key: string, check: Json -> Option<T>): (r: Result<Option<Option<T>>, string>)
    ensures r.Success? <==> Get(body, key).None? || Get(body, key).value.JNull?
                            || check(Get(body, key).value).Some?
    ensures r.Success? && Get(body, key).None? ==> r.value.None?
    ensures r.Success? && Get(body, key).Some? && Get(body, key).value.JNull? ==> r.value == Some(None)
    ensures r.Success? && Get(body, key).Some? && !Get(body, key).value.JNull? ==>
      r.value == Some(check(Get(body, key).value))
    ensures r.Failure? ==> r.error == key
  {
    match Get(body, key)
    case None => Success(None)
    case Some(v) =>
      if v.JNull? then Success(Some(None))
      else if check(v).Some? then Success(Some(check(v)))
      else Failure(key)
  }

  // ----- reading a parsed body -----

  /** The string at an optional key. */
  function OptString(body: Json, key: string): Option<string>
    requires body.JObj?
  {
    if key in body.fields && body.fields[key].JStr? then Some(body.fields[key].s) else None
  }

  /** The integer at an optional key. */
  function OptInt(body: Json, key: string): Option<int>
    requires body.JObj?
  {
    if key in body.fields && body.fields[key].JNum? then Some(body.fields[key].n.Floor) else None
  }

  /** The number at an optional key. */
  function OptNumber(body: Json, key: string): Option<real>
    requires body.JObj?
  {
    if key in body.fields && body.fields[key].JNum? then Some(body.fields[key].n) else None
  }

  /** The enumerated value named at an optional key. */
  function OptEnum<T>(body: Json, key: string, of: string -> Option<T>): Option<T>
    requires body.JObj?
  {
    if key in body.fields && body.fields[key].JStr? then of(body.fields[key].s) else None
  }

  /** The string at a key that may also hold `null`: `None` when absent,
      `Some(None)` for `null`. */
  function NullableString(body: Json, key: string): Option<Option<string>>
    requires body.JObj?
  {
    if key !in body.fields then None
    else if body.fields[key].JNull? then Some(None)
    else if body.fields[key].JStr? then Some(Some(body.fields[key].s))
    else None
  }
}
